=== FILE: README.md ===
# imgcraft core, modelled in Dafny

This project models the parts of imgcraft that decide money, credits and
state, together with the small rules and client-side state holders around
them. One Dafny module stands for each source file.

**Server side (Python).**
- `Store.Db` holds the Supabase tables as fields: credit rows by user, payment rows, the append-only tool-usage log, the ad-free flags and the ad-free purchases.
- `CreditManager` covers initialising, deducting and adding credits, including the admin bypass and how RPC replies are mapped.
- `Settlement` is the synchronous payment confirmation in `app.py`.
- `Webhook` is the gateway's webhook path. `RazorpayClient` holds the plan table and builds orders.
- `AdFree` is the ad-free entitlement flow. `AdminConfig` is the admin predicate.
- `AuthMiddleware` holds the auth and credit gates. `ToolCosts` is the tool-cost cache.
- `Streak` is the daily-streak state machine. `SyncTools` classifies tool-definition syncs.
- `AppRules` holds the request rules of `app.py`, with `Hex` as the `#rrggbb` colour codec of CSS Color Module Level 4, section 5.2.

Each state-changing operation is a method on the shared store. Its `ensures`
ties the new state and the reply to a pure function of the old state. The
properties are lemmas about those functions. A client callback racing a
webhook is therefore a sequence of method calls, and the lemmas follow such
sequences.

**Client side (JavaScript).**
- Undo/redo history: `RemoveBg`. Annotation list: `Annotation`.
- Crop geometry over reals: `Crop`. Colour codec and positions: `Watermark`.
- Web-readiness score: `WebReadyScore`. Filter record and presets: `Filter`.
- Collage upload list: `Collage`. Resize checks: `ResizeClient`.
- Prompt state machines: `ReviewModal` and `AdsClient`.
- Service worker routing and cache trimming: `ServiceWorker`.
- Base64url key normalisation (section 5 of RFC 4648), the install prompt and the theme: `Pwa`.

**Payment settlement.** The callback and the webhook each settle a payment
on their own:
- the callback checks for an existing row and inserts in two separate calls;
- the captured-payment webhook has no completed guard, so through
  `Webhook.ProcessWebhook` a payment the callback settled is credited again
  (see Findings);
- payment statuses are `pending`, `completed` and `failed`.

**Crop corner handles.** In `static/js/crop.js` the corner handles are named
`tl`, `tr`, `bl` and `br`. The resize branch moves an edge only when the
handle name contains `e`, `w`, `n` or `s`, and none of these names does. A
corner drag therefore moves no edge. `Crop.CornersMoveNoEdge` states this.

## Model

| member | source | states |
|---|---|---|
| AdminConfig.CaseInsensitive | admin_config.py:21 | two addresses that differ only in letter case get the same administrator answer |
| AdminConfig.ExactlyOneAdmin | admin_config.py:7-21 | with the configured list, an address is an administrator iff its lower-cased form is "sparsh0308@gmail.com" |
| AdminConfig.AdminAddressIsLower | admin_config.py:7-9 | the configured address is already lower-case |
| AdminConfig.EmptyIsNotAdmin | admin_config.py:7-21 | the empty address is never an administrator |
| Store.DeductProc | credits/manager.py:119-137 | the `deduct_credits` procedure: succeeds iff the account exists with remaining >= n; on success the balance drops by n and exactly one successful usage record is appended, otherwise every table is unchanged and the reply carries the required amount |
| Store.AddProc | credits/manager.py:168-183 | the `add_credits` procedure: defined iff the account exists; it adds n to the total and the remaining balance and touches nothing else |
| Store.RowsForOrder | payments/webhook_handler.py:62-66 | exactly the indices of the `payments` rows carrying the order id |
| Store.PurchasesForOrder | ads/__init__.py:224-228 | exactly the indices of the `ad_free_purchases` rows carrying the order id |
| Store.Db.CallDeduct | credits/manager.py:119-128 | the store object after the call is `DeductProc` of the old one |
| Store.Db.CallAdd | credits/manager.py:168-176 | the store object after the call is `AddProc` of the old one; an unknown account raises and changes nothing |
| CreditManager.InitializeSpec | credits/manager.py:38-70 | an existing row: nothing written and "already initialized"; a fresh row holds the grant in total, remaining and free; success iff the select and (for a new user) the insert did not raise; errors are prefixed "Failed to initialize credits:" and write nothing |
| CreditManager.InitializeIsIdempotent | credits/manager.py:51-54 | after a successful initialisation a second one, with any grant, writes nothing and the row keeps the first grant |
| CreditManager.InitializeCredits | credits/manager.py:38-70 | the store and result are those of `InitializeSpec` |
| CreditManager.FromReply | credits/manager.py:131-145 | success passes the procedure's remaining and deducted amounts through; failure passes the error and defaults remaining to 0 and required to the requested amount |
| CreditManager.DeductSpec | credits/manager.py:86-152 | an administrator gets success with remaining 999999, no balance change and exactly one zero-cost usage record unless writing it failed, and no other table changes; a failed user lookup or missing email fails with "Failed to deduct credits:" before anything is written |
| CreditManager.DeductNonAdmin | credits/manager.py:117-145 | a non-administrator's deduction is exactly the procedure's atomic step with its reply mapped by `FromReply`; a transport error changes nothing |
| CreditManager.DeductKeepsBalanceNonNegative | credits/manager.py:86-152 | starting from a non-negative balance and amount, no path makes the balance negative, and a refused deduction changes no table |
| CreditManager.DeductCredits | credits/manager.py:73-152 | the store and result are those of `DeductSpec` |
| CreditManager.AddSpec | credits/manager.py:155-189 | success iff the procedure returned; then total and remaining grow by n, other accounts, usage and payments are unchanged, and the reported balance is the new one; otherwise nothing changes and the error is prefixed "Failed to add credits:" |
| CreditManager.AddCredits | credits/manager.py:155-189 | the store and result are those of `AddSpec` |
| CreditManager.LogFailedSpec | credits/manager.py:222-248 | success iff the insert did not raise; then exactly one zero-cost failed usage record with the message is appended and nothing else in the store changes |
| CreditManager.LogFailedUsage | credits/manager.py:222-248 | the store and result are those of `LogFailedSpec` |
| Settlement.Precheck | app.py:463-536 | a request is accepted only with all three parameters present, a matching signature, fetched payment and order, and a positive credit count in the order's notes |
| Settlement.EarlyRejectionsWriteNothing | app.py:473-487 | missing parameters, a bad signature or a non-positive credit count give status 400 and leave the store unchanged |
| Settlement.DuplicateIsAnsweredWithoutWriting | app.py:538-552 | an already recorded payment id is answered "Payment already processed" with the order's credits and no write |
| Settlement.FreshPaymentCreditsOnce | app.py:557-635 | a fresh valid payment appends exactly one completed row with amount = paise // 100 and adds the order's credits once; the reply carries the new balance |
| Settlement.CreditFailureMarksRowFailed | app.py:594-608 | when adding credits fails after the insert, the new row is marked failed, balances are unchanged and the reply is a 500 error |
| Settlement.RecordedPaymentWritesNothing | app.py:538-590 | with the payment id already recorded, nothing is written, whether the duplicate check or the unique key stops it |
| Settlement.RecordSuccessKeepsRow | app.py:557-635 | a successful record step leaves the payment id in the table |
| Settlement.SecondCallbackChangesNothing | app.py:538-590 | after one successful confirmation, repeating it for the same payment id changes nothing: the callback path credits at most once per payment id |
| Settlement.SuccessAppendsRowAndCredits | app.py:557-635 | a successful confirmation of an unrecorded payment appended exactly the new completed row and added the order's credits to the buyer's balance |
| Settlement.VerifyPayment | app.py:452-643 | the store and reply are those of `SettleSpec` |
| Webhook.VerifyWebhookSignature | payments/webhook_handler.py:18-41 | true iff the secret is set and non-empty and the header equals the expected HMAC-SHA256 hex digest; an unset secret or a missing header fails closed |
| Webhook.CapturedAsWritten | payments/webhook_handler.py:44-103 | the captured handler as written; unless exactly one row carries the order id, `.single()` raises and the handler fails with the raised text and writes nothing; a success means the select, the update and the credit all went through |
| Webhook.Captured | payments/webhook_handler.py:44-103 | the handler with the intended guard (the corrected half of the webhook finding): anything but one row fails with the raised text and no write, a single row already completed is left as it is with no second credit, and a pending or failed row is handled exactly as the code does |
| Webhook.FailedSpec | payments/webhook_handler.py:106-134 | `payment.failed` only sets the status of the order's rows to failed; the other rows and every other table are unchanged, and a raised update changes nothing |
| Webhook.ProcessSpec | payments/webhook_handler.py:137-172 | a bad signature gives 401 before any handler runs; captured and failed events give 200 iff their handler succeeds and 500 otherwise; any other event gives 200 with no store change; a captured event leaves the store as the unguarded handler as written does |
| Webhook.ProcessIntended | payments/webhook_handler.py:155-159 | the endpoint with the guarded handler (the corrected half of the webhook finding): it agrees with `ProcessSpec` on every request except a correctly signed captured event, which the guarded `Captured` handles |
| Webhook.SettledOrderHasOneCompletedRow | app.py:557-635 | a successful confirmation of a new order leaves exactly one completed row for it, for the buyer, and raises the buyer's balance by the order's credits |
| Webhook.CallbackThenWebhookCreditsTwice | payments/webhook_handler.py:62-97 | a successful confirmation followed by one captured notification, through the endpoint as written (`ProcessSpec`), raises the buyer's balance by twice the order's credits |
| Webhook.NoRowsForOrder | payments/webhook_handler.py:62-72 | an order id that no row carries selects no row |
| Webhook.CallbackThenWebhooksCreditOnce | payments/webhook_handler.py:62-97 | through the endpoint with the guarded handler (`ProcessIntended`), any number of correctly signed captured notifications after a successful confirmation leave the store as the confirmation left it |
| Webhook.ReplayOnCompleted | payments/webhook_handler.py:62-97 | replaying correctly signed captured notifications through `ProcessIntended` over a single completed row is a no-op |
| Webhook.HandlePaymentCapturedAsWritten | payments/webhook_handler.py:44-103 | the store and result are those of `CapturedAsWritten` |
| Webhook.HandlePaymentCaptured | payments/webhook_handler.py:44-103 | the store and result are those of the guarded `Captured` (the corrected handler; the endpoint method below calls the handler as written) |
| Webhook.HandlePaymentFailed | payments/webhook_handler.py:106-134 | the store and result are those of `FailedSpec` |
| Webhook.ProcessWebhook | payments/webhook_handler.py:137-172 | the store and reply are those of `ProcessSpec`: captured events go to the handler as written |
| RazorpayClient.PlanIdsDistinct | payments/razorpay_client.py:27-67 | the four plan ids are pairwise distinct |
| RazorpayClient.PlansPositive | payments/razorpay_client.py:27-67 | every plan has positive credits and a positive price |
| RazorpayClient.GetPlanById | payments/razorpay_client.py:70-83 | returns the first plan with the id, and None iff no plan has it |
| RazorpayClient.CreateOrder | payments/razorpay_client.py:86-121 | the payload holds amount*100, the currency and `payment_capture` 1, plus `receipt` and `notes` iff they are truthy, and no other key; a gateway error becomes a failure carrying its text |
| RazorpayClient.OrderNotes | app.py:430-437 | the credit-pack order's notes hold exactly the user, the plan id and the credit count, and the count parses back to the plan's credits |
| AdFree.PlanAmountsAreWholeRupees | ads/__init__.py:29-48 | every plan's paise amount is positive and a whole number of rupees |
| AdFree.CreateOrderSpec | ads/__init__.py:84-171 | no client: error and no write; an unknown plan (None means lifetime): error and no write; success iff the client, the plan and the gateway order are there, recording one pending purchase with amount / 100 unless that insert failed; only the purchases can change, and every error, including a failed gateway order, writes nothing |
| AdFree.CreateAdFreeOrder | ads/__init__.py:84-171 | the store and reply are those of `CreateOrderSpec` |
| AdFree.VerifySpec | ads/__init__.py:179-270 | no client: error and no write; a bad signature marks the purchase failed (unless that update fails) and never touches the flag; a good signature sets the user's flag and completes the purchase; a failed profile update answers the activation error and writes nothing, while a failed purchase update answers the same error after the flag was already set; only flags and purchases ever change |
| AdFree.VerifyAdFreePayment | ads/__init__.py:179-270 | the store and reply are those of `VerifySpec` |
| AdFree.HookSpec | ads/__init__.py:278-338 | no secret: error and no write; otherwise "Webhook processed"; a `payment.authorized` event with both ids whose order has exactly one purchase, read and updated without error, completes that purchase with the payment id and sets its buyer's `ad_free` flag unless the profile update fails; any other event, a missing id, a failing select, a count other than one or a failing purchase update changes nothing; credits, payments and usage never change |
| AdFree.HandleRazorpayWebhook | ads/__init__.py:278-338 | the store and reply are those of `HookSpec` |
| AdFree.AdFreeStatus | ads/__init__.py:346-366 | true iff the read succeeds and the profile exists with the flag set; false when the row is missing or the read fails |
| AdFree.ConfirmationNeverRevokes | ads/__init__.py:214-228 | a confirmation never turns a set ad-free flag off |
| AdFree.NotificationNeverRevokes | ads/__init__.py:303-334 | a notification never turns a set ad-free flag off |
| AdFree.BadSignatureGrantsNothing | ads/__init__.py:246-263 | a confirmation with a non-matching signature leaves every flag as it was |
| AuthMiddleware.WordEnd | auth/middleware.py:21 | the end of a word: a position at or after the start, with no separator before it and a separator or the end of the text at it |
| AuthMiddleware.Words | auth/middleware.py:21 | `str.split()`: every word is non-empty and holds no white space |
| AuthMiddleware.WordsOfWord | auth/middleware.py:21 | a text with no white space splits into itself alone |
| AuthMiddleware.WordsAfterSpace | auth/middleware.py:21 | a word, a space and any text split into that word followed by the split of the text |
| AuthMiddleware.WordEndOfPrefix | auth/middleware.py:21 | the word at the front of a text ends where its leading run of non-space characters ends |
| AuthMiddleware.TwoWords | auth/middleware.py:21 | two words joined by a space split back into the two words |
| AuthMiddleware.GetAuthToken | auth/middleware.py:9-25 | a token iff the header splits into exactly two words whose first is "bearer" in any letter case, and then it is the second word; None otherwise |
| AuthMiddleware.BearerHeaderYieldsToken | auth/middleware.py:16-25 | "Bearer <token>", with the scheme in any letter case, yields exactly the token |
| AuthMiddleware.OtherSchemeYieldsNothing | auth/middleware.py:22-23 | a header with any other scheme yields no token |
| AuthMiddleware.RequireAuth | auth/middleware.py:28-70 | the route's response is the reply iff there is a token, the provider returns a user for it and the route, run with that user, returns; no token, a falsy answer, a raising provider and a raising route all give 401, the last with "Authentication failed" and the raised text |
| AuthMiddleware.ReadBalance | auth/middleware.py:99-100 | the balance read succeeds iff the read does not fail and the user has a row, and then it is the row's remaining credits |
| AuthMiddleware.RunChecked | auth/middleware.py:108-120 | the route run inside `require_credits`' `try`: its response when it returns, 500 "Failed to check credits" with the raised text when it raises |
| AuthMiddleware.RequireCredits | auth/middleware.py:73-123 | an administrator always reaches the route; anyone else reaches it iff the balance read succeeds and covers the need, gets 402 with remaining and required when short, and 500 when the read raises; a route that raises gets 500; no exception leaves the decorator |
| AuthMiddleware.RunUnguarded | auth/middleware.py:183-184 | a guest run outside any `try`: the route's response when it returns, and an escaping exception (Flask's 500) when it raises |
| AuthMiddleware.AllowGuestAccess | auth/middleware.py:158-224 | a free tool with no token runs as guest; a paid tool with no token gets 401; the route's response comes with a user only for a verified token whose balance covers the cost; a 402 carries the cost; with a verified user: a balance below the cost gives 402, a covering balance runs the route with the user and answers with its response, and a raising verification, a falsy user record or a raising balance read runs a free tool as guest and gives a paid tool 401 ("Authentication failed" with the error, or "Authentication required"); a paid tool never runs as guest and never lets an exception escape; a free tool runs, gets 402, or lets a guest run's exception escape; when the route raises for a verified user, a free tool's route runs again as guest and a paid tool gets 401 "Authentication failed" |
| AuthMiddleware.GuestGateChargesAdminsToo | auth/middleware.py:183-201 | the guest gate has no administrator exemption: a verified user whose balance is below the cost gets 402 |
| ToolCosts.FreeToolsAreResizeAndConvert | credits/tool_costs.py:207-217 | a tool is free for guests iff it is "resize" or "convert" |
| ToolCosts.ActiveRows | credits/tool_costs.py:37 | exactly the active rows of the table |
| ToolCosts.Named | credits/tool_costs.py:77-82 | exactly the active rows with the given name |
| ToolCosts.Single | credits/tool_costs.py:77-82 | `.single()` yields only an active row of the table with that name |
| ToolCosts.IndexByName | credits/tool_costs.py:40 | the keys are exactly the rows' names, and each key holds a full row of that name, the last one in row order |
| ToolCosts.InitSpec | credits/tool_costs.py:26-50 | succeeds iff the query works and some tool is active; then the cache is the active rows by name and the flag is set; otherwise cache and flag are unchanged |
| ToolCosts.CostAsWritten | credits/tool_costs.py:53-97 | as written: a cache hit returns the cached cost with no query; a fetched price is returned and cached as a cost-only entry |
| ToolCosts.CostSpec | credits/tool_costs.py:53-97 | the cost read with the fetched row cached whole: a cache hit returns the cached cost; a missing tool or a query error costs 1; a fetched row gives its cost |
| ToolCosts.InfoSpec | credits/tool_costs.py:100-142 | a cache hit returns the cached entry; otherwise the info exists iff the query works and exactly one active row matches, and then it is that row |
| ToolCosts.AvailableSpec | credits/tool_costs.py:192-204 | available iff the info exists and is active; the cache ends as the info read left it |
| ToolCosts.PreparedKeepsSound | credits/tool_costs.py:67-68 | the lazy initialisation keeps every cache entry a full active row under its own name |
| ToolCosts.InitKeepsSound | credits/tool_costs.py:26-50 | the initialisation keeps the cache sound |
| ToolCosts.AllToolsKeepsSound | credits/tool_costs.py:145-189 | the list read keeps the cache sound |
| ToolCosts.CostKeepsSound | credits/tool_costs.py:53-97 | the corrected cost read keeps the cache sound |
| ToolCosts.InfoKeepsSound | credits/tool_costs.py:100-142 | the info read keeps the cache sound |
| ToolCosts.CachedToolIsAvailable | credits/tool_costs.py:192-204 | in a sound cache every cached tool is reported available |
| ToolCosts.CostOnlyEntryHidesActiveTool | credits/tool_costs.py:84-89 | as written: after a price read caches a cost-only entry for an active tool, the tool is reported unavailable |
| ToolCosts.FullEntryKeepsActiveToolAvailable | credits/tool_costs.py:203-204 | corrected: in the same situation the tool stays available |
| ToolCosts.AllToolsSpec | credits/tool_costs.py:145-189 | the cached entries when the cache is in use and not empty; otherwise the active rows, or [] on an error, and with the cache in use a non-empty answer replaces the cache and sets the flag |
| ToolCosts.RefreshSpec | credits/tool_costs.py:220-230 | the cache is emptied and the flag cleared before initialising; on success the cache is the active rows by name, on failure it stays empty with the flag clear |
| ToolCosts.ToolCache.constructor | credits/tool_costs.py:13-14 | the cache starts empty and not initialised |
| ToolCosts.ToolCache.InitializeToolCache | credits/tool_costs.py:26-50 | the new cache state and result are those of `InitSpec` |
| ToolCosts.ToolCache.GetToolCost | credits/tool_costs.py:53-97 | the new cache state and cost are those of the corrected `CostSpec` |
| ToolCosts.ToolCache.GetToolInfo | credits/tool_costs.py:100-142 | the new cache state and info are those of `InfoSpec` |
| ToolCosts.ToolCache.IsToolAvailable | credits/tool_costs.py:192-204 | the new cache state and answer are those of `AvailableSpec` |
| ToolCosts.ToolCache.GetAllTools | credits/tool_costs.py:145-189 | the new cache state and answer are those of `AllToolsSpec` |
| ToolCosts.ToolCache.FillCache | credits/tool_costs.py:177-179 | the loop leaves the cache equal to the rows indexed by name |
| ToolCosts.ToolCache.RefreshToolCache | credits/tool_costs.py:220-230 | the new cache state and result are those of `RefreshSpec` |
| Streak.Transition | streak/utils.py:62-146 | no row: started with 1/1; a zero streak: started with longest max(1, longest), checked before the same-day case; same day: maintained, nothing changes; the day before: current + 1 and longest max(new, old); otherwise reset to 1 with longest kept; every writing branch stamps today |
| Streak.TransitionKeepsConsistent | streak/utils.py:62-146 | from longest >= current >= 0 (or no row), an update leaves longest >= current >= 1 |
| Streak.SecondCallSameDayIsNoOp | streak/utils.py:103-111 | a second update on the same day changes nothing and reports the streak maintained |
| Streak.ConsecutiveDays | streak/utils.py:114-131 | activity on k consecutive days after today's lengthens the streak by exactly k and keeps the row consistent |
| Streak.UpdateSpec | streak/utils.py:44-150 | a failed read reports the error and writes nothing; success iff the read works and either the write works or nothing needed writing; the reply's status and numbers are the transition's, and only a non-maintained update stores the new row |
| Streak.GetStreak | streak/utils.py:14-42 | None iff the read fails; the stored row when there is one; zeros and no date otherwise |
| Streak.StreakTable.constructor | streak/utils.py:20 | the table holds the given rows |
| Streak.StreakTable.UpdateStreak | streak/utils.py:44-150 | the new table and reply are those of `UpdateSpec` |
| SyncTools.DefinitionNamesDistinct | sync_tools.py:25-122 | the defined tool names are pairwise distinct |
| SyncTools.FreeDefinitionsAreGuestTools | sync_tools.py:25-122 | a definition is free iff it is a guest tool of credits/tool_costs.py, and free definitions cost 0 |
| SyncTools.FetchExisting | sync_tools.py:139-148 | {} when the read fails; otherwise the keys are exactly the stored names, each key holds a stored row of that name, and it is the last such row, as the dict comprehension overrides earlier ones |
| SyncTools.Changes | sync_tools.py:182-189 | exactly one change line per compared field (display_name, credit_cost, description, is_active) that differs |
| SyncTools.Step | sync_tools.py:175-232 | each definition bumps exactly one counter |
| SyncTools.StepClassifies | sync_tools.py:179-232 | a missing tool is inserted; an existing one is up to date iff no compared field differs, and updated otherwise; a dry run issues nothing; a raised write counts as an error; update payloads omit the name and the free flag, insert payloads the free flag |
| SyncTools.CountersAddUp | sync_tools.py:162-234 | inserted + updated + unchanged + errors equals the number of definitions |
| SyncTools.DryRunWritesNothing | sync_tools.py:192-212 | a dry run issues no statement |
| SyncTools.DryRunReportsTheSame | sync_tools.py:191-223 | with no failing write, a dry run reports the same counters and details as the real run |
| SyncTools.EmptyStoreInsertsAll | sync_tools.py:209-223 | with nothing fetched, every definition is inserted, in order |
| SyncTools.ToolConfigWriter.constructor | sync_tools.py:151-169 | no statement issued yet |
| SyncTools.ToolConfigWriter.SyncTools | sync_tools.py:151-234 | the statements issued and the stats are those of the loop over the definitions against the fetched rows, and the counters add up to the total |
| SyncTools.ToolConfigWriter.SyncDefinitions | sync_tools.py:175-232 | the loop appends exactly the statements, counters and details of `SyncSpec` |
| SyncTools.ValidateSync | sync_tools.py:237-260 | true iff every defined tool is stored with the defined price |
| SyncTools.ValidateDefinitions | sync_tools.py:242-257 | the loop's flag ends true iff every definition is stored with its price; other fields are ignored |
| SyncTools.FailedFetchIsNotInSync | sync_tools.py:245-247 | a failed fetch makes validation fail |
| Hex.HexDigit | app.py:1167 | a digit value below 16 is printed as a lower-case hex character that reads back as that value |
| Hex.Hex2 | app.py:1167 | `{:02x}` gives exactly two lower-case hex digits whose value is the byte |
| Hex.Hex2OfPair | app.py:1167 | printing the value of two hex digits gives the same digits back, in lower case |
| Hex.ColorHex | app.py:1167 | the palette notation is '#' followed by six lower-case hex digits |
| AppRules.TruncDiv | app.py:915-917 | Python's `int()` of a quotient: the Euclidean quotient for non-negative numerators, truncation toward zero otherwise |
| AppRules.ResizeTarget | app.py:911-917 | pixel mode takes width and height as given, and fails iff either is missing; percent mode fails iff the scale is missing, and otherwise gives each side times scale/100 rounded down |
| AppRules.ResizeCheck | app.py:904-941 | the resize proceeds iff both sides are at most 10000 and their product at most 100,000,000, with the requested size; the side check refuses first; an unconvertible form answers 500 |
| AppRules.PixelLimitOnlyCatchesNegativePairs | app.py:920-941 | once both sides pass the 10000 check, the pixel limit can only refuse a pair of negative sides |
| AppRules.PngColors | app.py:1007 | the palette size is quality*256/100 truncated, and at least 2 |
| AppRules.PngColorsBounded | app.py:1005-1007 | below quality 90 the palette has between 2 and 230 colours |
| AppRules.PngColorsMonotone | app.py:1007 | a higher quality never gives fewer colours |
| AppRules.CompressPlanFor | app.py:988-1015 | a quality field that `int()` rejects raises whatever the format, and only then (outside the route's `try`, so `require_auth` answers it with 401 "Authentication failed" after the credits were deducted); otherwise JPEG (any case, or "JPG") is saved at the quality capped at 95; PNG is quantised iff the quality is below 90, to `PngColors` colours; WebP keeps the quality; format defaults to JPEG and a missing quality to 80 |
| AppRules.ExifCost | app.py:1373 | viewing costs 1 credit, every other action 2 |
| AppRules.ExifGate | app.py:1370-1394 | admins pass without a charge; otherwise a failed balance read answers 500, and the action is charged iff the balance (0 when absent) covers its price, else 402 |
| AppRules.CategorizeExifTag | app.py:1559-1612 | the category is one of five, chosen by the first group of words that occurs in the lower-cased tag, in the order GPS, date and time, camera, software, basic; unmatched tags fall back on the directory |
| AppRules.DateTimeTagsAreDates | app.py:1561-1570 | any tag containing "DateTime", in any letter case and not mentioning GPS, is filed under date and time |
| AppRules.Clamp | app.py:1726-1729 | `max(0, min(v, hi))` lies in [0, hi] and keeps a value already inside |
| AppRules.CropBox | app.py:1724-1735 | a box is used only if it is non-empty after clamping, and it lies inside the image; a box already inside the image is used as given |
| AppRules.SlotsInsideCanvas | app.py:1946-1976 | every slot of every layout template lies inside the unit canvas |
| AppRules.ChooseLayout | app.py:2010-2037 | a known requested layout is used; otherwise, for 2 to 6 images, the default layout has exactly one slot per image |
| AppRules.ExtractColors | app.py:1157-1171 | the loop keeps the first eight complete r, g, b triples of the palette, in order, each with its `#rrggbb` notation |
| AppRules.StripHashes | app.py:1826 | `lstrip('#')` removes a prefix, and what remains does not start with '#' |
| AppRules.ParseHex | app.py:1826 | the empty string is rejected, as `int('', 16)` raises |
| AppRules.ParseHexPair | app.py:1826 | two hex digits are read as their value |
| AppRules.ParseSixDigits | app.py:1826 | six hex digits after the leading '#'s are read as three pairs |
| AppRules.ColorNotationRoundTrip | app.py:1826 | the watermark colour parser reads back the palette's notation of every colour |
| AppRules.ShortColorIsRejected | app.py:1826 | a colour with at most four characters after the '#'s is rejected, so the route answers 500 |
| RemoveBg.SaveSpec | static/js/remove_bg.js:583-594 | a save cuts the redo tail, drops the oldest entry once more than 20 remain, and appends the snapshot as the current entry; the history never grows beyond 21 |
| RemoveBg.EditHistory.constructor | static/js/remove_bg.js:428-431 | entering edit mode leaves one entry, current |
| RemoveBg.EditHistory.SaveState | static/js/remove_bg.js:583-594 | the history and step become those of `SaveSpec`, and the bounds are kept |
| RemoveBg.EditHistory.Reset | static/js/remove_bg.js:566-580 | after a reset only the current canvas is in the history |
| RemoveBg.EditHistory.Undo | static/js/remove_bg.js:601-607 | steps back iff there is an earlier entry, and shows it; the entries never change |
| RemoveBg.EditHistory.Redo | static/js/remove_bg.js:609-615 | steps forward iff there is a later entry, and shows it; the entries never change |
| RemoveBg.EditHistory.Buttons | static/js/remove_bg.js:596-599 | both buttons are disabled iff there is at most one entry |
| RemoveBg.AfterSave | static/js/remove_bg.js:583-599 | right after a save, undo is possible iff an earlier entry survived, and redo never is |
| RemoveBg.SliderPercent | static/js/remove_bg.js:329-340 | the slider position stays within 0 to 100 percent, and is the exact share when the cursor is inside |
| RemoveBg.ClampZoom | static/js/remove_bg.js:733 | the zoom stays within [0.1, 5], and a zoom inside is kept |
| Annotation.DrawnRecordsAreWellFormed | static/js/annotation.js:482-493 | each record the tool draws carries exactly the fields its kind needs, and default labels of different kinds differ |
| Annotation.NewIdIsFresh | static/js/annotation.js:483 | taking the counter's value as the id and advancing it keeps every id below the counter and distinct from all ids present |
| Annotation.FirstIndex | static/js/annotation.js:842 | `findIndex`: the first position holding the id, and None iff no entry has it |
| Annotation.SpliceIncreasing | static/js/annotation.js:843-845 | splicing one entry out of a list with increasing ids keeps them increasing |
| Annotation.SpliceMembers | static/js/annotation.js:843-845 | splicing out the only entry with an id keeps exactly the other entries |
| Annotation.DeleteKeepsOthersInOrder | static/js/annotation.js:837-852 | deleting keeps exactly the entries with other ids, in order, with their ids still increasing and below the counter |
| Annotation.RemoveFirstSplits | static/js/annotation.js:842-845 | the delete equals splicing at the first position that holds the id |
| Annotation.ExportItem | static/js/annotation.js:872-880 | the exported entry keeps id, type, label and colour, carries `coords` only for rectangles and points and `points` only for polygons, and equals a record the tool built |
| Annotation.Export | static/js/annotation.js:857-890 | nothing is exported iff the list is empty; otherwise one entry per annotation, in order |
| Annotation.Raise | static/js/annotation.js:966-968 | the counter never goes down and ends above the imported id |
| Annotation.LoadRaisesCounter | static/js/annotation.js:921-970 | import never lowers the counter, keeps what was already loaded, and leaves every loaded id below the counter |
| Annotation.LoadWellFormed | static/js/annotation.js:921-970 | records the tool built all load, unchanged and in order, and the counter stays put when their ids are below it |
| Annotation.ExportThenImportRestores | static/js/annotation.js:857-982 | exporting the tool's list and importing the file back restores the same list and counter and reports success |
| Annotation.ClampZoom | static/js/annotation.js:989 | the zoom lies in [0.5, 3], keeps a value inside, and takes the nearer bound outside |
| Annotation.AnnotationTool.constructor | static/js/annotation.js:18-31 | an empty list, the counter at 1, zoom 1, no drawing in progress |
| Annotation.AnnotationTool.StartRectangle | static/js/annotation.js:439-455 | an empty rectangle at the cursor; the annotations are untouched |
| Annotation.AnnotationTool.UpdateRectangle | static/js/annotation.js:457-471 | the rectangle spans the start point and the cursor, whichever way the drag goes, with sides that are not negative |
| Annotation.AnnotationTool.FinishRectangle | static/js/annotation.js:473-510 | a missing rectangle or one with a side below 5 adds nothing; otherwise one rectangle is appended with the counter's id, and the counter advances |
| Annotation.AnnotationTool.AddPolygonPoint | static/js/annotation.js:515-540 | the point is appended, to a fresh list when no polygon was in progress |
| Annotation.AnnotationTool.FinishPolygon | static/js/annotation.js:592-668 | fewer than 3 points adds nothing; otherwise one polygon is appended with the counter's id; the drawing state is cleared either way |
| Annotation.AnnotationTool.AddPoint | static/js/annotation.js:673-706 | one point annotation is appended with the counter's id, and the counter advances |
| Annotation.AnnotationTool.DeleteAnnotation | static/js/annotation.js:837-852 | the list becomes `RemoveFirst` of the old list; the counter is untouched |
| Annotation.AnnotationTool.ImportAnnotations | static/js/annotation.js:895-982 | a file that is not JSON or lacks an `annotations` array changes nothing and fails; otherwise the list and counter are those of `Load`, and the counter never goes down |
| Annotation.AnnotationTool.ChangeImage | static/js/annotation.js:1004-1031 | after a confirmation the list is empty and the counter back at 1; otherwise nothing changes |
| Annotation.AnnotationTool.Zoom | static/js/annotation.js:987-993 | the zoom becomes the clamped product |
| Annotation.AnnotationTool.ResetZoom | static/js/annotation.js:995-999 | the zoom goes back to 1 |
| Crop.DefaultBox | static/js/crop.js:127-135 | the default box is 80% of each side, centred on the image, and lies inside it |
| Crop.HitDistance | static/js/crop.js:307 | the hit distance is positive at every zoom |
| Crop.GetHandle | static/js/crop.js:306-321 | the answer, when there is one, is one of the four corner or four edge handles |
| Crop.AnchorsPickTheirHandle | static/js/crop.js:306-321 | on a box at least two hit distances wide and high, a press exactly on each drawn anchor picks that anchor's handle |
| Crop.DragTo | static/js/crop.js:393-394 | a dragged box no larger than the image stays inside it, and a move that stays inside is taken as is |
| Crop.EdgeHandlesKeepMinimum | static/js/crop.js:403-414 | each edge handle leaves its side at least 20 long; west and north keep the opposite edge fixed; the other axis is untouched |
| Crop.CornersMoveNoEdge | static/js/crop.js:403-414 | no corner name contains a letter the edge tests look for, so a corner drag resizes nothing at that step |
| Crop.RatioStep | static/js/crop.js:416-428 | with a non-zero lock, handles containing n or s derive the width from the height and all others the height from the width; without a lock, or with a ratio of 0 (falsy), the box is unchanged; the origin never moves |
| Crop.BoundaryStep | static/js/crop.js:430-434 | the box ends inside the image, and a box already inside is kept |
| Crop.CornerDragKeepsInsideBox | static/js/crop.js:399-436 | without a ratio lock, a corner drag leaves a box that is inside the image where it was |
| Crop.FitRatio | static/js/crop.js:502-506 | a fixed ratio button changes only the size, never the origin; on a box of zero height it follows JavaScript's infinite or NaN quotient |
| Crop.FitRatioShrinks | static/js/crop.js:499-506 | on a box of positive size the fitted box has exactly the chosen ratio, and neither side grows |
| Crop.SpinValue | static/js/crop.js:524-535 | the spinner value is the input plus or minus 10, raised to 20 and capped at the image side; on an image side of at least 20 it lies between the two |
| Crop.CropEditor.constructor | static/js/crop.js:109-139 | the default box, inside the image, with no ratio lock and no gesture in progress |
| Crop.CropEditor.InitEditor | static/js/crop.js:109-139 | a new image gets the default box, which lies inside it |
| Crop.CropEditor.HandleStart | static/js/crop.js:337-351 | a press on a handle starts a resize, a press inside the box starts a drag, and both record the start box and point; any other press changes nothing |
| Crop.CropEditor.HandleMove | static/js/crop.js:384-441 | a drag moves the box by `DragTo` on both axes; a resize applies the handle, the ratio lock and the boundary, in that order; otherwise the box is unchanged |
| Crop.CropEditor.Drag | static/js/crop.js:388-398 | the box moves by `DragTo` and stays inside an image at least as large |
| Crop.CropEditor.Resize | static/js/crop.js:399-438 | the box becomes the resize of the start box, and lies inside the image |
| Crop.CropEditor.HandleEnd | static/js/crop.js:443-447 | no gesture is left in progress |
| Crop.CropEditor.ChooseRatio | static/js/crop.js:484-511 | "custom" locks the current ratio, "free" drops the lock, a fixed ratio is locked and fitted to the box at once, whatever the signs of its sides; the custom lock is the box's ratio, and a box of positive size fitted to a fixed ratio has exactly that ratio and no larger side |
| Crop.CropEditor.Spin | static/js/crop.js:520-541 | the side becomes the spinner value, which is positive, and the lock follows the new ratio, whatever the signs of the other side |
| Watermark.HexToRgb | static/js/watermark.js:134-141 | a colour is read iff it is an optional '#' followed by six hex digits of either case, and then each channel is the value of its pair |
| Watermark.ToHexString | static/js/watermark.js:145 | `toString(16)` yields at least one digit |
| Watermark.Digits | static/js/watermark.js:145 | `k` digits keep their leading zeros |
| Watermark.LeadingOne | static/js/watermark.js:145 | 16^k plus a value below it prints as "1" followed by its `k` digits, which is why `.slice(1)` keeps six digits |
| Watermark.SixDigits | static/js/watermark.js:145 | the six digits of the packed colour are the three channels' pairs |
| Watermark.RgbToHex | static/js/watermark.js:144-146 | '#' followed by six lower-case hex digits |
| Watermark.RgbToHexIsPairs | static/js/watermark.js:144-146 | the packing trick writes the usual two digits per channel |
| Watermark.ChannelsRoundTrip | static/js/watermark.js:134-146 | reading back what `rgbToHex` wrote gives the same channels |
| Watermark.PairsRoundTrip | static/js/watermark.js:134-146 | three pairs read and written out again come back in lower case |
| Watermark.TextRoundTrip | static/js/watermark.js:134-146 | writing out what `hexToRgb` read gives its digits in lower case behind a '#', with or without one on input |
| Watermark.PositionFor | static/js/watermark.js:526-574 | there is an anchor iff the name is one of the nine; each coordinate is 50 from an edge or on the centre line, and within the margins of a canvas at least 100 wide and high |
| Watermark.HitThreshold | static/js/watermark.js:586-603 | the hit radius is at least 50, and is the measured half diagonal when that is larger |
| Watermark.Clamp | static/js/watermark.js:623-624 | `max(0, min(hi, v))` lies in [0, hi] and keeps a value already inside |
| Watermark.WatermarkEditor.constructor | static/js/watermark.js:318-341 | the watermark starts 100 from the right and 50 from the bottom, not dragging |
| Watermark.WatermarkEditor.SetPosition | static/js/watermark.js:526-574 | a known name moves the watermark to its anchor; an unknown name leaves it |
| Watermark.WatermarkEditor.PressAt | static/js/watermark.js:580-614 | a press closer than the hit radius starts a drag and keeps the grab offset; any other press changes nothing |
| Watermark.WatermarkEditor.MoveTo | static/js/watermark.js:616-628 | while dragging, the watermark follows the cursor less the grab offset and stays within the canvas; otherwise it does not move |
| Watermark.WatermarkEditor.Release | static/js/watermark.js:630-638 | the drag ends |
| Watermark.WatermarkEditor.ConfirmReset | static/js/watermark.js:705-732 | every control returns to its default and the watermark to its starting place |
| WebReadyScore.FileSizeScore | static/js/web-ready-score.js:48-72 | the size score is one of 40, 30, 20, 10, 5; 40 iff below 100 KiB and 5 iff at least 2 MiB |
| WebReadyScore.FileSizeScoreNonIncreasing | static/js/web-ready-score.js:48-72 | a bigger file never scores higher |
| WebReadyScore.FormatScore | static/js/web-ready-score.js:77-99 | 30 iff the lower-cased format is webp or avif, 20 iff jpeg or jpg, and otherwise one of 25, 10, 5 |
| WebReadyScore.FormatScoreIgnoresCase | static/js/web-ready-score.js:77-99 | letter case does not change the format score |
| WebReadyScore.MetadataScore | static/js/web-ready-score.js:104-115 | unknown metadata scores 10, stripped 15, present 0 |
| WebReadyScore.DimensionsScore | static/js/web-ready-score.js:120-153 | unknown sizes score 10; hero, social and thumbnail sizes 15; otherwise 12 iff the longer side is in (800, 1920], 5 iff above 2000, 10 iff in (1920, 2000] |
| WebReadyScore.GradeRank | static/js/web-ready-score.js:195-202 | each score's grade is one of A+, A, B, C, D, F |
| WebReadyScore.GradeMonotone | static/js/web-ready-score.js:195-202 | a higher score never gets a worse grade |
| WebReadyScore.Tips | static/js/web-ready-score.js:158-190 | there is always a tip; praise comes alone and exactly when no part is weak; each weak part brings its own tip |
| WebReadyScore.FormatName | static/js/web-ready-score.js:168 | a given format is used as is; otherwise the MIME type's second field |
| WebReadyScore.SecondField | static/js/web-ready-score.js:25 | the field after the first slash holds no slash |
| WebReadyScore.FirstField | static/js/web-ready-score.js:25 | the field before the first slash is a prefix without a slash |
| WebReadyScore.ScoreInRange | static/js/web-ready-score.js:18-43 | no report without an image; otherwise the total is the sum of the four parts, lies in [15, 100], and carries its grade and at least one tip; the call throws iff no format can be found |
| Filter.Zeros | static/js/filter.js:46-71 | exactly the seventeen adjustments, each at 0 |
| Filter.PresetTouchesBasics | static/js/filter.js:495-646 | every preset writes only brightness, contrast, saturation and hue shift |
| Filter.Overlay | static/js/filter.js:495-646 | the writes add their keys and nothing else |
| Filter.OverlayKeepsOthers | static/js/filter.js:495-646 | a key the writes never name keeps its value |
| Filter.PresetSetsOnlyItsFields | static/js/filter.js:491-646 | after a preset the seventeen keys remain, every field it does not list is 0, and an unknown name leaves all at 0 |
| Filter.PreviewFieldsPresent | static/js/filter.js:386-404 | the five values the preview reads always exist |
| Filter.ApplyPresetAsWritten | static/js/filter.js:482-650 | as written, the filter values are the preset's |
| Filter.PresetNameIsLost | static/js/filter.js:482-491 | as written, the stored preset name always ends up 'none' and auto-enhance off, whatever preset was chosen |
| Filter.ApplyPresetIntended | static/js/filter.js:482-650 | as intended, the chosen name is kept and auto-enhance is off |
| Filter.PresetProperties | static/js/filter.js:482-650 | choosing 'none' is a reset, a preset chosen twice is the same as once, and the values do not depend on the previous state |
| Filter.FilterApp.constructor | static/js/filter.js:46-77 | all adjustments at 0, preset 'none', auto-enhance off |
| Filter.FilterApp.ResetFilters | static/js/filter.js:696-703 | the loop sets every adjustment to 0, then the preset to 'none' and auto-enhance off |
| Filter.FilterApp.ApplyPreset | static/js/filter.js:482-650 | the state becomes `ApplyPresetIntended` of the old state |
| Filter.FilterApp.SetSlider | static/js/filter.js:421-446 | only the slider's own field changes |
| Filter.FilterApp.ToggleAutoEnhance | static/js/filter.js:674-675 | the flag flips |
| Filter.FilterApp.FilterParts | static/js/filter.js:384-405 | brightness, contrast and saturation always come first, as offsets from 100%; a hue rotation of twice the shift comes iff the shift is not 0; a blur of a tenth comes last iff the value is positive |
| Collage.KeepAccepted | static/js/collage.js:110-111 | only files of the four accepted types remain, each accepted file as often as before, and no other file |
| Collage.KeepAcceptedAppend | static/js/collage.js:110-111 | filtering a concatenation filters each part in order, so kept files keep their relative order |
| Collage.KeepAcceptedIdentity | static/js/collage.js:110-111 | a list of accepted files passes the filter unchanged |
| Collage.Admitted | static/js/collage.js:98-108 | the files held before stay at the head, followed by a prefix of the new files; everything is taken when the total is at most 6, and otherwise never more than 6 |
| Collage.AdmittedThenFiltered | static/js/collage.js:96-116 | after the size check and the filter, the files held before are still the head of the list, and there are at most six |
| Collage.SpliceOne | static/js/collage.js:169 | `splice(index, 1)` removes exactly the entry at an index inside the list, and nothing at or past the end |
| Collage.SpliceKeepsAccepted | static/js/collage.js:168-169 | removing an entry keeps every remaining file accepted |
| Collage.SafeCount | static/js/collage.js:185 | the count shown lies in [2, 6], is the count when inside, and the nearer bound outside |
| Collage.SelectorNeverFallsBack | static/js/collage.js:54-76 | every count the selector can show has layouts of its own, each naming that count |
| Collage.ImageFieldsDistinct | static/js/collage.js:307 | different positions get different image field names |
| Collage.CollageStudio.constructor | static/js/collage.js:43-51 | no files, no layout, not generated, and the default settings |
| Collage.CollageStudio.HandleFiles | static/js/collage.js:96-116 | the truncation warning shows iff the total exceeds 6; the list becomes the filtered admitted list, keeps the files held before at its head, and stays at most six accepted files; the selector follows a non-empty list |
| Collage.CollageStudio.ResetToUpload | static/js/collage.js:436-452 | no files, not generated, no layout |
| Collage.CollageStudio.RemoveImage | static/js/collage.js:168-182 | one entry is spliced out; an emptied list resets the page, otherwise the collage is marked stale and the selector follows the count |
| Collage.FormFor | static/js/collage.js:293-313 | the form of a page state: nothing iff there are no files; otherwise one field per image in list order, then layout ("null" when none), spacing, corner_radius, background, filter and the shuffle flag |
| Collage.CollageStudio.CollageForm | static/js/collage.js:293-313 | the form built is `FormFor` of the page's files, layout, settings and the shuffle flag: nothing is sent iff there are no files; otherwise one field per image in list order, then layout, spacing, corner_radius, background and filter with the editor's values, and the shuffle flag |
| Collage.CollageStudio.Generate | static/js/collage.js:261-271 | refused while no layout is chosen; otherwise the form is `FormFor` of the page state with shuffling, which is nothing when no files are held |
| Collage.CollageStudio.SelectLayout | static/js/collage.js:223-232 | the layout is recorded; nothing is sent before a collage was generated, and afterwards the form is `FormFor` of the page state with the new layout and without shuffling |
| Collage.CollageStudio.CollageResponse | static/js/collage.js:360 | a 200 answer marks the collage generated; nothing else unmarks it |
| ResizeClient.Round | static/js/resize.js:123-124 | `Math.round` lands within half a unit of its argument, halves rounding up |
| ResizeClient.Scaled | static/js/resize.js:77-86 | under the lock the other side is the typed value times the ratio, rounded; a cleared box gives 0, as JavaScript multiplies the empty text as 0; text that is not a number or a zero divisor gives a value that is not a number |
| ResizeClient.OriginalSizeIsFixedPoint | static/js/resize.js:64-88 | typing the original width under the lock gives back the original height, and the other way round |
| ResizeClient.Adjusted | static/js/resize.js:95-99 | a spin button leaves at least 1, and the stepped value whenever that is at least 1 |
| ResizeClient.PercentTarget | static/js/resize.js:121-125 | each side is the nearest integer to the side times the scale over 100, halves rounding up; at 100% the target is the original size |
| ResizeClient.TruncatedBelowRounded | static/js/resize.js:123-124 | a percent-mode side as the server truncates it is never larger than the page's rounded side, and never negative |
| ResizeClient.ProductMonotone | static/js/resize.js:133 | smaller sides never give a larger pixel count |
| ResizeClient.ResizePage.constructor | static/js/resize.js:14-17 | no file, no original size, pixel mode |
| ResizeClient.ResizePage.SetMode | static/js/resize.js:20-26 | the mode is recorded |
| ResizeClient.ResizePage.ImageLoaded | static/js/resize.js:64-69 | both boxes take the loaded image's size |
| ResizeClient.ResizePage.WidthInput | static/js/resize.js:76-81 | under the lock, with a known original width, the height follows by `Scaled`; otherwise it stays |
| ResizeClient.ResizePage.HeightInput | static/js/resize.js:83-88 | under the lock, with a known original width, the width follows by `Scaled`; otherwise it stays |
| ResizeClient.ResizePage.AdjustValue | static/js/resize.js:95-103 | the stepped box takes the `Adjusted` value, and its input event fires |
| ResizeClient.ResizePage.ResizeClick | static/js/resize.js:106-187 | nothing happens iff no file; a request is sent only when both sides are at most 10000, the product at most 100,000,000, a product above 50,000,000 was confirmed, and a logged-in user was not refused for credits, and conversely every such request with a file is sent; a large request is declined iff it was not confirmed; it carries the boxes in pixel mode and the scale otherwise |
| ResizeClient.PixelRequestPassesServer | static/js/resize.js:128-137 | a pixel-mode size the page lets through also passes the server's checks in app.py |
| ResizeClient.PercentRequestPassesServer | static/js/resize.js:121-137 | a percent-mode size the page lets through also passes the server's checks, since the server truncates where the page rounds |
| ReviewModal.DefaultState | static/js/review-modal.js:42-50 | nothing reviewed or dismissed, all counts 0, no stored times, the first visit now |
| ReviewModal.LoadState | static/js/review-modal.js:31-51 | the stored state when there is one that parses, the default otherwise |
| ReviewModal.ShouldShowAgain | static/js/review-modal.js:145-154 | the answer is yes iff fewer than three remind-laters; a no also marks the state permanently dismissed |
| ReviewModal.InitTriggers | static/js/review-modal.js:61-116 | once a prompt has been shown, setting up the triggers changes nothing and sets no timer |
| ReviewModal.ToolUsed | static/js/review-modal.js:101-115 | the use count goes up by one and nothing else changes, and the prompt is offered iff the count reaches 5 and `canShowReview` as written allows it, whatever the remind-later count |
| ReviewModal.ToolUsedIntended | static/js/review-modal.js:101-154 | the corrected tool-use event: the same new state, and an offer iff the as-written one offers and fewer than three remind-laters were recorded |
| ReviewModal.ShowBlocks | static/js/review-modal.js:118-143 | for `canShowReview` as written: a reviewed or dismissed state is never prompted, and a prompt or remind-later blocks the next prompt for five minutes; the capped check refuses wherever the written one does |
| ReviewModal.FreshStateMayShow | static/js/review-modal.js:118-143 | a fresh state may be prompted |
| ReviewModal.CapIsFinal | static/js/review-modal.js:145-154 | with the cap applied, three remind-laters end the prompts for good: no later step lets one through, and `ToolUsedIntended` offers nothing |
| ReviewModal.RemindCapNotEnforced | static/js/review-modal.js:118-154 | as written, after three rounds of prompt and remind-later the state is not dismissed, and a day later the prompt may show a fourth time, and the fifth tool use offers it |
| ReviewModal.ReviewModalManager.constructor | static/js/review-modal.js:7-29 | the loaded state after the triggers are set up; the event listeners exist iff the loaded user has neither reviewed nor dismissed |
| ReviewModal.ReviewModalManager.Show | static/js/review-modal.js:156-182 | the prompt time is recorded, which blocks another prompt at once |
| ReviewModal.ReviewModalManager.RemindLater | static/js/review-modal.js:389-403 | the remind-later count goes up by one and its time is recorded |
| ReviewModal.ReviewModalManager.Dismiss | static/js/review-modal.js:405-418 | the state is permanently dismissed and never prompted again |
| ReviewModal.ReviewModalManager.ReviewSubmitted | static/js/review-modal.js:340-347 | an accepted review ends the prompts for good |
| ReviewModal.ReviewModalManager.ToolUse | static/js/review-modal.js:21-115 | with the listener registered, the state and the offer are those of `ToolUsed`; without it (a reviewed or dismissed user at load) the event changes nothing and offers nothing |
| AdsClient.LoadedCount | static/js/ads.js:154-157 | the stored count, or 0 when there is none |
| AdsClient.Click | static/js/ads.js:193-224 | a guest's click is counted and saved, with the login hint on the first; a logged-in user without ad-free access has the click counted and saved and is offered ad-free access iff the count reaches 2 and the offer was not yet shown this session; other clicks change nothing |
| AdsClient.OfferAtMostOncePerSession | static/js/ads.js:212-223 | after the offer is shown, the next click does not show it again |
| AdsClient.OfferOnSecondClick | static/js/ads.js:212-223 | in a fresh session a logged-in user is offered ad-free access on exactly the second click |
| AdsClient.Reset | static/js/ads.js:169-173 | the count and both session keys are cleared; who the user is stays |
| AdsClient.Verified | static/js/ads.js:475-478 | a verified purchase makes the user ad-free and resets the count; any other answer changes nothing |
| AdsClient.AdFreeClicksIgnored | static/js/ads.js:193-224 | after a verified purchase a user's clicks are not counted and never bring the offer |
| AdsClient.AdManager.constructor | static/js/ads.js:14-28 | no user, not ad-free, count 0, session storage as found |
| AdsClient.AdManager.LoadClickCount | static/js/ads.js:154-157 | the count becomes `LoadedCount` of the stored value |
| AdsClient.AdManager.ResetClickCount | static/js/ads.js:169-173 | the state becomes `Reset` of the old one |
| AdsClient.AdManager.TrackAdClick | static/js/ads.js:193-224 | the state and what is shown are those of `Click` |
| AdsClient.AdManager.VerifyPayment | static/js/ads.js:448-497 | the state becomes `Verified` of the old one |
| ServiceWorker.RouteFor | static/service-worker.js:121-174 | each route is chosen exactly when its test holds and every earlier test fails: non-GET passes through, then the favicon, API network-first, images and styles/scripts cache-first, pages network-first, and the offline-page default |
| ServiceWorker.ApiAlwaysNetworkFirst | static/service-worker.js:149-152 | any GET under `/api/` other than the favicon is network-first from the API cache, whatever it asks for |
| ServiceWorker.RoutesUseCurrentCaches | static/service-worker.js:6-10 | every cache a route reads or writes is one of the three current caches |
| ServiceWorker.ApiLimitIgnored | static/service-worker.js:49-53 | as written, the limit lookup by full cache name gives 50 for every cache, though the API entry is 100 |
| ServiceWorker.LimitFor | static/service-worker.js:49-53 | the intended limit is the table entry for the cache's short name, and is positive |
| ServiceWorker.Without | static/service-worker.js:313 | deleting a key removes exactly that key, keeps the others and their distinctness |
| ServiceWorker.PutInto | static/service-worker.js:196 | after `cache.put` the named cache ends with the key, held once, and keeps its other keys in order |
| ServiceWorker.Trim | static/service-worker.js:304-319 | after trimming, the named cache holds its newest `min(length, max)` keys, in order; every other cache is untouched |
| ServiceWorker.TrimKeepsNewest | static/service-worker.js:194-200 | trimming to a positive limit keeps the key just stored |
| ServiceWorker.FiftyFirstApiResponseEvicts | static/service-worker.js:49-53 | as written, storing a 51st API response evicts the oldest one; with the intended limit of 100 all 51 remain |
| ServiceWorker.WithoutHead | static/service-worker.js:309-314 | deleting the oldest key of a distinct key list drops exactly its head |
| ServiceWorker.CacheStore.constructor | static/service-worker.js:6-10 | no caches exist at first |
| ServiceWorker.CacheStore.Put | static/service-worker.js:196 | the key is held once, at the newest end of its cache; no other cache changes |
| ServiceWorker.CacheStore.EnforceCacheLimit | static/service-worker.js:304-319 | above the limit exactly the newest `max` keys remain, in order; otherwise nothing changes; other caches are untouched |
| ServiceWorker.CacheStore.StoreAndTrim | static/service-worker.js:194-200 | a 200 response is stored and the cache trimmed with the limit as written (50 for every cache of the worker), so the caches are `StoredAndTrimmed` of the old ones, and the cache holds the new key; any other status stores nothing |
| ServiceWorker.CacheStore.HandleFetch | static/service-worker.js:121-295 | non-GET is passed through untouched; a failed or non-200 network answer stores nothing; after a 200 answer the caches are: unchanged for a cache hit, the favicon or the default route's key put into the static cache untrimmed, and for the other routes the response stored and its cache trimmed at 50; network-first routes, the API, the pages and the default, give the network answer when there is one, else the cached copy, else the offline answer (the offline page for documents, a 503 otherwise); cache-first routes give the cached copy on a hit, else the network answer, else the offline answer; the favicon comes from the static cache, else the network, else a network error |
| ServiceWorker.CacheStore.Activate | static/service-worker.js:91-116 | exactly the caches named "imgcraft-..." that are not current are deleted; all others are kept unchanged |
| ServiceWorker.CacheStore.HandleClearCache | static/service-worker.js:548-557 | exactly the named caches, or the three current ones by default, are deleted |
| Pwa.Padding | static/js/pwa.js:559 | the padding is at most 3, makes the length a multiple of 4, and is 0 exactly when it already is |
| Pwa.MapChars | static/js/pwa.js:560 | each character is translated on its own and the length is kept |
| Pwa.Normalised | static/js/pwa.js:559-560 | the key is translated to the standard alphabet and padded with '=' to a multiple of 4; no '-' or '_' remains |
| Pwa.NormalisedRoundTrip | static/js/pwa.js:558-561 | for a URL-safe key, translating the normalised string back gives the key and its padding |
| Pwa.PwaManager.constructor | static/js/pwa.js:7-14 | the last prompt time is the stored one |
| Pwa.PwaManager.ThemeColor | static/js/pwa.js:487 | the meta colour is "#1a1a1a" exactly for the dark theme, and the brand orange otherwise |
| Pwa.PwaManager.SetTheme | static/js/pwa.js:466-489 | the theme is stored, the dark class is set exactly for "dark", the light class exactly for "light", and the colour follows |
| Pwa.PwaManager.ShowInstallPrompt | static/js/pwa.js:117-194 | shown exactly when no prompt was recorded or the last is at least a day old; when shown the time is recorded, otherwise nothing changes |
| Pwa.PromptOncePerDay | static/js/pwa.js:122 | after a prompt, none is allowed for the next 86,400,000 ms and one is allowed after |
| Pwa.UrlBase64ToUint8Array | static/js/pwa.js:558-569 | fails exactly when `atob` rejects the normalised key; otherwise a fresh array with one byte per decoded character, its code mod 256 |
| Pwa.ClearCacheMessage | static/js/pwa.js:982-990 | without a service worker nothing is sent; otherwise each name, by default static, images and api, prefixed with "imgcraft-v1-" |
| Pwa.DefaultClearNamesCurrentCaches | static/js/pwa.js:982-985 | the default message names exactly the service worker's three current caches |

## Left out

- The SQL bodies of the `deduct_credits` and `add_credits` RPCs are not part of this model. Their effect on the store is modelled from the call sites: an atomic check, decrement and usage append, and an add to the total and remaining credits.
- The payments table is modelled with a unique key on the payment id. The schema is not part of this model, and without that key the insert at `app.py:560-573` cannot refuse a second row.
- The payment gateway, JWT verification and the HMAC-SHA256 of RFC 2104 are inputs: each appears as its verdict or its computed value.
- RazorpayClient.VerifyPaymentSignature: only forwards the gateway utility's verdict, which is an input, so it has no contract of its own.
- `.order('tool_name')` in the tool listing is not modelled; the listing keeps the store's order.
- The ad-free `amount_paid` is integer division by 100. `AdFree.PlanAmountsAreWholeRupees` shows this is exact for every plan.
- `date.today()` and `Date.now()` are parameters; the async code, real concurrency, logging and toasts are not modelled.
- Python's `int(text)` is modelled as an optionally signed run of decimal digits; the surrounding white space and the underscores between digits that Python also accepts are not modelled.
- Lower-casing (admin emails, auth scheme, file extensions, EXIF tags) is ASCII only.
- AppRules: the percent-mode resize at `app.py:915-917` computes `int(w * (scale/100))` in floating point. The model uses exact integer truncation, and the collage templates use Dafny reals.
- Crop: the spinner can push the box past the image edge, and a spinner change followed by a west or north resize can give a non-positive width; the model keeps both as the code has them.
- Crop.CropEditor.ChooseRatio: the custom lock on a box of zero height is excluded, because JavaScript's quotient is then infinite or NaN and a real cannot hold it. Other boxes, including those with a negative or zero side, are modelled.
- Crop.CropEditor.Spin: a width spin on a box of zero height is excluded for the same reason. `getHandle` requires a positive scale.
- Crop: panning, the view transform and the cursor choice are not modelled.
- Watermark: channels are restricted to 0..255. The distance test compares squares instead of taking a square root. Fitting to the canvas and `toFixed` formatting are not modelled.
- WebReadyScore: `_formatBytes` and the value strings in the breakdown are not modelled.
- ResizeClient.PercentTarget: rounds the exact product of a side and `scale / 100`, while the page rounds a floating-point product. Where that product falls just below a half, the page gets one less: for a 50 px side at 29%, `50 * 0.29` is 14.499999999999998 in double precision, so the page checks a target of 14 where the model has 15.
- ResizeClient: a box holds the empty text, an integer, or text that is not a number, so decimal entries and text with a numeric prefix (which `parseInt` and multiplication read differently) are not modelled. With an empty pixel field the client reads 0, while the server's `int('')` raises; only the client is modelled here.
- ReviewModal: the truthiness of a stored 0 timestamp, the `setTimeout` delays and the star-rating UI are not modelled.
- AdsClient: the stored count always parses; a missing auth manager and the modal's HTML are not modelled.
- ServiceWorker.CacheStore.StoreAndTrim: `cache.put` at static/service-worker.js:196 and :231 is not awaited before `enforceCacheLimit`, so the trim can run before the new key lands and leave the cache one over its limit; the model completes the put first.
- ServiceWorker: promise errors, the install-time precache, background sync and the other messages are not modelled. `put` moves a key to the newest end, as a re-inserted key in the Cache API does. `caches.match` searches every cache. The offline page is assumed to be cached.
- Pwa: `atob` is a parameter. Notifications and service-worker registration are not modelled. An unparsable stored prompt time is not modelled.
- Collage: the DOM and the upload request are not modelled. Spacing and radius are kept as strings, the CSS filter mapping and the download button are left out.
- Filter: presets are a table applied by overlaying the filter record; canvas rendering and CSS number formatting are not modelled.
- Annotation: a polygon with missing points is treated as still being drawn. The canvas objects, the metadata form and the toasts are not modelled.

## Findings

| source | as written | input that shows it | evidently intended | confidence | as-written member | corrected member |
|---|---|---|---|---|---|---|
| static/js/filter.js:482-491 | `applyPreset` stores the preset name, then calls `resetFilters(false)`, which sets the name back to 'none' | any preset, e.g. 'film_noir' | the chosen preset name is kept; the `/api/filter` handler (app.py:1186-1355) reads only the numeric adjustments and never `preset`, so the lost name changes no rendered image | not executed | Filter.PresetNameIsLost | Filter.PresetProperties |
| static/js/review-modal.js:118-154 | `shouldShowAgain` only runs while no prompt has ever been shown, so the three-remind-later cap never applies once a prompt has appeared | three rounds of prompt and remind-later a day apart, then a page load a day later | after three remind-laters the prompt stops for good | not executed | ReviewModal.RemindCapNotEnforced | ReviewModal.CapIsFinal |
| credits/tool_costs.py:77-89 | a single-tool fetch caches a row holding only `credit_cost`, so `is_tool_available` then reads no `is_active` and says false | a tool activated after the cache was initialised, whose cost is then asked (the cache is initialised but lacks it) | an active tool stays available | not executed | ToolCosts.CostOnlyEntryHidesActiveTool | ToolCosts.FullEntryKeepsActiveToolAvailable |
| payments/webhook_handler.py:62-97 | the captured-payment handler has no completed guard, so it credits again a payment the callback already settled | a settled payment, then one `payment.captured` delivery for its order | each payment is credited once | not executed | Webhook.CallbackThenWebhookCreditsTwice | Webhook.CallbackThenWebhooksCreditOnce |
| static/service-worker.js:49-53 | `CACHE_LIMITS[cacheName] \|\| 50` looks up the full cache name among the short keys, so every cache is limited to 50 | a 51st distinct API response stored in the API cache, whose entry is 100: the oldest is evicted (`ServiceWorker.FiftyFirstApiResponseEvicts`) | each cache uses its own entry | not executed | ServiceWorker.ApiLimitIgnored | ServiceWorker.LimitFor |

=== FILE: ad_free.dfy ===
/** The one-time ad-free entitlement (ads/__init__.py): ordering a plan,
    confirming the payment, the gateway's notification, and the status read.
    Whether the gateway client is configured, the order id it assigns, the
    signature it expects and the store's errors are inputs. */
module AdFree {
  import opened Wrappers
  import opened Store
  import Text

  datatype AdPlan = AdPlan(amount: int, currency: string, duration: string, description: string)

  /** Amounts are in paise. */
  const AdFreePlans: map<string, AdPlan> := map[
    "lifetime" := AdPlan(9900, "INR", "Lifetime", "ImgCraft Ad-Free Experience (Lifetime)"),
    "yearly" := AdPlan(4900, "INR", "1 Year", "ImgCraft Ad-Free Experience (1 Year)"),
    "monthly" := AdPlan(900, "INR", "1 Month", "ImgCraft Ad-Free Experience (1 Month)")
  ]

  const DefaultAdPlan: string := "lifetime"

  /** Every plan's price is a whole number of rupees, so the amount recorded
      on the purchase (paise divided by 100) is exact. */
  lemma PlanAmountsAreWholeRupees()
    ensures forall p :: p in AdFreePlans ==> AdFreePlans[p].amount % 100 == 0 && AdFreePlans[p].amount > 0
  {
  }

  /** The order details handed back to the browser. */
  datatype OrderInfo = OrderInfo(id: string, amount: int, currency: string, plan: string,
                                 duration: string, description: string)

  datatype OrderReply = OrderOk(order: OrderInfo) | OrderError(message: string)

  /** The plan asked for, with None standing for the default. */
  function ChosenPlan(plan: Option<string>): string {
    plan.GetOr(DefaultAdPlan)
  }

  /** `create_ad_free_order`: with a configured client and a known plan it
      creates the gateway order and records a pending purchase (a failed
      insert is ignored); otherwise it reports an error and writes nothing. */
  function CreateOrderSpec(t: Tables, user: UserId, plan: Option<string>, configured: bool,
                           gatewayId: Option<string>, insertFails: bool): (r: (Tables, OrderReply))
    ensures !configured ==> r == (t, OrderError("Payment gateway not configured"))
    ensures configured && ChosenPlan(plan) !in AdFreePlans ==> r.0 == t && r.1.OrderError?
    ensures r.1.OrderOk? <==> configured && ChosenPlan(plan) in AdFreePlans && gatewayId.Some?
    ensures r.1.OrderOk? ==> r.1.order.plan == ChosenPlan(plan)
                             && r.1.order.amount == AdFreePlans[ChosenPlan(plan)].amount
                             && r.0.purchases == t.purchases + (if insertFails then [] else
                                  [Purchase(user, gatewayId.value, None, ChosenPlan(plan),
                                            AdFreePlans[ChosenPlan(plan)].amount / 100, "INR", Pending)])
    ensures r.0.adFree == t.adFree && r.0.credits == t.credits && r.0.payments == t.payments
    ensures r.0 == t.(purchases := r.0.purchases)
    ensures gatewayId.None? || r.1.OrderError? ==> r.0 == t
  {
    if !configured then (t, OrderError("Payment gateway not configured"))
    else
      var name := ChosenPlan(plan);
      if name !in AdFreePlans then
        (t, OrderError("Invalid plan: " + name + ". Must be one of: lifetime, yearly, monthly"))
      else if gatewayId.None? then (t, OrderError("Failed to create payment order"))
      else
        var p := AdFreePlans[name];
        var t' := if insertFails then t
                  else t.(purchases := t.purchases + [Purchase(user, gatewayId.value, None, name,
                                                               p.amount / 100, p.currency, Pending)]);
        (t', OrderOk(OrderInfo(gatewayId.value, p.amount, p.currency, name, p.duration, p.description)))
  }

  method CreateAdFreeOrder(db: Db, user: UserId, plan: Option<string>, configured: bool,
                           gatewayId: Option<string>, insertFails: bool)
    returns (r: OrderReply)
    modifies db
    ensures (db.Snapshot(), r) == CreateOrderSpec(old(db.Snapshot()), user, plan, configured,
                                                  gatewayId, insertFails)
  {
    if !configured {
      return OrderError("Payment gateway not configured");
    }
    var name := if plan.None? then DefaultAdPlan else plan.value;
    if name !in AdFreePlans {
      return OrderError("Invalid plan: " + name + ". Must be one of: lifetime, yearly, monthly");
    }
    var p := AdFreePlans[name];
    if gatewayId.None? {
      return OrderError("Failed to create payment order");
    }
    if !insertFails {
      db.purchases := db.purchases + [Purchase(user, gatewayId.value, None, name,
                                               p.amount / 100, p.currency, Pending)];
    }
    r := OrderOk(OrderInfo(gatewayId.value, p.amount, p.currency, name, p.duration, p.description));
  }

  /** The status reply of the confirmation and the notification. */
  datatype AdReply = AdSuccess(message: string) | AdError(message: string)

  /** `update({'ad_free': True, ...}).eq('id', user)`: only an existing
      profile row is changed. */
  function GrantAdFree(flags: map<UserId, bool>, user: UserId): map<UserId, bool> {
    if user in flags then flags[user := true] else flags
  }

  /** Store errors during a confirmation: the profile update, the purchase
      update, and the purchase update on the signature-failure path. */
  datatype VerifyFaults = VerifyFaults(profileFails: bool, purchaseFails: bool, markFails: bool)

  /** `verify_ad_free_payment`: a valid signature sets the user's flag and
      completes the purchase; an invalid one marks the purchase failed and
      never touches the flag. */
  function VerifySpec(t: Tables, user: UserId, orderId: string, paymentId: string,
                      signature: string, configured: bool, expectedSignature: string,
                      f: VerifyFaults): (r: (Tables, AdReply))
    ensures !configured ==> r == (t, AdError("Payment gateway not configured"))
    ensures configured && signature != expectedSignature ==>
              && r.1 == AdError("Payment signature verification failed")
              && r.0.adFree == t.adFree
              && r.0.purchases == (if f.markFails then t.purchases
                                   else SetPurchaseStatus(t.purchases, orderId, paymentId, Failed))
    ensures configured && signature == expectedSignature && !f.profileFails && !f.purchaseFails ==>
              && r.1 == AdSuccess("Ad-free access activated!")
              && r.0.adFree == GrantAdFree(t.adFree, user)
              && r.0.purchases == SetPurchaseStatus(t.purchases, orderId, paymentId, Completed)
    ensures configured && signature == expectedSignature && f.profileFails ==>
              r == (t, AdError("Payment verified but failed to activate ad-free access"))
    ensures configured && signature == expectedSignature && !f.profileFails && f.purchaseFails ==>
              r == (t.(adFree := GrantAdFree(t.adFree, user)),
                    AdError("Payment verified but failed to activate ad-free access"))
    ensures r.0.credits == t.credits && r.0.payments == t.payments && r.0.usage == t.usage
    ensures r.0 == t.(adFree := r.0.adFree, purchases := r.0.purchases)
  {
    if !configured then (t, AdError("Payment gateway not configured"))
    else if signature != expectedSignature then
      var t' := if f.markFails then t
                else t.(purchases := SetPurchaseStatus(t.purchases, orderId, paymentId, Failed));
      (t', AdError("Payment signature verification failed"))
    else if f.profileFails then
      (t, AdError("Payment verified but failed to activate ad-free access"))
    else
      var t1 := t.(adFree := GrantAdFree(t.adFree, user));
      if f.purchaseFails then
        (t1, AdError("Payment verified but failed to activate ad-free access"))
      else
        (t1.(purchases := SetPurchaseStatus(t1.purchases, orderId, paymentId, Completed)),
         AdSuccess("Ad-free access activated!"))
  }

  method VerifyAdFreePayment(db: Db, user: UserId, orderId: string, paymentId: string,
                             signature: string, configured: bool, expectedSignature: string,
                             f: VerifyFaults)
    returns (r: AdReply)
    modifies db
    ensures (db.Snapshot(), r) == VerifySpec(old(db.Snapshot()), user, orderId, paymentId,
                                             signature, configured, expectedSignature, f)
  {
    if !configured {
      return AdError("Payment gateway not configured");
    }
    if signature != expectedSignature {
      if !f.markFails {
        db.purchases := SetPurchaseStatus(db.purchases, orderId, paymentId, Failed);
      }
      return AdError("Payment signature verification failed");
    }
    if f.profileFails {
      return AdError("Payment verified but failed to activate ad-free access");
    }
    db.adFree := GrantAdFree(db.adFree, user);
    if f.purchaseFails {
      return AdError("Payment verified but failed to activate ad-free access");
    }
    db.purchases := SetPurchaseStatus(db.purchases, orderId, paymentId, Completed);
    r := AdSuccess("Ad-free access activated!");
  }

  /** The notification's event and payment entity. */
  datatype AdEvent = AdEvent(eventType: Option<string>, orderId: Option<string>, paymentId: Option<string>)

  /** Store errors during a notification: the purchase lookup and the two updates. */
  datatype HookFaults = HookFaults(selectFails: bool, purchaseFails: bool, profileFails: bool)

  predicate Truthy(s: Option<string>) { s.Some? && s.value != "" }

  /** `handle_razorpay_webhook`: without a webhook secret it refuses; an
      authorised payment with both ids and exactly one matching purchase
      completes that purchase and sets its buyer's flag; every store error is
      swallowed, and anything else is acknowledged with no change. The
      notification's signature is not checked. */
  function HookSpec(t: Tables, secret: Option<string>, ev: AdEvent, f: HookFaults): (r: (Tables, AdReply))
    ensures !Truthy(secret) ==> r == (t, AdError("Webhook secret not configured"))
    ensures Truthy(secret) ==> r.1 == AdSuccess("Webhook processed")
    ensures ev.eventType != Some("payment.authorized") || !Truthy(ev.orderId) || !Truthy(ev.paymentId) ==> r.0 == t
    ensures (Truthy(ev.orderId) &&
             (f.selectFails || |PurchasesForOrder(t.purchases, ev.orderId.value)| != 1 || f.purchaseFails)) ==> r.0 == t
    ensures Truthy(secret) && ev.eventType == Some("payment.authorized") && Truthy(ev.orderId) && Truthy(ev.paymentId)
            && !f.selectFails && |PurchasesForOrder(t.purchases, ev.orderId.value)| == 1 && !f.purchaseFails ==>
              && r.0.purchases == SetPurchaseStatus(t.purchases, ev.orderId.value, ev.paymentId.value, Completed)
              && r.0.adFree == (if f.profileFails then t.adFree
                                else GrantAdFree(t.adFree, t.purchases[PurchasesForOrder(t.purchases, ev.orderId.value)[0]].user))
    ensures r.0.credits == t.credits && r.0.payments == t.payments && r.0.usage == t.usage
  {
    if !Truthy(secret) then (t, AdError("Webhook secret not configured"))
    else if ev.eventType != Some("payment.authorized") || !Truthy(ev.orderId) || !Truthy(ev.paymentId) then
      (t, AdSuccess("Webhook processed"))
    else
      var rows := PurchasesForOrder(t.purchases, ev.orderId.value);
      if f.selectFails || |rows| != 1 || f.purchaseFails then (t, AdSuccess("Webhook processed"))
      else
        var buyer := t.purchases[rows[0]].user;
        var t1 := t.(purchases := SetPurchaseStatus(t.purchases, ev.orderId.value, ev.paymentId.value, Completed));
        if f.profileFails then (t1, AdSuccess("Webhook processed"))
        else (t1.(adFree := GrantAdFree(t1.adFree, buyer)), AdSuccess("Webhook processed"))
  }

  method HandleRazorpayWebhook(db: Db, secret: Option<string>, ev: AdEvent, f: HookFaults)
    returns (r: AdReply)
    modifies db
    ensures (db.Snapshot(), r) == HookSpec(old(db.Snapshot()), secret, ev, f)
  {
    if !Truthy(secret) {
      return AdError("Webhook secret not configured");
    }
    if ev.eventType == Some("payment.authorized") && Truthy(ev.orderId) && Truthy(ev.paymentId) {
      var rows := PurchasesForOrder(db.purchases, ev.orderId.value);
      if !f.selectFails && |rows| == 1 && !f.purchaseFails {
        var buyer := db.purchases[rows[0]].user;
        db.purchases := SetPurchaseStatus(db.purchases, ev.orderId.value, ev.paymentId.value, Completed);
        if !f.profileFails {
          db.adFree := GrantAdFree(db.adFree, buyer);
        }
      }
    }
    r := AdSuccess("Webhook processed");
  }

  /** `get_user_ad_free_status`: the stored flag, and false when the profile
      is missing or the read fails. */
  function AdFreeStatus(t: Tables, user: UserId, readFails: bool): (b: bool)
    ensures b ==> !readFails && user in t.adFree && t.adFree[user]
    ensures !readFails && user in t.adFree && t.adFree[user] ==> b
  {
    !readFails && user in t.adFree && t.adFree[user]
  }

  /** The flag only ever moves from false to true: an entitlement, once
      granted, survives every later order, confirmation and notification. */
  predicate NeverRevoked(before: map<UserId, bool>, after: map<UserId, bool>) {
    forall u :: u in before && before[u] ==> u in after && after[u]
  }

  lemma ConfirmationNeverRevokes(t: Tables, user: UserId, orderId: string, paymentId: string,
                                 signature: string, configured: bool, expectedSignature: string,
                                 f: VerifyFaults)
    ensures NeverRevoked(t.adFree, VerifySpec(t, user, orderId, paymentId, signature, configured,
                                              expectedSignature, f).0.adFree)
  {
  }

  lemma NotificationNeverRevokes(t: Tables, secret: Option<string>, ev: AdEvent, f: HookFaults)
    ensures NeverRevoked(t.adFree, HookSpec(t, secret, ev, f).0.adFree)
  {
  }

  /** A confirmation whose signature does not match grants nothing. */
  lemma BadSignatureGrantsNothing(t: Tables, user: UserId, orderId: string, paymentId: string,
                                  signature: string, expectedSignature: string, f: VerifyFaults)
    requires signature != expectedSignature
    ensures VerifySpec(t, user, orderId, paymentId, signature, true, expectedSignature, f).0.adFree == t.adFree
  {
  }
}

=== FILE: admin_config.dfy ===
/** The administrator allow-list (admin_config.py): a case-insensitive
    membership test of an email address in a fixed list. */
module AdminConfig {

  /** The configured administrator addresses. */
  const AdminEmails: seq<string> := ["sparsh0308@gmail.com"]

  /** ASCII lower-casing of one character. */
  function LowerChar(c: char): char {
    if 'A' <= c <= 'Z' then (c as int + 32) as char else c
  }

  /** ASCII lower-casing of a string, character by character. */
  function Lower(s: string): string {
    seq(|s|, i requires 0 <= i < |s| => LowerChar(s[i]))
  }

  /** `is_admin`: the lower-cased address equals some lower-cased listed address. */
  predicate IsAdmin(email: string) {
    exists i :: 0 <= i < |AdminEmails| && Lower(email) == Lower(AdminEmails[i])
  }

  /** Two strings are case variants of each other: same length, equal letters
      once lower-cased. */
  predicate CaseVariant(a: string, b: string) {
    |a| == |b| && forall i :: 0 <= i < |a| ==> LowerChar(a[i]) == LowerChar(b[i])
  }

  /** Changing the letter case of the input never changes the answer. */
  lemma CaseInsensitive(a: string, b: string)
    requires CaseVariant(a, b)
    ensures IsAdmin(a) == IsAdmin(b)
  {
    assert Lower(a) == Lower(b);
  }

  /** Lower-casing the configured address gives it back unchanged. */
  lemma AdminAddressIsLower()
    ensures Lower(AdminEmails[0]) == AdminEmails[0]
  {
    var s := AdminEmails[0];
    forall i | 0 <= i < |s| ensures LowerChar(s[i]) == s[i] {
      assert !('A' <= s[i] <= 'Z');
    }
  }

  /** With the current list, an address is an administrator exactly when it
      equals "sparsh0308@gmail.com" up to letter case. */
  lemma ExactlyOneAdmin(email: string)
    ensures IsAdmin(email) <==> Lower(email) == "sparsh0308@gmail.com"
  {
    AdminAddressIsLower();
    if Lower(email) == "sparsh0308@gmail.com" {
      assert Lower(email) == Lower(AdminEmails[0]);
    }
  }

  /** The empty address is never an administrator. */
  lemma EmptyIsNotAdmin()
    ensures !IsAdmin("")
  {
    ExactlyOneAdmin("");
  }
}

=== FILE: ads_client.dfy ===
/** The ad manager on the page (static/js/ads.js): the per-session ad
    click count, the login hint for guests, the ad-free offer shown once
    per session after two clicks, and the state after a verified
    ad-free purchase. Session storage is modelled by two fields: the
    stored count (`None` when the key is absent) and whether the offer
    has been shown this session. */
module AdsClient {
  import opened Wrappers

  /** Clicks after which a logged-in user is offered ad-free access. */
  const AdClickThreshold: int := 2

  /** The manager's state: whether it holds a user, whether the auth
      manager has one, the ad-free flag, the count, and the two session
      keys. */
  datatype AdState = AdState(user: bool, authUser: bool, adFree: bool, clickCount: int,
                             storedCount: Option<int>, modalShown: bool)

  /** What a click shows. */
  datatype ClickEffect = ClickEffect(loginToast: bool, offer: bool)

  /** `loadClickCount`: the stored count, or 0 when the key is absent. */
  function LoadedCount(stored: Option<int>): (n: int)
    ensures stored.None? ==> n == 0
    ensures stored.Some? ==> n == stored.value
  {
    match stored case None => 0 case Some(c) => c
  }

  /** `trackAdClick`. A guest's click is counted and saved, with the login
      hint on the first one. A logged-in user without ad-free access has
      the click counted and saved, and from the second click on is offered
      ad-free access unless the offer was already shown this session. Any
      other click changes nothing. */
  function Click(s: AdState): (r: (AdState, ClickEffect))
    ensures !s.user && !s.authUser ==>
              r.0 == s.(clickCount := s.clickCount + 1, storedCount := Some(s.clickCount + 1))
              && r.1 == ClickEffect(s.clickCount + 1 == 1, false)
    ensures s.user && !s.adFree ==>
              r.0.clickCount == s.clickCount + 1 && r.0.storedCount == Some(s.clickCount + 1)
              && (r.1.offer <==> s.clickCount + 1 >= AdClickThreshold && !s.modalShown)
              && r.0.modalShown == (s.modalShown || s.clickCount + 1 >= AdClickThreshold)
              && !r.1.loginToast
    ensures (s.user && s.adFree) || (!s.user && s.authUser) ==> r == (s, ClickEffect(false, false))
  {
    if !s.user && !s.authUser then
      var n := s.clickCount + 1;
      (s.(clickCount := n, storedCount := Some(n)), ClickEffect(n == 1, false))
    else if s.user && !s.adFree then
      var n := s.clickCount + 1;
      var counted := s.(clickCount := n, storedCount := Some(n));
      if n >= AdClickThreshold && !s.modalShown then
        (counted.(modalShown := true), ClickEffect(false, true))
      else (counted, ClickEffect(false, false))
    else (s, ClickEffect(false, false))
  }

  /** The offer appears at most once per session: after it has been shown,
      no later click shows it again. */
  lemma OfferAtMostOncePerSession(s: AdState)
    requires Click(s).1.offer
    ensures Click(s).0.modalShown
    ensures !Click(Click(s).0).1.offer
  {
  }

  /** A logged-in user with a fresh session is offered ad-free access on
      exactly the second click. */
  lemma OfferOnSecondClick(s: AdState)
    requires s.user && !s.adFree && s.clickCount == 0 && !s.modalShown
    ensures !Click(s).1.offer
    ensures Click(Click(s).0).1.offer
  {
  }

  /** `resetClickCount`: the count and both session keys cleared. */
  function Reset(s: AdState): (r: AdState)
    ensures r.clickCount == 0 && r.storedCount == None && !r.modalShown
    ensures r.user == s.user && r.authUser == s.authUser && r.adFree == s.adFree
  {
    s.(clickCount := 0, storedCount := None, modalShown := false)
  }

  /** The success branch of `verifyPayment`: ad-free, and the count reset;
      any other answer is an error that changes nothing. */
  function Verified(s: AdState, status: string): (r: AdState)
    ensures status == "success" ==> r.adFree && r.clickCount == 0 && !r.modalShown
    ensures status != "success" ==> r == s
  {
    if status == "success" then Reset(s.(adFree := true)) else s
  }

  /** After a verified purchase a logged-in user's clicks are no longer
      counted and never bring the offer. */
  lemma AdFreeClicksIgnored(s: AdState)
    requires s.user
    ensures var t := Verified(s, "success");
            Click(t).0 == t && !Click(t).1.offer
  {
  }

  class AdManager {
    var user: bool
    var authUser: bool
    var adFree: bool
    var clickCount: int
    var storedCount: Option<int>
    var modalShown: bool

    function Snapshot(): AdState
      reads this
    {
      AdState(user, authUser, adFree, clickCount, storedCount, modalShown)
    }

    /** The constructor's initial state, with the session storage as the
        page finds it. */
    constructor (stored: Option<int>, shown: bool)
      ensures Snapshot() == AdState(false, false, false, 0, stored, shown)
    {
      user := false;
      authUser := false;
      adFree := false;
      clickCount := 0;
      storedCount := stored;
      modalShown := shown;
    }

    /** `loadClickCount`. */
    method LoadClickCount()
      modifies this`clickCount
      ensures clickCount == LoadedCount(storedCount)
    {
      clickCount := if storedCount.Some? then storedCount.value else 0;
    }

    /** `resetClickCount`. */
    method ResetClickCount()
      modifies this`clickCount, this`storedCount, this`modalShown
      ensures Snapshot() == Reset(old(Snapshot()))
    {
      clickCount := 0;
      storedCount := None;
      modalShown := false;
    }

    /** `trackAdClick`. */
    method TrackAdClick() returns (effect: ClickEffect)
      modifies this`clickCount, this`storedCount, this`modalShown
      ensures (Snapshot(), effect) == Click(old(Snapshot()))
    {
      effect := ClickEffect(false, false);
      if !user && !authUser {
        clickCount := clickCount + 1;
        storedCount := Some(clickCount);
        if clickCount == 1 {
          effect := effect.(loginToast := true);
        }
        return;
      }
      if user && !adFree {
        clickCount := clickCount + 1;
        storedCount := Some(clickCount);
        if clickCount >= AdClickThreshold {
          if !modalShown {
            effect := effect.(offer := true);
            modalShown := true;
          }
        }
      }
    }

    /** The answer of the verification request. */
    method VerifyPayment(status: string)
      modifies this`adFree, this`clickCount, this`storedCount, this`modalShown
      ensures Snapshot() == Verified(old(Snapshot()), status)
    {
      if status == "success" {
        adFree := true;
        ResetClickCount();
      }
    }
  }
}

=== FILE: annotation.dfy ===
/** The image annotation tool (static/js/annotation.js): a list of
    rectangle, polygon and point annotations whose ids come from a counter
    that only moves forward, with JSON export and import. The canvas
    objects, toasts and the metadata form are not part of the model. */
module Annotation {
  import opened Wrappers
  import Text

  datatype Point = Point(x: real, y: real)

  /** The `coords` object of an annotation: rectangles carry a size,
      points carry none. */
  datatype Coords = Coords(x: real, y: real, width: Option<real>, height: Option<real>)

  /** The `data` record of an annotation, in the shape export writes and
      import reads. `kind` is the JSON `type` field and `caption` its `label`. */
  datatype AnnData = AnnData(id: int, kind: string, caption: string, color: string,
                             coords: Option<Coords>, points: Option<seq<Point>>)

  /** The rectangle being dragged out on the canvas. */
  datatype Rect = Rect(left: real, top: real, width: real, height: real)

  const Accent: string := "#F97316"
  const MinSide: real := 5.0
  const MinZoom: real := 0.5
  const MaxZoom: real := 3.0

  /** The three kinds import recreates; any other `type` is skipped. */
  predicate Recognised(kind: string) {
    kind == "rectangle" || kind == "polygon" || kind == "point"
  }

  /** A record as the tool itself builds it: exactly the field its kind
      needs and nothing else. */
  predicate WellFormed(a: AnnData) {
    (a.kind == "rectangle" && a.points.None? && a.coords.Some?
      && a.coords.value.width.Some? && a.coords.value.height.Some?)
    || (a.kind == "point" && a.points.None? && a.coords.Some?
      && a.coords.value.width.None? && a.coords.value.height.None?)
    || (a.kind == "polygon" && a.points.Some? && a.coords.None?)
  }

  predicate AllWellFormed(anns: seq<AnnData>) {
    forall i :: 0 <= i < |anns| ==> WellFormed(anns[i])
  }

  /** Every id in the list is below the counter, so the next one is fresh. */
  predicate IdsBelow(anns: seq<AnnData>, next: int) {
    forall i :: 0 <= i < |anns| ==> anns[i].id < next
  }

  /** Ids strictly increase along the list (hence are distinct). */
  predicate Increasing(anns: seq<AnnData>) {
    forall i, j :: 0 <= i < j < |anns| ==> anns[i].id < anns[j].id
  }

  /** The default label: the kind's word and one more than the list length. */
  function Label(word: string, count: nat): string {
    word + " " + Text.NatToString(count + 1)
  }

  function RectangleData(id: int, count: nat, r: Rect): AnnData {
    AnnData(id, "rectangle", Label("Rectangle", count), Accent,
            Some(Coords(r.left, r.top, Some(r.width), Some(r.height))), None)
  }

  function PolygonData(id: int, count: nat, pts: seq<Point>): AnnData {
    AnnData(id, "polygon", Label("Polygon", count), Accent, None, Some(pts))
  }

  function PointData(id: int, count: nat, p: Point): AnnData {
    AnnData(id, "point", Label("Point", count), Accent, Some(Coords(p.x, p.y, None, None)), None)
  }

  /** Each record the tool draws itself has the fields its kind needs. */
  lemma DrawnRecordsAreWellFormed(id: int, count: nat, r: Rect, pts: seq<Point>, p: Point)
    ensures WellFormed(RectangleData(id, count, r))
    ensures WellFormed(PolygonData(id, count, pts))
    ensures WellFormed(PointData(id, count, p))
    ensures RectangleData(id, count, r).caption != PolygonData(id, count, pts).caption
  {
    var a := RectangleData(id, count, r).caption;
    var b := PolygonData(id, count, pts).caption;
    assert a[0] != b[0];
  }

  /** Appending a record that carries the counter's value keeps every id
      below the advanced counter and keeps the ids increasing: the new id
      differs from every id already present. */
  lemma NewIdIsFresh(anns: seq<AnnData>, next: int, d: AnnData)
    requires IdsBelow(anns, next) && d.id == next
    ensures IdsBelow(anns + [d], next + 1)
    ensures Increasing(anns) ==> Increasing(anns + [d])
    ensures forall i :: 0 <= i < |anns| ==> anns[i].id != d.id
  {
    var s := anns + [d];
    if Increasing(anns) {
      forall i, j | 0 <= i < j < |s| ensures s[i].id < s[j].id {
        if j == |anns| {
          assert s[i] == anns[i];
        } else {
          assert s[i] == anns[i] && s[j] == anns[j];
        }
      }
    }
  }

  /** `findIndex` on the id: the first position holding it, if any. */
  function FirstIndex(anns: seq<AnnData>, id: int): (r: Option<nat>)
    ensures r.Some? ==> r.value < |anns| && anns[r.value].id == id
    ensures r.Some? ==> forall j :: 0 <= j < r.value ==> anns[j].id != id
    ensures r.None? <==> forall j :: 0 <= j < |anns| ==> anns[j].id != id
  {
    if |anns| == 0 then None
    else if anns[0].id == id then Some(0)
    else match FirstIndex(anns[1..], id)
      case None => None
      case Some(k) => Some(k + 1)
  }

  /** `deleteAnnotation`: splice out the first entry with the id. */
  function RemoveFirst(anns: seq<AnnData>, id: int): seq<AnnData> {
    match FirstIndex(anns, id)
    case None => anns
    case Some(k) => anns[..k] + anns[k + 1..]
  }

  /** Where each entry of a splice comes from. */
  lemma SpliceIndex(anns: seq<AnnData>, k: nat)
    requires k < |anns|
    ensures var r := anns[..k] + anns[k + 1..];
            |r| == |anns| - 1
            && (forall i :: 0 <= i < k ==> r[i] == anns[i])
            && (forall i :: k <= i < |r| ==> r[i] == anns[i + 1])
  {
  }

  /** A splice of an increasing list is increasing. */
  lemma SpliceIncreasing(anns: seq<AnnData>, k: nat)
    requires k < |anns| && Increasing(anns)
    ensures Increasing(anns[..k] + anns[k + 1..])
  {
    var r := anns[..k] + anns[k + 1..];
    SpliceIndex(anns, k);
    forall i, j | 0 <= i < j < |r| ensures r[i].id < r[j].id {
      var i' := if i < k then i else i + 1;
      var j' := if j < k then j else j + 1;
      assert r[i] == anns[i'] && r[j] == anns[j'];
    }
  }

  /** Splicing out the only entry with an id keeps exactly the others. */
  lemma SpliceMembers(anns: seq<AnnData>, k: nat)
    requires k < |anns| && Increasing(anns)
    ensures forall a :: a in anns[..k] + anns[k + 1..] <==> a in anns && a.id != anns[k].id
  {
    var r := anns[..k] + anns[k + 1..];
    SpliceIndex(anns, k);
    forall a | a in anns && a.id != anns[k].id ensures a in r {
      var i :| 0 <= i < |anns| && anns[i] == a;
      if i < k {
        assert r[i] == a;
      } else {
        assert r[i - 1] == a;
      }
    }
    forall a | a in r ensures a in anns && a.id != anns[k].id {
      var i :| 0 <= i < |r| && r[i] == a;
      var i' := if i < k then i else i + 1;
      assert anns[i'] == a;
    }
  }

  /** With increasing ids, deleting keeps exactly the entries with other
      ids, in their order, and keeps the ids increasing and below the
      counter. */
  lemma DeleteKeepsOthersInOrder(anns: seq<AnnData>, id: int, next: int)
    requires Increasing(anns)
    ensures var r := RemoveFirst(anns, id);
            Increasing(r)
            && (IdsBelow(anns, next) ==> IdsBelow(r, next))
            && (forall a :: a in r <==> a in anns && a.id != id)
  {
    var f := FirstIndex(anns, id);
    if f.Some? {
      SpliceIncreasing(anns, f.value);
      SpliceMembers(anns, f.value);
      SpliceIndex(anns, f.value);
    }
  }

  /** The same deletion by a scan that keeps the prefix of entries passed
      over: the reference the method's loop is held to. */
  lemma RemoveFirstSplits(anns: seq<AnnData>, id: int, k: nat)
    requires k < |anns| && anns[k].id == id
    requires forall j :: 0 <= j < k ==> anns[j].id != id
    ensures RemoveFirst(anns, id) == anns[..k] + anns[k + 1..]
  {
    var f := FirstIndex(anns, id);
  }

  /** The exported JSON entry: id, type, label and colour, with `coords`
      only for rectangles and points and `points` only for polygons. */
  function ExportItem(a: AnnData): (e: AnnData)
    ensures e.id == a.id && e.kind == a.kind && e.caption == a.caption && e.color == a.color
    ensures e.coords.Some? ==> a.kind == "rectangle" || a.kind == "point"
    ensures e.points.Some? ==> a.kind == "polygon"
    ensures WellFormed(a) ==> e == a
  {
    AnnData(a.id, a.kind, a.caption, a.color,
            if a.kind == "rectangle" || a.kind == "point" then a.coords else None,
            if a.kind == "polygon" then a.points else None)
  }

  /** `exportAnnotations`: nothing when the list is empty, else every
      entry in list order. */
  function Export(anns: seq<AnnData>): (r: Option<seq<AnnData>>)
    ensures r.None? <==> |anns| == 0
    ensures r.Some? ==> |r.value| == |anns|
    ensures r.Some? && AllWellFormed(anns) ==> r.value == anns
  {
    if |anns| == 0 then None else Some(seq(|anns|, i requires 0 <= i < |anns| => ExportItem(anns[i])))
  }

  /** The counter after import: raised to one past each recognised id that
      reaches it. */
  function Raise(next: int, id: int): (n: int)
    ensures n >= next && n > id
    ensures n == next || n == id + 1
  {
    if id >= next then id + 1 else next
  }

  /** The recreate loop of `importAnnotations`, from `anns` and `next`:
      unrecognised types are skipped; a rectangle or point with no
      `coords` throws, which ends the import with what was loaded so far
      (the flag is then false). */
  function Load(items: seq<AnnData>, anns: seq<AnnData>, next: int): (r: (seq<AnnData>, int, bool))
    decreases |items|
  {
    if |items| == 0 then (anns, next, true)
    else
      var a := items[0];
      if !Recognised(a.kind) then Load(items[1..], anns, next)
      else if a.kind != "polygon" && a.coords.None? then (anns, next, false)
      else Load(items[1..], anns + [a], Raise(next, a.id))
  }

  /** Import never lowers the counter, keeps what was loaded before, and
      leaves every loaded id below the counter. */
  lemma {:induction false} LoadRaisesCounter(items: seq<AnnData>, anns: seq<AnnData>, next: int)
    requires IdsBelow(anns, next)
    ensures var (loaded, n, _) := Load(items, anns, next);
            n >= next && IdsBelow(loaded, n) && anns <= loaded
    decreases |items|
  {
    if |items| > 0 {
      var a := items[0];
      if !Recognised(a.kind) {
        LoadRaisesCounter(items[1..], anns, next);
      } else if a.kind != "polygon" && a.coords.None? {
      } else {
        var n := Raise(next, a.id);
        assert IdsBelow(anns + [a], n);
        LoadRaisesCounter(items[1..], anns + [a], n);
      }
    }
  }

  /** Records the tool builds itself all load, and are appended unchanged. */
  lemma {:induction false} LoadWellFormed(items: seq<AnnData>, anns: seq<AnnData>, next: int)
    requires AllWellFormed(items)
    ensures Load(items, anns, next).0 == anns + items
    ensures Load(items, anns, next).2
    ensures IdsBelow(items, next) ==> Load(items, anns, next).1 == next
    decreases |items|
  {
    if |items| > 0 {
      var a := items[0];
      assert WellFormed(a);
      assert anns + items == (anns + [a]) + items[1..];
      LoadWellFormed(items[1..], anns + [a], Raise(next, a.id));
      if IdsBelow(items, next) {
        assert a.id < next;
      }
    }
  }

  /** Exporting the tool's own list and importing the file back restores
      the same list in the same order, reports every entry, and leaves
      the counter where it was. */
  lemma ExportThenImportRestores(anns: seq<AnnData>, next: int)
    requires AllWellFormed(anns) && IdsBelow(anns, next) && |anns| > 0
    ensures Export(anns).Some?
    ensures Load(Export(anns).value, [], next) == (anns, next, true)
  {
    LoadWellFormed(anns, [], next);
    assert [] + anns == anns;
  }

  /** `zoom`: the product clamped to [0.5, 3]. */
  function ClampZoom(z: real): (r: real)
    ensures MinZoom <= r <= MaxZoom
    ensures MinZoom <= z <= MaxZoom ==> r == z
    ensures z < MinZoom ==> r == MinZoom
    ensures z > MaxZoom ==> r == MaxZoom
  {
    var lo := if z < MaxZoom then z else MaxZoom;
    if lo > MinZoom then lo else MinZoom
  }

  /** The outcome of an import, as the toast reports it. */
  datatype ImportOutcome = Imported(count: nat) | ImportFailed

  /** The parsed file: not JSON at all, or JSON whose `annotations` member
      is an array (`Some`) or is missing or not an array (`None`). */
  datatype ImportDoc = NotJson | Parsed(annotations: Option<seq<AnnData>>)

  class AnnotationTool {
    var annotations: seq<AnnData>
    var nextId: int
    var tempRect: Option<Rect>
    var tempRectStart: Point
    var polygonPoints: seq<Point>
    var isDrawingPolygon: bool
    var zoomLevel: real

    predicate Valid()
      reads this
    {
      nextId >= 1 && IdsBelow(annotations, nextId) && MinZoom <= zoomLevel <= MaxZoom
    }

    constructor ()
      ensures Valid() && annotations == [] && nextId == 1 && zoomLevel == 1.0
      ensures tempRect.None? && polygonPoints == [] && !isDrawingPolygon
    {
      annotations := [];
      nextId := 1;
      tempRect := None;
      tempRectStart := Point(0.0, 0.0);
      polygonPoints := [];
      isDrawingPolygon := false;
      zoomLevel := 1.0;
    }

    /** `startDrawingRectangle`: an empty rectangle at the cursor. */
    method StartRectangle(p: Point)
      modifies this
      ensures tempRect == Some(Rect(p.x, p.y, 0.0, 0.0)) && tempRectStart == p
      ensures annotations == old(annotations) && nextId == old(nextId) && zoomLevel == old(zoomLevel)
      ensures polygonPoints == old(polygonPoints) && isDrawingPolygon == old(isDrawingPolygon)
    {
      tempRect := Some(Rect(p.x, p.y, 0.0, 0.0));
      tempRectStart := p;
    }

    /** `updateDrawingRectangle`: the rectangle spans the start point and
        the cursor whichever way the drag goes. */
    method UpdateRectangle(p: Point)
      modifies this`tempRect
      ensures old(tempRect).None? ==> tempRect.None?
      ensures old(tempRect).Some? ==>
                (tempRect.Some? && tempRect.value.width >= 0.0 && tempRect.value.height >= 0.0
                 && tempRect.value.left == Min(tempRectStart.x, p.x)
                 && tempRect.value.left + tempRect.value.width == Max(tempRectStart.x, p.x)
                 && tempRect.value.top == Min(tempRectStart.y, p.y)
                 && tempRect.value.top + tempRect.value.height == Max(tempRectStart.y, p.y))
    {
      if tempRect.None? {
        return;
      }
      var width := p.x - tempRectStart.x;
      var height := p.y - tempRectStart.y;
      tempRect := Some(Rect(if width > 0.0 then tempRectStart.x else p.x,
                            if height > 0.0 then tempRectStart.y else p.y,
                            Abs(width), Abs(height)));
    }

    /** `finishDrawingRectangle`: a rectangle narrower or shorter than 5
        (or none at all) is discarded; otherwise it becomes an annotation
        with the counter's id. */
    method FinishRectangle()
      requires Valid()
      modifies this
      ensures Valid() && tempRect.None?
      ensures var small := old(tempRect).None? || old(tempRect).value.width < MinSide
                           || old(tempRect).value.height < MinSide;
              (small ==> annotations == old(annotations) && nextId == old(nextId))
              && (!small ==> annotations == old(annotations) + [RectangleData(old(nextId), |old(annotations)|, old(tempRect).value)]
                             && nextId == old(nextId) + 1)
      ensures Increasing(old(annotations)) ==> Increasing(annotations)
      ensures zoomLevel == old(zoomLevel) && polygonPoints == old(polygonPoints)
      ensures isDrawingPolygon == old(isDrawingPolygon)
    {
      if tempRect.None? || tempRect.value.width < MinSide || tempRect.value.height < MinSide {
        tempRect := None;
        return;
      }
      var d := RectangleData(nextId, |annotations|, tempRect.value);
      NewIdIsFresh(annotations, nextId, d);
      annotations := annotations + [d];
      nextId := nextId + 1;
      tempRect := None;
    }

    /** `addPolygonPoint`: a first click starts a fresh polygon. */
    method AddPolygonPoint(p: Point)
      modifies this`polygonPoints, this`isDrawingPolygon
      ensures isDrawingPolygon
      ensures polygonPoints == (if old(isDrawingPolygon) then old(polygonPoints) else []) + [p]
    {
      if !isDrawingPolygon {
        isDrawingPolygon := true;
        polygonPoints := [];
      }
      polygonPoints := polygonPoints + [p];
    }

    /** `finishPolygon`: fewer than 3 points cancels the polygon; otherwise
        it becomes an annotation with the counter's id. Either way the
        drawing state is cleared. */
    method FinishPolygon()
      requires Valid()
      modifies this
      ensures Valid() && !isDrawingPolygon && polygonPoints == []
      ensures |old(polygonPoints)| < 3 ==> annotations == old(annotations) && nextId == old(nextId)
      ensures |old(polygonPoints)| >= 3 ==>
                annotations == old(annotations) + [PolygonData(old(nextId), |old(annotations)|, old(polygonPoints))]
                && nextId == old(nextId) + 1
      ensures Increasing(old(annotations)) ==> Increasing(annotations)
      ensures zoomLevel == old(zoomLevel) && tempRect == old(tempRect)
    {
      if |polygonPoints| < 3 {
        isDrawingPolygon := false;
        polygonPoints := [];
        return;
      }
      var d := PolygonData(nextId, |annotations|, polygonPoints);
      NewIdIsFresh(annotations, nextId, d);
      annotations := annotations + [d];
      nextId := nextId + 1;
      isDrawingPolygon := false;
      polygonPoints := [];
    }

    /** `addPoint`: a point annotation at the cursor with the counter's id. */
    method AddPoint(p: Point)
      requires Valid()
      modifies this
      ensures Valid()
      ensures annotations == old(annotations) + [PointData(old(nextId), |old(annotations)|, p)]
      ensures nextId == old(nextId) + 1
      ensures Increasing(old(annotations)) ==> Increasing(annotations)
      ensures zoomLevel == old(zoomLevel) && tempRect == old(tempRect)
      ensures polygonPoints == old(polygonPoints) && isDrawingPolygon == old(isDrawingPolygon)
    {
      var d := PointData(nextId, |annotations|, p);
      NewIdIsFresh(annotations, nextId, d);
      annotations := annotations + [d];
      nextId := nextId + 1;
    }

    /** `deleteAnnotation`: the first entry with the id goes; the counter
        is untouched, so a deleted id is never handed out again. */
    method DeleteAnnotation(id: int)
      requires Valid()
      modifies this`annotations
      ensures Valid()
      ensures annotations == RemoveFirst(old(annotations), id)
      ensures Increasing(old(annotations)) ==> Increasing(annotations)
    {
      var i := 0;
      while i < |annotations| && annotations[i].id != id
        invariant 0 <= i <= |annotations|
        invariant forall j :: 0 <= j < i ==> annotations[j].id != id
      {
        i := i + 1;
      }
      var before := annotations;
      if i < |annotations| {
        RemoveFirstSplits(annotations, id, i);
        annotations := annotations[..i] + annotations[i + 1..];
      } else {
        assert FirstIndex(annotations, id).None?;
      }
      if Increasing(before) {
        DeleteKeepsOthersInOrder(before, id, nextId);
      }
      assert forall a :: a in annotations ==> a in before;
    }

    /** `importAnnotations`: a file that is not JSON, or has no
        `annotations` array, fails before anything changes. Otherwise the
        list is replaced by the recognised entries, the counter is raised
        past each of their ids, and a missing `coords` stops the import
        part way with what was loaded so far. */
    method ImportAnnotations(doc: ImportDoc) returns (outcome: ImportOutcome)
      requires Valid()
      modifies this`annotations, this`nextId
      ensures Valid() && nextId >= old(nextId)
      ensures doc.NotJson? || doc.annotations.None? ==>
                outcome == ImportFailed && annotations == old(annotations) && nextId == old(nextId)
      ensures doc.Parsed? && doc.annotations.Some? ==>
                var (loaded, next, ok) := Load(doc.annotations.value, [], old(nextId));
                annotations == loaded && nextId == next
                && outcome == (if ok then Imported(|doc.annotations.value|) else ImportFailed)
    {
      if doc.NotJson? || doc.annotations.None? {
        return ImportFailed;
      }
      var items := doc.annotations.value;
      annotations := [];
      var i := 0;
      while i < |items|
        invariant 0 <= i <= |items|
        invariant nextId >= old(nextId) && IdsBelow(annotations, nextId)
        invariant Load(items[i..], annotations, nextId) == Load(items, [], old(nextId))
      {
        var a := items[i];
        assert items[i..][1..] == items[i + 1..];
        if Recognised(a.kind) {
          if a.kind != "polygon" && a.coords.None? {
            return ImportFailed;
          }
          annotations := annotations + [a];
          if a.id >= nextId {
            nextId := a.id + 1;
          }
        }
        i := i + 1;
      }
      return Imported(|items|);
    }

    /** `changeImage`, when the user confirms: an empty list and the
        counter back at 1. */
    method ChangeImage(confirmed: bool)
      requires Valid()
      modifies this`annotations, this`nextId
      ensures Valid()
      ensures confirmed ==> annotations == [] && nextId == 1
      ensures !confirmed ==> annotations == old(annotations) && nextId == old(nextId)
    {
      if confirmed {
        annotations := [];
        nextId := 1;
      }
    }

    /** `zoom`: multiply, then clamp to [0.5, 3]. */
    method Zoom(factor: real)
      requires Valid()
      modifies this`zoomLevel
      ensures Valid() && zoomLevel == ClampZoom(old(zoomLevel) * factor)
    {
      zoomLevel := ClampZoom(zoomLevel * factor);
    }

    method ResetZoom()
      requires Valid()
      modifies this`zoomLevel
      ensures Valid() && zoomLevel == 1.0
    {
      zoomLevel := 1.0;
    }
  }

  function Min(a: real, b: real): real { if a <= b then a else b }
  function Max(a: real, b: real): real { if a >= b then a else b }
  function Abs(a: real): real { if a < 0.0 then -a else a }
}

=== FILE: app_rules.dfy ===
/** The request rules of the image routes in app.py: resize limits, the
    compression plan, the EXIF price check, the EXIF tag categoriser, the
    crop clamp, the collage layout choice, and the colour notation of the
    palette and the watermark. Form values arrive already converted:
    `None` stands for a value that is missing or that `int()` rejects. */
module AppRules {
  import opened Wrappers
  import Text
  import AdminConfig
  import opened Hex

  // ---------------------------------------------------------------- resize

  const MaxDimension: int := 10000
  const MaxTotalPixels: int := 100000000

  /** Python's `int()` of a quotient: truncation toward zero. */
  function TruncDiv(n: int, d: int): (q: int)
    requires d > 0
    ensures n >= 0 ==> q == n / d
    ensures n < 0 ==> q == -((-n) / d)
  {
    if n >= 0 then n / d else -((-n) / d)
  }

  /** The requested size: the form's width and height in pixel mode, and
      otherwise the image scaled by `scale` percent, truncated. */
  function ResizeTarget(mode: Option<string>, imgWidth: nat, imgHeight: nat,
                        width: Option<int>, height: Option<int>, scale: Option<int>): (r: Option<(int, int)>)
    ensures mode == Some("pixel") ==> (r.Some? <==> width.Some? && height.Some?)
    ensures mode == Some("pixel") && r.Some? ==> r.value == (width.value, height.value)
    ensures mode != Some("pixel") ==> (r.Some? <==> scale.Some?)
    ensures mode != Some("pixel") && r.Some? && scale.value >= 0 ==>
              r.value.0 * 100 <= imgWidth * scale.value < (r.value.0 + 1) * 100
              && r.value.1 * 100 <= imgHeight * scale.value < (r.value.1 + 1) * 100
  {
    if mode == Some("pixel") then
      if width.None? || height.None? then None else Some((width.value, height.value))
    else if scale.None? then None
    else Some((TruncDiv(imgWidth * scale.value, 100), TruncDiv(imgHeight * scale.value, 100)))
  }

  /** `{:,}`: decimal digits grouped in threes with commas. */
  function Grouped(n: nat): string {
    if n < 1000 then Text.NatToString(n)
    else Grouped(n / 1000) + "," + Pad3(n % 1000)
  }

  function Pad3(n: nat): string
    requires n < 1000
  {
    if n < 10 then "00" + Text.NatToString(n)
    else if n < 100 then "0" + Text.NatToString(n)
    else Text.NatToString(n)
  }

  datatype ResizeOutcome =
    | ResizeTo(width: int, height: int)
    | DimensionsTooLarge(width: int, height: int, message: string)   // 400
    | TooManyPixels(pixels: int, message: string)                    // 400
    | ResizeFailed                                                   // 500

  function Size(w: int, h: int): string {
    Text.IntToString(w) + "x" + Text.IntToString(h)
  }

  /** The checks of `api_resize` before the resize call, on the requested
      size (None: the form values did not convert, answered with 500):
      either side above 10000 is refused first, then a product above
      100,000,000. */
  function ResizeCheck(target: Option<(int, int)>): (o: ResizeOutcome)
    ensures o.ResizeTo? <==> target.Some? && target.value.0 <= MaxDimension && target.value.1 <= MaxDimension
                             && target.value.0 * target.value.1 <= MaxTotalPixels
    ensures o.ResizeTo? ==> target == Some((o.width, o.height))
    ensures o.ResizeFailed? <==> target.None?
    ensures o.DimensionsTooLarge? ==>
              (o.width > MaxDimension || o.height > MaxDimension) && target == Some((o.width, o.height))
    ensures o.TooManyPixels? ==>
              o.pixels > MaxTotalPixels && target.Some? && target.value.0 * target.value.1 == o.pixels
  {
    match target
    case None => ResizeFailed
    case Some((w, h)) =>
      if w > MaxDimension || h > MaxDimension then
        DimensionsTooLarge(w, h, "Image dimensions too large! Maximum allowed: 10000x10000 pixels. Requested: "
                                 + Size(w, h))
      else if w * h > MaxTotalPixels then
        TooManyPixels(w * h, "Total pixel count too large! Maximum: 100,000,000 pixels (10000x10000). Requested: "
                             + Grouped(w * h) + " pixels (" + Size(w, h) + ")")
      else ResizeTo(w, h)
  }

  /** For sizes that are not negative the first check implies the second:
      the pixel limit can only refuse a pair of negative sides. */
  lemma PixelLimitOnlyCatchesNegativePairs(w: int, h: int)
    requires w <= MaxDimension && h <= MaxDimension && w * h > MaxTotalPixels
    ensures w < 0 && h < 0
  {
    if w >= 0 && h >= 0 {
      NonNegativeProductBound(w, h);
    }
  }

  lemma NonNegativeProductBound(w: int, h: int)
    requires 0 <= w <= MaxDimension && 0 <= h <= MaxDimension
    ensures w * h <= MaxTotalPixels
  {
    assert (MaxDimension - w) * h >= 0;
    assert MaxDimension * (MaxDimension - h) >= 0;
  }

  // -------------------------------------------------------------- compress

  datatype CompressPlan =
    | SaveJpeg(quality: int)
    | SavePngQuantized(colors: int)
    | SavePng
    | SaveWebp(quality: int)
    | SaveAs(format: string, quality: int)
    /** `int()` of the quality field raises outside the route's `try`; `log_request`
        re-raises it and `require_auth` answers 401 "Authentication failed" with the
        exception's text, after the credits were already deducted. */
    | QualityRaised

  /** The palette size for a PNG at `quality` below 90: the quality's share
      of 256 colours, at least 2. */
  function PngColors(quality: int): (n: int)
    ensures 2 <= n
    ensures n == (if TruncDiv(quality * 256, 100) > 2 then TruncDiv(quality * 256, 100) else 2)
  {
    var c := TruncDiv(quality * 256, 100);
    if c > 2 then c else 2
  }

  lemma PngColorsBounded(quality: int)
    requires quality < 90
    ensures 2 <= PngColors(quality) <= 230
  {
  }

  lemma PngColorsMonotone(q1: int, q2: int)
    requires q1 <= q2
    ensures PngColors(q1) <= PngColors(q2)
  {
    assert q1 * 256 <= q2 * 256;
  }

  /** `api_compress`: the quality field (80 when missing) must parse as an
      integer, and then the stored format (JPEG when unknown) and the
      quality decide how the image is written. */
  function CompressPlanFor(format: Option<string>, quality: Option<string>): (p: CompressPlan)
    ensures p.QualityRaised? <==> quality.Some? && Text.ParseInt(quality.value).None?
    ensures !p.QualityRaised? ==>
            var f := AdminConfig.Lower(format.GetOr("JPEG"));
            var q := if quality.Some? then Text.ParseInt(quality.value).value else 80;
            && ((f == "jpeg" || f == "jpg") <==> p.SaveJpeg?)
            && (p.SaveJpeg? ==> p.quality == (if q >= 95 then 95 else q) && p.quality <= 95)
            && (f == "png" ==> (q < 90 <==> p.SavePngQuantized?) && (p.SavePngQuantized? ==> p.colors == PngColors(q)))
            && (f == "webp" ==> p == SaveWebp(q))
  {
    var parsed := if quality.Some? then Text.ParseInt(quality.value) else Some(80);
    if parsed.None? then QualityRaised
    else
      var f := format.GetOr("JPEG");
      var q := parsed.value;
      var lower := AdminConfig.Lower(f);
      if lower == "jpeg" || lower == "jpg" then SaveJpeg(if q >= 95 then 95 else q)
      else if lower == "png" then (if q < 90 then SavePngQuantized(PngColors(q)) else SavePng)
      else if lower == "webp" then SaveWebp(q)
      else SaveAs(f, q)
  }

  // ------------------------------------------------------------------ EXIF

  /** What the balance read answers: a failure, or the remaining credits
      (None: the entry is missing, read as 0). */
  datatype BalanceReply = BalanceFailed | BalanceOk(remaining: Option<int>)

  datatype ExifDecision =
    | ExifCharge(tool: string, cost: int)      // non-admin: deduct, then proceed
    | ExifFree(tool: string, cost: int)        // admin: proceed without deducting
    | ExifRefused(status: int, error: string)

  function ExifCost(action: string): (c: int)
    ensures c == 1 <==> action == "view"
    ensures c == 2 <==> action != "view"
  {
    if action == "view" then 1 else 2
  }

  /** The check of `api_exif` before the deduction: admins pass; others
      need a successful balance read covering the action's price. */
  function ExifGate(action: Option<string>, admin: bool, balance: BalanceReply): (d: ExifDecision)
    ensures var a := action.GetOr("view");
            && (admin ==> d == ExifFree("exif_" + a, ExifCost(a)))
            && (!admin && balance.BalanceFailed? ==> d == ExifRefused(500, "Failed to check credit balance"))
            && (!admin && balance.BalanceOk? ==>
                  (d.ExifCharge? <==> balance.remaining.GetOr(0) >= ExifCost(a))
                  && (d.ExifCharge? ==> d == ExifCharge("exif_" + a, ExifCost(a)))
                  && (!d.ExifCharge? ==> d.ExifRefused? && d.status == 402))
  {
    var a := action.GetOr("view");
    var cost := ExifCost(a);
    if admin then ExifFree("exif_" + a, cost)
    else
      match balance
      case BalanceFailed => ExifRefused(500, "Failed to check credit balance")
      case BalanceOk(rem) =>
        var remaining := rem.GetOr(0);
        if remaining < cost then
          ExifRefused(402, "Insufficient credits. Need " + Text.IntToString(cost) + " credits, have "
                           + Text.IntToString(remaining) + ".")
        else ExifCharge("exif_" + a, cost)
  }

  /** `word in text`. */
  predicate Contains(text: string, word: string) {
    exists i: nat :: i <= |text| && OccursAt(text, word, i)
  }

  predicate OccursAt(text: string, word: string, i: nat) {
    i + |word| <= |text| && text[i..i + |word|] == word
  }

  predicate ContainsAny(text: string, words: seq<string>) {
    exists j :: 0 <= j < |words| && Contains(text, words[j])
  }

  const DateTimeWords: seq<string> := ["date", "time", "datetime", "timestamp", "offsettime"]

  const CameraWords: seq<string> := [
    "exposuretime", "fnumber", "iso", "shutterspeed", "aperture",
    "focallength", "flash", "meteringmode", "exposuremode",
    "whitebalance", "exposureprogram", "exposurebias",
    "focallengthin35mm", "digitalzoomratio", "scenecapturetype",
    "gaincontrol", "contrast", "saturation", "sharpness",
    "brightnessvalue", "maxaperturevalue", "subjectdistance",
    "lightsource", "sensingmethod", "filesource", "scenetype",
    "customrendered", "exposureindex", "focalplane"]

  const SoftwareWords: seq<string> := [
    "software", "artist", "copyright", "makernote", "usercomment",
    "imageuniqueid", "cameraserialnumber", "lensmake", "lensmodel",
    "lensspecification", "lensserialnumber", "bodyserialnumber"]

  const BasicWords: seq<string> := [
    "make", "model", "orientation", "xresolution", "yresolution",
    "resolutionunit", "imagewidth", "imagelength", "imageheight",
    "bitspersample", "compression", "photometricinterpretation",
    "samplesperpixel", "planarconfiguration", "ycbcrpositioning",
    "exifoffset", "colorspace", "pixelxdimension", "pixelydimension",
    "componentsconfiguration", "compressedbitsperpixel"]

  const Categories: seq<string> := ["GPS Location", "Date & Time", "Camera Settings", "Software & Custom", "Basic Info"]

  /** `categorize_exif_tag`: the first group whose words occur in the
      lower-cased tag name, in the order GPS, date and time, camera,
      software, basic; an unmatched tag is a camera setting in the Exif
      directory and basic information elsewhere. */
  function CategorizeExifTag(tag: string, ifd: string): (c: string)
    ensures c in Categories
    ensures var t := AdminConfig.Lower(tag);
            && (c == "GPS Location" <==> ifd == "GPS" || Contains(t, "gps"))
            && (c == "Date & Time" <==> !(ifd == "GPS" || Contains(t, "gps")) && ContainsAny(t, DateTimeWords))
            && (c == "Software & Custom" <==>
                  !(ifd == "GPS" || Contains(t, "gps")) && !ContainsAny(t, DateTimeWords)
                  && !ContainsAny(t, CameraWords) && ContainsAny(t, SoftwareWords))
            && ((!(ifd == "GPS" || Contains(t, "gps")) && !ContainsAny(t, DateTimeWords)
                 && ContainsAny(t, CameraWords)) ==> c == "Camera Settings")
            && ((!(ifd == "GPS" || Contains(t, "gps")) && !ContainsAny(t, DateTimeWords)
                 && !ContainsAny(t, CameraWords) && !ContainsAny(t, SoftwareWords)) ==>
                  c == (if ContainsAny(t, BasicWords) || ifd != "Exif" then "Basic Info" else "Camera Settings"))
  {
    var t := AdminConfig.Lower(tag);
    if ifd == "GPS" || Contains(t, "gps") then "GPS Location"
    else if ContainsAny(t, DateTimeWords) then "Date & Time"
    else if ContainsAny(t, CameraWords) then "Camera Settings"
    else if ContainsAny(t, SoftwareWords) then "Software & Custom"
    else if ContainsAny(t, BasicWords) then "Basic Info"
    else if ifd == "Exif" then "Camera Settings"
    else "Basic Info"
  }

  /** The matching is by substring, so the letter case of the tag does not
      matter and any tag containing "DateTime" is filed under date and time
      unless it mentions GPS. */
  lemma DateTimeTagsAreDates(prefix: string, suffix: string, ifd: string)
    requires ifd != "GPS" && !Contains(AdminConfig.Lower(prefix + "DateTime" + suffix), "gps")
    ensures CategorizeExifTag(prefix + "DateTime" + suffix, ifd) == "Date & Time"
  {
    var tag := prefix + "DateTime" + suffix;
    var t := AdminConfig.Lower(tag);
    var i := |prefix|;
    assert t[i..i + 4] == "date" by {
      forall k | 0 <= k < 4 ensures t[i + k] == "date"[k] {
        assert tag[i + k] == "DateTime"[k];
      }
    }
    assert OccursAt(t, DateTimeWords[0], i);
  }

  // ------------------------------------------------------------------ crop

  function Clamp(v: real, hi: real): (c: real)
    requires hi >= 0.0
    ensures 0.0 <= c <= hi
    ensures 0.0 <= v <= hi ==> c == v
  {
    var m := if v < hi then v else hi;
    if m > 0.0 then m else 0.0
  }

  /** `api_crop` step 1: the box (left, top, right, bottom) clamped to the
      image, or None (keep the whole image) when it is empty. */
  function CropBox(x: real, y: real, width: real, height: real, imgWidth: nat, imgHeight: nat): (b: Option<(real, real, real, real)>)
    ensures b.Some? ==> var (l, t, r, bt) := b.value;
                        0.0 <= l < r <= imgWidth as real && 0.0 <= t < bt <= imgHeight as real
    ensures 0.0 <= x && 0.0 < width && x + width <= imgWidth as real
            && 0.0 <= y && 0.0 < height && y + height <= imgHeight as real ==>
              b == Some((x, y, x + width, y + height))
  {
    var l := Clamp(x, imgWidth as real);
    var t := Clamp(y, imgHeight as real);
    var r := Clamp(x + width, imgWidth as real);
    var bt := Clamp(y + height, imgHeight as real);
    if r > l && bt > t then Some((l, t, r, bt)) else None
  }

  // --------------------------------------------------------------- collage

  /** A slot of a layout: x, y, width, height as fractions of the canvas. */
  datatype Slot = Slot(x: real, y: real, w: real, h: real)

  const LayoutTemplates: map<string, seq<Slot>> := map[
    "layout_2_v" := [Slot(0.0, 0.0, 0.5, 1.0), Slot(0.5, 0.0, 0.5, 1.0)],
    "layout_2_h" := [Slot(0.0, 0.0, 1.0, 0.5), Slot(0.0, 0.5, 1.0, 0.5)],
    "layout_3_cols" := [Slot(0.0, 0.0, 0.333, 1.0), Slot(0.333, 0.0, 0.333, 1.0), Slot(0.666, 0.0, 0.333, 1.0)],
    "layout_3_rows" := [Slot(0.0, 0.0, 1.0, 0.333), Slot(0.0, 0.333, 1.0, 0.333), Slot(0.0, 0.666, 1.0, 0.333)],
    "layout_3_grid" := [Slot(0.0, 0.0, 0.666, 1.0), Slot(0.666, 0.0, 0.333, 0.5), Slot(0.666, 0.5, 0.333, 0.5)],
    "layout_4_grid" := [Slot(0.0, 0.0, 0.5, 0.5), Slot(0.5, 0.0, 0.5, 0.5), Slot(0.0, 0.5, 0.5, 0.5), Slot(0.5, 0.5, 0.5, 0.5)],
    "layout_4_cols" := [Slot(0.0, 0.0, 0.25, 1.0), Slot(0.25, 0.0, 0.25, 1.0), Slot(0.5, 0.0, 0.25, 1.0), Slot(0.75, 0.0, 0.25, 1.0)],
    "layout_5_grid" := [Slot(0.0, 0.0, 0.5, 0.5), Slot(0.5, 0.0, 0.5, 0.5),
                        Slot(0.0, 0.5, 0.333, 0.5), Slot(0.333, 0.5, 0.333, 0.5), Slot(0.666, 0.5, 0.333, 0.5)],
    "layout_5_mosaic" := [Slot(0.0, 0.0, 0.5, 0.666), Slot(0.5, 0.0, 0.5, 0.333), Slot(0.5, 0.333, 0.5, 0.333),
                          Slot(0.0, 0.666, 0.5, 0.333), Slot(0.5, 0.666, 0.5, 0.333)],
    "layout_6_grid" := [Slot(0.0, 0.0, 0.333, 0.5), Slot(0.333, 0.0, 0.333, 0.5), Slot(0.666, 0.0, 0.333, 0.5),
                        Slot(0.0, 0.5, 0.333, 0.5), Slot(0.333, 0.5, 0.333, 0.5), Slot(0.666, 0.5, 0.333, 0.5)],
    "layout_6_rows" := [Slot(0.0, 0.0, 0.5, 0.333), Slot(0.5, 0.0, 0.5, 0.333),
                        Slot(0.0, 0.333, 0.5, 0.333), Slot(0.5, 0.333, 0.5, 0.333),
                        Slot(0.0, 0.666, 0.5, 0.333), Slot(0.5, 0.666, 0.5, 0.333)]
  ]

  predicate InsideCanvas(s: Slot) {
    0.0 <= s.x && 0.0 <= s.y && 0.0 < s.w && 0.0 < s.h && s.x + s.w <= 1.0 && s.y + s.h <= 1.0
  }

  /** Every slot of every layout lies inside the canvas. */
  lemma SlotsInsideCanvas()
    ensures forall id :: id in LayoutTemplates ==>
              forall i :: 0 <= i < |LayoutTemplates[id]| ==> InsideCanvas(LayoutTemplates[id][i])
  {
  }

  /** The layout `api_collage` uses for `count` images: the requested one
      when it exists and is not "auto", otherwise the default for the count
      (two-image split for counts other than 2 to 6). */
  function ChooseLayout(requested: Option<string>, count: int): (id: string)
    ensures id in LayoutTemplates
    ensures var r := requested.GetOr("auto"); r != "auto" && r in LayoutTemplates ==> id == r
    ensures var r := requested.GetOr("auto"); (r == "auto" || r !in LayoutTemplates) && 2 <= count <= 6 ==>
              |LayoutTemplates[id]| == count
  {
    var r := requested.GetOr("auto");
    if r != "auto" && r in LayoutTemplates then r
    else if count == 2 then "layout_2_v"
    else if count == 3 then "layout_3_grid"
    else if count == 4 then "layout_4_grid"
    else if count == 5 then "layout_5_mosaic"
    else if count == 6 then "layout_6_grid"
    else "layout_2_v"
  }

  // ---------------------------------------------------------------- colour

  /** A palette entry: its channels and its `#rrggbb` notation. */
  datatype PaletteColor = PaletteColor(r: Byte, g: Byte, b: Byte, hex: string)

  /** `api_palette`'s loop over the first eight colours of a flat
      r, g, b, r, g, b, ... palette, skipping incomplete triples. */
  method ExtractColors(palette: seq<Byte>) returns (colors: seq<PaletteColor>)
    ensures |colors| == (if |palette| / 3 < 8 then |palette| / 3 else 8)
    ensures forall i :: 0 <= i < |colors| ==>
              colors[i] == PaletteColor(palette[3 * i], palette[3 * i + 1], palette[3 * i + 2],
                                        ColorHex(palette[3 * i], palette[3 * i + 1], palette[3 * i + 2]))
  {
    colors := [];
    var i := 0;
    while i < 8
      invariant 0 <= i <= 8
      invariant |colors| == (if |palette| / 3 < i then |palette| / 3 else i)
      invariant forall k :: 0 <= k < |colors| ==>
                  colors[k] == PaletteColor(palette[3 * k], palette[3 * k + 1], palette[3 * k + 2],
                                            ColorHex(palette[3 * k], palette[3 * k + 1], palette[3 * k + 2]))
    {
      if i * 3 + 2 < |palette| {
        var r, g, b := palette[i * 3], palette[i * 3 + 1], palette[i * 3 + 2];
        colors := colors + [PaletteColor(r, g, b, ColorHex(r, g, b))];
      }
      i := i + 1;
    }
  }

  /** `str.lstrip('#')`. */
  function StripHashes(s: string): (t: string)
    ensures |t| <= |s| && t == s[|s| - |t|..]
    ensures |t| > 0 ==> t[0] != '#'
  {
    if |s| > 0 && s[0] == '#' then StripHashes(s[1..]) else s
  }

  /** Python slicing `s[i:j]` for 0 <= i <= j: clipped to the string. */
  function Slice(s: string, i: nat, j: nat): string
    requires i <= j
  {
    if i >= |s| then "" else if j >= |s| then s[i..] else s[i..j]
  }

  function TrimSpace(s: string): (t: string)
    ensures |t| <= |s|
    decreases |s|
  {
    if |s| > 0 && Text.IsSpace(s[0]) then TrimSpace(s[1..])
    else if |s| > 0 && Text.IsSpace(s[|s| - 1]) then TrimSpace(s[..|s| - 1])
    else s
  }

  /** The value of hex digits, most significant first. */
  function HexDigitsValue(s: string): int
    requires forall i :: 0 <= i < |s| ==> IsHexChar(s[i])
  {
    if |s| == 0 then 0 else HexDigitsValue(s[..|s| - 1]) * 16 + HexValue(s[|s| - 1])
  }

  /** `int(s, 16)` for the strings of at most two characters it is given
      here: surrounding white space, an optional sign, and hex digits. */
  function ParseHex(s: string): (r: Option<int>)
    ensures s == "" ==> r.None?
  {
    var t := TrimSpace(s);
    var neg := |t| > 0 && t[0] == '-';
    var digits := if |t| > 0 && (t[0] == '-' || t[0] == '+') then t[1..] else t;
    if |digits| == 0 || exists i :: 0 <= i < |digits| && !IsHexChar(digits[i]) then None
    else if neg then Some(-HexDigitsValue(digits))
    else Some(HexDigitsValue(digits))
  }

  /** Two hex digits read as their value. */
  lemma ParseHexPair(s: string)
    requires |s| == 2 && IsHexChar(s[0]) && IsHexChar(s[1])
    ensures ParseHex(s) == Some(PairValue(s[0], s[1]))
  {
    assert !Text.IsSpace(s[0]) && !Text.IsSpace(s[1]);
    assert TrimSpace(s) == s;
    assert s[0] != '-' && s[0] != '+';
    assert forall i :: 0 <= i < |s| ==> IsHexChar(s[i]);
    assert s[..1][..0] == [];
    assert HexDigitsValue(s[..1]) == HexValue(s[0]);
    assert HexDigitsValue(s) == HexDigitsValue(s[..1]) * 16 + HexValue(s[1]);
  }

  /** A slice of two hex digits is read as their value. */
  lemma SlicePair(t: string, i: nat)
    requires i + 2 <= |t| && IsHexChar(t[i]) && IsHexChar(t[i + 1])
    ensures ParseHex(Slice(t, i, i + 2)) == Some(PairValue(t[i], t[i + 1]))
  {
    var a := Slice(t, i, i + 2);
    assert a == t[i..i + 2];
    ParseHexPair(a);
  }

  /** The watermark colour of `api_watermark`: leading '#' removed, then
      three two-character slices read in base 16. None means the
      conversion raises and the route answers 500. */
  function ParseWatermarkColor(color: string): (r: Option<(int, int, int)>)
  {
    ParseColorDigits(StripHashes(color))
  }

  /** The three two-character slices of the text after the '#'s. */
  function ParseColorDigits(t: string): Option<(int, int, int)> {
    BothThree(ParseHex(Slice(t, 0, 2)), ParseHex(Slice(t, 2, 4)), ParseHex(Slice(t, 4, 6)))
  }

  /** The three channels, when all three parsed. */
  function BothThree(r: Option<int>, g: Option<int>, b: Option<int>): Option<(int, int, int)> {
    if r.Some? && g.Some? && b.Some? then Some((r.value, g.value, b.value)) else None
  }

  /** Six hex digits are read as three pairs. */
  lemma ParseColorSix(t: string)
    requires |t| == 6 && forall i :: 0 <= i < 6 ==> IsHexChar(t[i])
    ensures ParseColorDigits(t) == Some((PairValue(t[0], t[1]), PairValue(t[2], t[3]), PairValue(t[4], t[5])))
  {
    var r, g, b := PairValue(t[0], t[1]), PairValue(t[2], t[3]), PairValue(t[4], t[5]);
    SlicePair(t, 0);
    SlicePair(t, 2);
    SlicePair(t, 4);
    assert BothThree(Some(r), Some(g), Some(b)) == Some((r, g, b));
  }

  /** Six hex digits after the leading '#'s are read as three pairs. */
  lemma ParseSixDigits(color: string)
    requires var t := StripHashes(color); |t| == 6 && forall i :: 0 <= i < 6 ==> IsHexChar(t[i])
    ensures var t := StripHashes(color);
            ParseWatermarkColor(color) == Some((PairValue(t[0], t[1]), PairValue(t[2], t[3]), PairValue(t[4], t[5])))
  {
    ParseColorSix(StripHashes(color));
  }

  /** The watermark parse reads back the palette's notation. */
  lemma ColorNotationRoundTrip(r: Byte, g: Byte, b: Byte)
    ensures ParseWatermarkColor(ColorHex(r, g, b)) == Some((r, g, b))
  {
    var t := Hex2(r) + Hex2(g) + Hex2(b);
    StripColorHex(r, g, b);
    assert t[0] == Hex2(r)[0] && t[1] == Hex2(r)[1];
    assert t[2] == Hex2(g)[0] && t[3] == Hex2(g)[1];
    assert t[4] == Hex2(b)[0] && t[5] == Hex2(b)[1];
    ParseColorSix(t);
  }

  /** Removing the '#' of the colour notation leaves the six digits. */
  lemma StripColorHex(r: Byte, g: Byte, b: Byte)
    ensures StripHashes(ColorHex(r, g, b)) == Hex2(r) + Hex2(g) + Hex2(b)
  {
    var s := ColorHex(r, g, b);
    var t := Hex2(r) + Hex2(g) + Hex2(b);
    assert s[1..] == t;
    assert t[0] == Hex2(r)[0];
    assert StripHashes(t) == t;
  }

  /** A colour too short to hold three pairs is rejected. */
  lemma ShortColorIsRejected(color: string)
    requires |StripHashes(color)| <= 4
    ensures ParseWatermarkColor(color).None?
  {
  }
}

=== FILE: auth_middleware.dfy ===
/** The authentication and credit gates in front of the routes
    (auth/middleware.py). The bearer token's verification and the balance
    read are inputs: `verify` is what the identity provider answers for a
    token, and the balance comes from the shared credits table. */
module AuthMiddleware {
  import opened Wrappers
  import opened Store
  import AdminConfig
  import Text
  import opened ToolCosts

  predicate NoSpace(s: string) {
    forall i :: 0 <= i < |s| ==> !Text.IsSpace(s[i])
  }

  /** The end of the word starting at `i`: the first separator at or after `i`. */
  function WordEnd(s: string, i: nat): (k: nat)
    requires i <= |s|
    ensures i <= k <= |s|
    ensures NoSpace(s[i..k])
    ensures k == |s| || Text.IsSpace(s[k])
    decreases |s| - i
  {
    if i == |s| || Text.IsSpace(s[i]) then i else WordEnd(s, i + 1)
  }

  /** `str.split()`: the maximal runs of non-separators, in order. */
  function Words(s: string): (w: seq<string>)
    ensures forall j :: 0 <= j < |w| ==> |w[j]| > 0 && NoSpace(w[j])
    decreases |s|
  {
    if |s| == 0 then []
    else if Text.IsSpace(s[0]) then Words(s[1..])
    else
      var k := WordEnd(s, 0);
      [s[..k]] + Words(s[k..])
  }

  lemma {:induction false} WordsOfWord(s: string)
    requires |s| > 0 && NoSpace(s)
    ensures Words(s) == [s]
  {
    var k := WordEnd(s, 0);
    assert k == |s|;
    assert !Text.IsSpace(s[0]);
    assert s[..k] == s && s[k..] == [];
  }

  lemma {:induction false} WordsAfterSpace(a: string, b: string)
    requires |a| > 0 && NoSpace(a)
    ensures Words(a + " " + b) == [a] + Words(b)
  {
    var s := a + " " + b;
    assert !Text.IsSpace(s[0]);
    WordEndOfPrefix(s, a, 0);
    assert s[..|a|] == a;
    var rest := s[|a|..];
    assert rest[0] == ' ';
    assert rest[1..] == b;
  }

  lemma {:induction false} WordEndOfPrefix(s: string, a: string, i: nat)
    requires i <= |a| < |s| && s[..|a|] == a && NoSpace(a) && Text.IsSpace(s[|a|])
    ensures WordEnd(s, i) == |a|
    decreases |a| - i
  {
    if i < |a| {
      assert s[i] == a[i];
      WordEndOfPrefix(s, a, i + 1);
    }
  }

  /** Splitting a word, a space and a word gives back the two words. */
  lemma TwoWords(a: string, b: string)
    requires |a| > 0 && NoSpace(a) && |b| > 0 && NoSpace(b)
    ensures Words(a + " " + b) == [a, b]
  {
    WordsAfterSpace(a, b);
    WordsOfWord(b);
  }

  /** `get_auth_token`: the second of exactly two words whose first is
      "bearer" in any letter case; None otherwise, and for a missing or
      empty header. */
  function GetAuthToken(header: Option<string>): (tok: Option<string>)
    ensures tok.Some? <==> header.Some? && |Words(header.value)| == 2
                           && AdminConfig.Lower(Words(header.value)[0]) == "bearer"
    ensures tok.Some? ==> tok.value == Words(header.value)[1] && |tok.value| > 0 && NoSpace(tok.value)
  {
    if header.None? || header.value == "" then None
    else
      var parts := Words(header.value);
      if |parts| != 2 || AdminConfig.Lower(parts[0]) != "bearer" then None
      else Some(parts[1])
  }

  /** A well-formed header yields exactly the token it carries, whatever the
      letter case of the scheme. */
  lemma BearerHeaderYieldsToken(scheme: string, token: string)
    requires AdminConfig.Lower(scheme) == "bearer"
    requires |token| > 0 && NoSpace(token)
    ensures GetAuthToken(Some(scheme + " " + token)) == Some(token)
  {
    assert |scheme| == 6;
    assert NoSpace(scheme) by {
      forall i | 0 <= i < |scheme| ensures !Text.IsSpace(scheme[i]) {
        assert AdminConfig.LowerChar(scheme[i]) == "bearer"[i];
      }
    }
    TwoWords(scheme, token);
  }

  /** A header of any other scheme yields no token. */
  lemma OtherSchemeYieldsNothing(scheme: string, token: string)
    requires |scheme| > 0 && NoSpace(scheme) && AdminConfig.Lower(scheme) != "bearer"
    requires |token| > 0 && NoSpace(token)
    ensures GetAuthToken(Some(scheme + " " + token)) == None
  {
    TwoWords(scheme, token);
  }

  /** What the identity provider answers for a token: an exception (with its
      text), a falsy result, or the user's record. */
  datatype Verified = VerifyRaised(reason: string) | NoUserData | UserData(user: User)

  /** The user record's id and its `email` entry (None: no such key). */
  datatype User = User(id: UserId, email: Option<string>)

  /** What the wrapped route does when it runs: it returns a response
      (its status and body), or it raises. */
  datatype RouteResult = Returned(status: int, body: string) | Raised(reason: string)

  /** What a gate answers: the route's own response after running it (with
      the user, or as a guest), a refusal with a status, a refusal for lack
      of credits (402), or an exception that leaves the decorator and that
      Flask answers with 500. */
  datatype Gate =
    | Proceed(user: Option<User>, status: int, body: string)
    | Refuse(status: int, error: string, message: string)
    | Insufficient(remaining: int, required: int)
    | Escaped(reason: string)
  {
    function Status(): int {
      match this
      case Proceed(_, s, _) => s
      case Refuse(s, _, _) => s
      case Insufficient(_, _) => 402
      case Escaped(_) => 500
    }
  }

  /** The route run with `user`, outside any `try`: a raise escapes. */
  function RunUnguarded(user: Option<User>, route: Option<User> -> RouteResult): (g: Gate)
    ensures g.Proceed? <==> route(user).Returned?
    ensures g.Proceed? ==> g == Proceed(user, route(user).status, route(user).body)
    ensures !g.Proceed? ==> g == Escaped(route(user).reason)
  {
    match route(user)
    case Returned(s, b) => Proceed(user, s, b)
    case Raised(reason) => Escaped(reason)
  }

  /** The message of a 402 reply. */
  function ShortMessage(needed: int, remaining: int): string {
    "You need " + Text.IntToString(needed) + " credits but only have " + Text.IntToString(remaining)
  }

  /** `require_auth`: the route runs only with the user the provider
      returned for the request's token, and its response is the reply; every
      other case is a 401, including a route that raises, since the route
      runs inside the decorator's `try`. */
  function RequireAuth(header: Option<string>, verify: string -> Verified,
                       route: Option<User> -> RouteResult): (g: Gate)
    ensures g.Proceed? <==> GetAuthToken(header).Some? && verify(GetAuthToken(header).value).UserData?
                            && route(Some(verify(GetAuthToken(header).value).user)).Returned?
    ensures g.Proceed? ==> g.user == Some(verify(GetAuthToken(header).value).user)
                           && route(g.user) == Returned(g.status, g.body)
    ensures !g.Proceed? ==> g.Refuse? && g.status == 401
    ensures GetAuthToken(header).None? ==> g == Refuse(401, "No authentication token provided", "Please login to continue")
    ensures GetAuthToken(header).Some? && verify(GetAuthToken(header).value).UserData?
            && route(Some(verify(GetAuthToken(header).value).user)).Raised? ==>
              g == Refuse(401, "Authentication failed", route(Some(verify(GetAuthToken(header).value).user)).reason)
  {
    match GetAuthToken(header)
    case None => Refuse(401, "No authentication token provided", "Please login to continue")
    case Some(token) =>
      match verify(token)
      case VerifyRaised(reason) => Refuse(401, "Authentication failed", reason)
      case NoUserData => Refuse(401, "Invalid authentication token", "Please login again")
      case UserData(u) =>
        match route(Some(u))
        case Returned(s, b) => Proceed(Some(u), s, b)
        case Raised(reason) => Refuse(401, "Authentication failed", reason)
  }

  /** The balance read of `get_user_credits`: the single row of the user, and
      an exception when there is none or the read fails. */
  datatype Balance = BalanceRaised(reason: string) | Remaining(credits: int)

  function ReadBalance(t: Tables, user: UserId, readFails: bool, exc: string): (b: Balance)
    ensures b.Remaining? <==> !readFails && user in t.credits
    ensures b.Remaining? ==> b.credits == t.credits[user].remaining
  {
    if readFails || user !in t.credits then BalanceRaised("Error fetching credits: " + exc)
    else Remaining(t.credits[user].remaining)
  }

  /** The route run with `user` inside `require_credits`' `try`: a raise
      becomes a 500. */
  function RunChecked(user: User, route: Option<User> -> RouteResult): (g: Gate)
    ensures route(Some(user)).Returned? ==> g == Proceed(Some(user), route(Some(user)).status, route(Some(user)).body)
    ensures route(Some(user)).Raised? ==> g == Refuse(500, "Failed to check credits", route(Some(user)).reason)
  {
    match route(Some(user))
    case Returned(s, b) => Proceed(Some(user), s, b)
    case Raised(reason) => Refuse(500, "Failed to check credits", reason)
  }

  /** `require_credits(needed)` for an authenticated user: an admin always
      reaches the route; anybody else reaches it iff the balance read
      succeeds and covers the need. A route that raises gets 500, as does a
      balance read that raises. */
  function RequireCredits(user: User, needed: int, balance: Balance,
                          route: Option<User> -> RouteResult): (g: Gate)
    ensures AdminConfig.IsAdmin(user.email.GetOr("")) ==> g == RunChecked(user, route)
    ensures !AdminConfig.IsAdmin(user.email.GetOr("")) ==>
              && (balance.Remaining? && balance.credits >= needed ==> g == RunChecked(user, route))
              && (balance.Remaining? && balance.credits < needed ==> g == Insufficient(balance.credits, needed))
              && (balance.BalanceRaised? ==> g == Refuse(500, "Failed to check credits", balance.reason))
    ensures g.Proceed? ==> g.user == Some(user) && route(Some(user)) == Returned(g.status, g.body)
    ensures !g.Escaped?
  {
    if AdminConfig.IsAdmin(user.email.GetOr("")) then RunChecked(user, route)
    else
      match balance
      case BalanceRaised(reason) => Refuse(500, "Failed to check credits", reason)
      case Remaining(n) => if n < needed then Insufficient(n, needed) else RunChecked(user, route)
  }

  /** `allow_guest_access(tool)`. `cost` is the tool's price and `balance`
      the balance read for a user id; neither is consulted without a user.
      The route runs with a verified user inside the `try`: when it raises,
      a free tool's route runs a second time as guest and a paid tool gets
      401. A guest run is outside any `try`, so its raise escapes. */
  function AllowGuestAccess(tool: string, header: Option<string>, verify: string -> Verified,
                            cost: int, balance: UserId -> Balance,
                            route: Option<User> -> RouteResult): (g: Gate)
    ensures tool in FreeTools && GetAuthToken(header).None? ==> g == RunUnguarded(None, route)
    ensures tool !in FreeTools && GetAuthToken(header).None? ==>
              g == Refuse(401, "Authentication required", "Please login to use this tool")
    ensures g.Proceed? && g.user.Some? ==>
              && GetAuthToken(header).Some? && verify(GetAuthToken(header).value) == UserData(g.user.value)
              && balance(g.user.value.id).Remaining? && balance(g.user.value.id).credits >= cost
              && route(g.user) == Returned(g.status, g.body)
    ensures g.Insufficient? ==> g.required == cost && g.remaining < cost
    ensures tool !in FreeTools ==> !(g.Proceed? && g.user.None?) && !g.Escaped?
    ensures tool in FreeTools ==> g.Proceed? || g.Insufficient? || (route(None).Raised? && g == Escaped(route(None).reason))
    ensures GetAuthToken(header).Some? && verify(GetAuthToken(header).value).VerifyRaised? ==>
              g == if tool in FreeTools then RunUnguarded(None, route)
                   else Refuse(401, "Authentication failed", verify(GetAuthToken(header).value).reason)
    ensures GetAuthToken(header).Some? && verify(GetAuthToken(header).value).NoUserData? ==>
              g == if tool in FreeTools then RunUnguarded(None, route)
                   else Refuse(401, "Authentication required", "Please login to use this tool")
    ensures GetAuthToken(header).Some? && verify(GetAuthToken(header).value).UserData?
            && balance(verify(GetAuthToken(header).value).user.id).BalanceRaised? ==>
              g == if tool in FreeTools then RunUnguarded(None, route)
                   else Refuse(401, "Authentication failed", balance(verify(GetAuthToken(header).value).user.id).reason)
    ensures GetAuthToken(header).Some? && verify(GetAuthToken(header).value).UserData?
            && balance(verify(GetAuthToken(header).value).user.id).Remaining?
            && balance(verify(GetAuthToken(header).value).user.id).credits < cost ==>
              g == Insufficient(balance(verify(GetAuthToken(header).value).user.id).credits, cost)
    ensures GetAuthToken(header).Some? && verify(GetAuthToken(header).value).UserData?
            && balance(verify(GetAuthToken(header).value).user.id).Remaining?
            && balance(verify(GetAuthToken(header).value).user.id).credits >= cost
            && route(Some(verify(GetAuthToken(header).value).user)).Returned? ==>
              g == Proceed(Some(verify(GetAuthToken(header).value).user),
                           route(Some(verify(GetAuthToken(header).value).user)).status,
                           route(Some(verify(GetAuthToken(header).value).user)).body)
    ensures GetAuthToken(header).Some? && verify(GetAuthToken(header).value).UserData?
            && balance(verify(GetAuthToken(header).value).user.id).Remaining?
            && balance(verify(GetAuthToken(header).value).user.id).credits >= cost
            && route(Some(verify(GetAuthToken(header).value).user)).Raised? ==>
              g == if tool in FreeTools then RunUnguarded(None, route)
                   else Refuse(401, "Authentication failed", route(Some(verify(GetAuthToken(header).value).user)).reason)
  {
    match GetAuthToken(header)
    case None =>
      if tool in FreeTools then RunUnguarded(None, route)
      else Refuse(401, "Authentication required", "Please login to use this tool")
    case Some(token) =>
      match verify(token)
      case VerifyRaised(reason) =>
        if tool in FreeTools then RunUnguarded(None, route) else Refuse(401, "Authentication failed", reason)
      case NoUserData =>
        if tool in FreeTools then RunUnguarded(None, route)
        else Refuse(401, "Authentication required", "Please login to use this tool")
      case UserData(u) =>
        match balance(u.id)
        case BalanceRaised(reason) =>
          if tool in FreeTools then RunUnguarded(None, route) else Refuse(401, "Authentication failed", reason)
        case Remaining(n) =>
          if n < cost then Insufficient(n, cost)
          else
            match route(Some(u))
            case Returned(s, b) => Proceed(Some(u), s, b)
            case Raised(reason) =>
              if tool in FreeTools then RunUnguarded(None, route) else Refuse(401, "Authentication failed", reason)
  }

  /** Unlike `require_credits`, the guest gate has no admin exemption: an
      admin with a balance below the tool's cost is refused. */
  lemma GuestGateChargesAdminsToo(tool: string, header: Option<string>, verify: string -> Verified,
                                  cost: int, balance: UserId -> Balance,
                                  route: Option<User> -> RouteResult, u: User, n: int)
    requires GetAuthToken(header).Some? && verify(GetAuthToken(header).value) == UserData(u)
    requires balance(u.id) == Remaining(n) && n < cost
    ensures AllowGuestAccess(tool, header, verify, cost, balance, route) == Insufficient(n, cost)
  {
  }
}

=== FILE: collage.dfy ===
/** The collage studio page (static/js/collage.js): the bounded list of
    uploaded files, removal, the layout selector's image count, the reset,
    the layout requirement and the form sent to `/api/collage`. */
module Collage {
  import opened Wrappers
  import Text

  /** An uploaded file: its name and MIME type; the bytes are opaque. */
  datatype File = File(name: string, mimeType: string)

  /** The most files the studio holds. */
  const MaxFiles: nat := 6

  const ValidTypes: seq<string> := ["image/jpeg", "image/jpg", "image/png", "image/webp"]

  predicate Accepted(f: File) {
    f.mimeType in ValidTypes
  }

  /** `uploadedFiles.filter(f => validTypes.includes(f.type))`. */
  function KeepAccepted(s: seq<File>): (r: seq<File>)
    ensures |r| <= |s|
    ensures forall i :: 0 <= i < |r| ==> Accepted(r[i])
    ensures forall f :: Accepted(f) ==> multiset(r)[f] == multiset(s)[f]
    ensures forall f :: !Accepted(f) ==> f !in r
  {
    if |s| == 0 then []
    else
      assert s == [s[0]] + s[1..];
      (if Accepted(s[0]) then [s[0]] else []) + KeepAccepted(s[1..])
  }

  /** Filtering a concatenation filters each part and keeps them in
      order, so the relative order of the kept files is their original
      one. */
  lemma {:induction false} KeepAcceptedAppend(a: seq<File>, b: seq<File>)
    ensures KeepAccepted(a + b) == KeepAccepted(a) + KeepAccepted(b)
    decreases |a|
  {
    if |a| > 0 {
      assert (a + b)[1..] == a[1..] + b;
      KeepAcceptedAppend(a[1..], b);
    } else {
      assert a + b == b;
    }
  }

  /** A list of accepted files passes the filter unchanged. */
  lemma {:induction false} KeepAcceptedIdentity(s: seq<File>)
    requires forall i :: 0 <= i < |s| ==> Accepted(s[i])
    ensures KeepAccepted(s) == s
    decreases |s|
  {
    if |s| > 0 {
      KeepAcceptedIdentity(s[1..]);
    }
  }

  /** The list after the size check of `handleFiles`, before filtering:
      everything when the total is at most 6, otherwise only as many new
      files as there are free slots. */
  function Admitted(current: seq<File>, incoming: seq<File>): (r: seq<File>)
    ensures current <= r
    ensures r[|current|..] <= incoming
    ensures |current| <= MaxFiles ==> |r| <= MaxFiles
    ensures |current| + |incoming| <= MaxFiles ==> r == current + incoming
  {
    if |current| + |incoming| > MaxFiles then
      var slotsLeft := MaxFiles - |current|;
      if slotsLeft > 0 then current + incoming[..slotsLeft] else current
    else current + incoming
  }

  /** After the size check and the filter, the files held before are
      still the head of the list, and the list holds at most six files of
      accepted types. */
  lemma AdmittedThenFiltered(current: seq<File>, incoming: seq<File>)
    requires |current| <= MaxFiles && forall i :: 0 <= i < |current| ==> Accepted(current[i])
    ensures var r := KeepAccepted(Admitted(current, incoming));
            current <= r && |r| <= MaxFiles
  {
    var admitted := Admitted(current, incoming);
    assert admitted == current + admitted[|current|..];
    KeepAcceptedAppend(current, admitted[|current|..]);
    KeepAcceptedIdentity(current);
  }

  /** `Array.prototype.splice(index, 1)`: a negative index counts from the
      end (clamped at 0); an index at or past the end removes nothing. */
  function SpliceOne(s: seq<File>, index: int): (r: seq<File>)
    ensures 0 <= index < |s| ==> r == s[..index] + s[index + 1..]
    ensures index >= |s| ==> r == s
    ensures |s| > 0 && index < |s| ==> |r| == |s| - 1
  {
    var start := if index < 0 then (if |s| + index < 0 then 0 else |s| + index) else index;
    if start < |s| then s[..start] + s[start + 1..] else s
  }

  /** Removing from a list of accepted files leaves a list of accepted
      files, no longer than before. */
  lemma SpliceKeepsAccepted(s: seq<File>, index: int)
    requires forall i :: 0 <= i < |s| ==> Accepted(s[i])
    ensures forall i :: 0 <= i < |SpliceOne(s, index)| ==> Accepted(SpliceOne(s, index)[i])
    ensures |SpliceOne(s, index)| <= |s|
  {
    var r := SpliceOne(s, index);
    forall i | 0 <= i < |r| ensures Accepted(r[i]) {
      assert r[i] in s;
    }
  }

  /** `renderLayoutSelector`: the count shown, clamped to [2, 6]. */
  function SafeCount(count: int): (n: int)
    ensures 2 <= n <= 6
    ensures 2 <= count <= 6 ==> n == count
    ensures count < 2 ==> n == 2
    ensures count > 6 ==> n == 6
  {
    if count < 6 then (if count > 2 then count else 2) else 6
  }

  /** The layout ids offered for a count, falling back to the two-image
      layouts for a count with no entry. */
  function LayoutChoices(count: int): (ids: seq<string>)
    ensures |ids| >= 2
  {
    if count == 3 then ["layout_3_cols", "layout_3_rows", "layout_3_grid"]
    else if count == 4 then ["layout_4_grid", "layout_4_cols"]
    else if count == 5 then ["layout_5_grid", "layout_5_mosaic"]
    else if count == 6 then ["layout_6_grid", "layout_6_rows"]
    else ["layout_2_v", "layout_2_h"]
  }

  /** Every count the selector can show has its own layouts. */
  lemma SelectorNeverFallsBack(count: int)
    ensures var n := SafeCount(count);
            forall i :: 0 <= i < |LayoutChoices(n)| ==>
              LayoutChoices(n)[i][7] == Text.DigitChar(n)
  {
  }

  /** A value in the form: a file or a text field. */
  datatype FormValue = FileValue(file: File) | TextValue(text: string)

  /** The name of the i-th image field, counting from 1. */
  function ImageField(i: nat): string {
    "image" + Text.NatToString(i + 1)
  }

  /** One file field per image, named by position, in list order. */
  function ImageEntries(files: seq<File>): (es: seq<(string, FormValue)>)
    ensures |es| == |files|
    ensures forall i :: 0 <= i < |files| ==> es[i] == (ImageField(i), FileValue(files[i]))
  {
    seq(|files|, i requires 0 <= i < |files| => (ImageField(i), FileValue(files[i])))
  }

  /** The form `updateCollage` builds from the page's state: nothing
      without files; otherwise the images in list order, then the layout
      ("null" when none is chosen), the four settings and the shuffle flag. */
  function FormFor(files: seq<File>, layoutId: Option<string>, spacing: string, cornerRadius: string,
                   background: string, filter: string, isRegeneration: bool): (form: Option<seq<(string, FormValue)>>)
    ensures files == [] <==> form.None?
    ensures form.Some? ==>
              |form.value| == |files| + 6
              && form.value[..|files|] == ImageEntries(files)
              && form.value[|files|..] ==
                   [("layout", TextValue(match layoutId case None => "null" case Some(id) => id)),
                    ("spacing", TextValue(spacing)), ("corner_radius", TextValue(cornerRadius)),
                    ("background", TextValue(background)), ("filter", TextValue(filter)),
                    ("shuffle", TextValue(if isRegeneration then "true" else "false"))]
  {
    if files == [] then None
    else
      var tail := [("layout", TextValue(match layoutId case None => "null" case Some(id) => id)),
                   ("spacing", TextValue(spacing)), ("corner_radius", TextValue(cornerRadius)),
                   ("background", TextValue(background)), ("filter", TextValue(filter)),
                   ("shuffle", TextValue(if isRegeneration then "true" else "false"))];
      var es := ImageEntries(files) + tail;
      assert es[..|files|] == ImageEntries(files) && es[|files|..] == tail;
      Some(es)
  }

  /** Different positions get different image field names, so the server
      can read each file back by its position. */
  lemma ImageFieldsDistinct(i: nat, j: nat)
    requires i != j
    ensures ImageField(i) != ImageField(j)
  {
    Text.NatToStringValue(i + 1);
    Text.NatToStringValue(j + 1);
    var a, b := Text.NatToString(i + 1), Text.NatToString(j + 1);
    assert a != b;
    assert ImageField(i)[5..] == a && ImageField(j)[5..] == b;
  }

  class CollageStudio {
    var uploadedFiles: seq<File>
    var layoutId: Option<string>
    var spacing: string
    var cornerRadius: string
    var background: string
    var filter: string
    var isGenerated: bool
    /** The image count the layout selector shows. */
    var selectorCount: int

    /** At most six files, all of an accepted type. */
    predicate Valid()
      reads this
    {
      |uploadedFiles| <= MaxFiles && forall i :: 0 <= i < |uploadedFiles| ==> Accepted(uploadedFiles[i])
    }

    constructor ()
      ensures Valid() && uploadedFiles == [] && layoutId == None && !isGenerated
      ensures spacing == "10" && cornerRadius == "0" && background == "transparent" && filter == "none"
    {
      uploadedFiles := [];
      layoutId := None;
      spacing := "10";
      cornerRadius := "0";
      background := "transparent";
      filter := "none";
      isGenerated := false;
      selectorCount := 2;
    }

    /** `handleFiles`: cap the list at six, then drop files of other
        types; the selector is redrawn when files remain. Returns whether
        the truncation warning was shown. */
    method HandleFiles(files: seq<File>) returns (truncated: bool)
      requires Valid()
      modifies this`uploadedFiles, this`selectorCount
      ensures Valid()
      ensures truncated <==> |old(uploadedFiles)| + |files| > MaxFiles
      ensures uploadedFiles == KeepAccepted(Admitted(old(uploadedFiles), files))
      ensures old(uploadedFiles) <= uploadedFiles
      ensures uploadedFiles != [] ==> selectorCount == SafeCount(|uploadedFiles|)
      ensures uploadedFiles == [] ==> selectorCount == old(selectorCount)
    {
      var before := uploadedFiles;
      truncated := |before| + |files| > MaxFiles;
      AdmittedThenFiltered(before, files);
      var kept := KeepAccepted(Admitted(before, files));
      uploadedFiles := kept;
      if |kept| > 0 {
        selectorCount := SafeCount(|kept|);
      }
    }

    /** `resetToUpload`. */
    method ResetToUpload()
      modifies this`uploadedFiles, this`isGenerated, this`layoutId
      ensures Valid() && uploadedFiles == [] && !isGenerated && layoutId == None
    {
      uploadedFiles := [];
      isGenerated := false;
      layoutId := None;
    }

    /** `removeImage`: splice out one entry; an emptied list resets the
        page, otherwise a generated collage is marked stale. */
    method RemoveImage(index: int)
      requires Valid()
      modifies this`uploadedFiles, this`isGenerated, this`layoutId, this`selectorCount
      ensures Valid()
      ensures uploadedFiles == SpliceOne(old(uploadedFiles), index)
      ensures uploadedFiles == [] ==> layoutId == None && !isGenerated
      ensures uploadedFiles != [] ==> layoutId == old(layoutId) && !isGenerated
                                      && selectorCount == SafeCount(|uploadedFiles|)
    {
      SpliceKeepsAccepted(uploadedFiles, index);
      uploadedFiles := SpliceOne(uploadedFiles, index);
      if |uploadedFiles| == 0 {
        ResetToUpload();
      } else {
        selectorCount := SafeCount(|uploadedFiles|);
        isGenerated := false;
      }
    }

    /** The form `updateCollage` sends: one field per image in list order,
        then the settings, then whether the layout is to be shuffled. With
        no files nothing is sent. */
    method CollageForm(isRegeneration: bool) returns (form: Option<seq<(string, FormValue)>>)
      ensures uploadedFiles == [] <==> form.None?
      ensures form.Some? ==>
                |form.value| == |uploadedFiles| + 6
                && (forall i :: 0 <= i < |uploadedFiles| ==> form.value[i] == (ImageField(i), FileValue(uploadedFiles[i])))
                && form.value[|uploadedFiles|] == ("layout", TextValue(match layoutId case None => "null" case Some(id) => id))
                && form.value[|uploadedFiles| + 1] == ("spacing", TextValue(spacing))
                && form.value[|uploadedFiles| + 2] == ("corner_radius", TextValue(cornerRadius))
                && form.value[|uploadedFiles| + 3] == ("background", TextValue(background))
                && form.value[|uploadedFiles| + 4] == ("filter", TextValue(filter))
                && form.value[|uploadedFiles| + 5] == ("shuffle", TextValue(if isRegeneration then "true" else "false"))
      ensures form == FormFor(uploadedFiles, layoutId, spacing, cornerRadius, background, filter, isRegeneration)
    {
      if |uploadedFiles| == 0 {
        return None;
      }
      var entries: seq<(string, FormValue)> := [];
      var i := 0;
      while i < |uploadedFiles|
        invariant 0 <= i <= |uploadedFiles|
        invariant |entries| == i
        invariant forall j :: 0 <= j < i ==> entries[j] == (ImageField(j), FileValue(uploadedFiles[j]))
      {
        entries := entries + [(ImageField(i), FileValue(uploadedFiles[i]))];
        i := i + 1;
      }
      assert entries == ImageEntries(uploadedFiles);
      var layoutText := match layoutId case None => "null" case Some(id) => id;
      entries := entries + [("layout", TextValue(layoutText)), ("spacing", TextValue(spacing)),
                            ("corner_radius", TextValue(cornerRadius)), ("background", TextValue(background)),
                            ("filter", TextValue(filter)),
                            ("shuffle", TextValue(if isRegeneration then "true" else "false"))];
      form := Some(entries);
      ghost var expected := FormFor(uploadedFiles, layoutId, spacing, cornerRadius, background, filter, isRegeneration);
      assert expected.value == expected.value[..|uploadedFiles|] + expected.value[|uploadedFiles|..];
    }

    /** The generate button: refused while no layout is chosen, otherwise
        the form of a regeneration. */
    method Generate() returns (form: Option<seq<(string, FormValue)>>)
      ensures layoutId == None ==> form == None
      ensures layoutId != None && uploadedFiles != [] ==>
                form.Some? && |form.value| == |uploadedFiles| + 6
                && form.value[|form.value| - 1] == ("shuffle", TextValue("true"))
      ensures layoutId != None ==>
                form == FormFor(uploadedFiles, layoutId, spacing, cornerRadius, background, filter, true)
    {
      if layoutId == None {
        return None;
      }
      form := CollageForm(true);
    }

    /** `selectLayout`: record the id; a generated collage is rebuilt
        without shuffling. */
    method SelectLayout(id: string) returns (form: Option<seq<(string, FormValue)>>)
      modifies this`layoutId
      ensures layoutId == Some(id)
      ensures !isGenerated ==> form == None
      ensures isGenerated && uploadedFiles != [] ==>
                form.Some? && |form.value| == |uploadedFiles| + 6
                && form.value[|uploadedFiles|] == ("layout", TextValue(id))
                && form.value[|form.value| - 1] == ("shuffle", TextValue("false"))
      ensures isGenerated ==>
                form == FormFor(uploadedFiles, Some(id), spacing, cornerRadius, background, filter, false)
    {
      layoutId := Some(id);
      form := None;
      if isGenerated {
        form := CollageForm(false);
      }
    }

    /** The response to the form: a 200 marks the collage generated. */
    method CollageResponse(status: int)
      modifies this`isGenerated
      ensures isGenerated == (old(isGenerated) || status == 200)
    {
      if status == 200 {
        isGenerated := true;
      }
    }
  }
}

=== FILE: credit_manager.dfy ===
/** The credit ledger's application side (credits/manager.py): initialising a
    balance, deducting with the administrator bypass, adding, and logging a
    failed use. Each operation is a pure specification over a snapshot of the
    store plus a method that performs the same steps on the store object.
    Store and transport errors are inputs: `...Fails` flags say which call
    raised, and `exc` is the text of the exception. */
module CreditManager {
  import opened Wrappers
  import opened Store
  import AdminConfig
  import Text

  const DefaultInitialCredits: int := 10
  /** The balance reported to an administrator. */
  const AdminRemaining: int := 999999

  datatype Outcome = Ok(message: string) | Err(error: string)

  /** What `get_user_by_id` gave back: it raised, found no user, or found a
      user whose email may be missing. */
  datatype UserLookup = LookupRaised | NoUser | Found(email: Option<string>)

  /** The dictionary `deduct_credits` returns; absent keys are `None`. */
  datatype DeductResult = DeductResult(success: bool, message: Option<string>,
                                       error: Option<string>, remaining: Option<int>,
                                       deducted: Option<int>, required: Option<int>)

  /** The dictionary `add_credits` returns. */
  datatype AddResult = AddOk(total: Option<int>, remaining: Option<int>, added: Option<int>)
                     | AddErr(error: string)

  // ---------------------------------------------------------------- initialise

  function InitializeSpec(t: Tables, user: UserId, initial: int,
                          selectFails: bool, insertFails: bool, exc: string): (r: (Tables, Outcome))
    // an existing row: nothing is written and the call succeeds
    ensures user in t.credits && !selectFails ==>
              r == (t, Ok("Credits already initialized"))
    // a fresh row holds the initial grant in total, remaining and free
    ensures r.0 != t ==> (user !in t.credits &&
              r.0 == t.(credits := t.credits[user := CreditRow(initial, initial, initial)]))
    ensures r.1.Ok? <==> !selectFails && (user in t.credits || !insertFails)
    ensures r.1.Err? ==> r.0 == t && r.1.error == "Failed to initialize credits: " + exc
  {
    if selectFails then (t, Err("Failed to initialize credits: " + exc))
    else if user in t.credits then (t, Ok("Credits already initialized"))
    else if insertFails then (t, Err("Failed to initialize credits: " + exc))
    else (t.(credits := t.credits[user := CreditRow(initial, initial, initial)]),
          Ok("Credits initialized with " + Text.IntToString(initial) + " free credits"))
  }

  /** A second initialisation after a successful one writes nothing and
      reports the balance as already initialised, whatever grant it asks for. */
  lemma InitializeIsIdempotent(t: Tables, user: UserId, initial: int, again: int, exc: string)
    requires InitializeSpec(t, user, initial, false, false, exc).1.Ok?
    ensures var t1 := InitializeSpec(t, user, initial, false, false, exc).0;
            InitializeSpec(t1, user, again, false, false, exc) == (t1, Ok("Credits already initialized"))
            && t1.credits[user] == (if user in t.credits then t.credits[user]
                                    else CreditRow(initial, initial, initial))
  {
  }

  method InitializeCredits(db: Db, user: UserId, initial: int,
                           selectFails: bool, insertFails: bool, exc: string)
    returns (r: Outcome)
    modifies db
    ensures (db.Snapshot(), r) == InitializeSpec(old(db.Snapshot()), user, initial,
                                                 selectFails, insertFails, exc)
  {
    if selectFails {
      return Err("Failed to initialize credits: " + exc);
    }
    if user in db.credits {
      return Ok("Credits already initialized");
    }
    if insertFails {
      return Err("Failed to initialize credits: " + exc);
    }
    db.credits := db.credits[user := CreditRow(initial, initial, initial)];
    r := Ok("Credits initialized with " + Text.IntToString(initial) + " free credits");
  }

  // ---------------------------------------------------------------- deduct

  function DeductFailure(exc: string): DeductResult {
    DeductResult(false, None, Some("Failed to deduct credits: " + exc), None, None, None)
  }

  /** The result for the procedure's reply: a success passes its balance and
      deducted amount through; a failure defaults a missing balance to 0 and a
      missing requirement to the requested amount. */
  function FromReply(reply: DeductReply, n: int): (r: DeductResult)
    ensures r.success == reply.success
    ensures r.success ==> r.remaining == reply.remaining && r.deducted == reply.deducted
    ensures !r.success ==> r.error == reply.error
                           && r.remaining == Some(reply.remaining.GetOr(0))
                           && r.required == Some(reply.required.GetOr(n))
  {
    if reply.success then DeductResult(true, None, None, reply.remaining, reply.deducted, None)
    else DeductResult(false, None, reply.error, Some(reply.remaining.GetOr(0)),
                      None, Some(reply.required.GetOr(n)))
  }

  /** The email the administrator test sees: '' when no user was found. */
  function EmailOf(lookup: UserLookup): Option<string>
    requires !lookup.LookupRaised?
  {
    if lookup.NoUser? then Some("") else lookup.email
  }

  /** The looked-up user is an administrator. */
  predicate AdminLookup(lookup: UserLookup) {
    !lookup.LookupRaised? && EmailOf(lookup).Some? && AdminConfig.IsAdmin(EmailOf(lookup).value)
  }

  function DeductSpec(t: Tables, user: UserId, tool: string, n: int, lookup: UserLookup,
                      logFails: bool, rpcFails: bool, exc: string): (r: (Tables, DeductResult))
    // an administrator: no balance change, success with 999999, and exactly one
    // zero-cost usage record unless writing it failed
    ensures AdminLookup(lookup) ==>
              && r.1 == DeductResult(true, Some("Admin access - no credits deducted"), None,
                                     Some(AdminRemaining), None, None)
              && r.0.credits == t.credits
              && r.0.usage == t.usage + (if logFails then [] else
                                           [UsageRecord(user, tool, 0, UsageSuccess, None)])
              && r.0 == (if logFails then t
                         else t.(usage := t.usage + [UsageRecord(user, tool, 0, UsageSuccess, None)]))
    // a failed user lookup or a missing email fails before anything is written
    ensures lookup.LookupRaised? || EmailOf(lookup).None? ==> r == (t, DeductFailure(exc))
  {
    if lookup.LookupRaised? then (t, DeductFailure(exc))
    else
      var email := EmailOf(lookup);
      if email.None? then (t, DeductFailure(exc))
      else if AdminLookup(lookup) then
        var t' := if logFails then t
                  else t.(usage := t.usage + [UsageRecord(user, tool, 0, UsageSuccess, None)]);
        (t', DeductResult(true, Some("Admin access - no credits deducted"), None,
                          Some(AdminRemaining), None, None))
      else if rpcFails then (t, DeductFailure(exc))
      else
        var (t', reply) := DeductProc(t, user, tool, n);
        (t', FromReply(reply, n))
  }

  /** A non-administrator's deduction is the stored procedure's atomic step,
      with its reply mapped by `FromReply`; a transport error changes nothing. */
  lemma DeductNonAdmin(t: Tables, user: UserId, tool: string, n: int, lookup: UserLookup,
                       logFails: bool, rpcFails: bool, exc: string)
    requires !lookup.LookupRaised? && EmailOf(lookup).Some? && !AdminLookup(lookup)
    ensures var r := DeductSpec(t, user, tool, n, lookup, logFails, rpcFails, exc);
            if rpcFails then r == (t, DeductFailure(exc))
            else r == (DeductProc(t, user, tool, n).0, FromReply(DeductProc(t, user, tool, n).1, n))
  {
  }

  /** A non-administrator's deduction never drives the balance negative when it
      started non-negative and the amount is non-negative, and a refused
      deduction leaves every table as it was. */
  lemma DeductKeepsBalanceNonNegative(t: Tables, user: UserId, tool: string, n: int,
                                      lookup: UserLookup, logFails: bool, rpcFails: bool, exc: string)
    requires user in t.credits && t.credits[user].remaining >= 0 && n >= 0
    ensures var r := DeductSpec(t, user, tool, n, lookup, logFails, rpcFails, exc);
            user in r.0.credits && r.0.credits[user].remaining >= 0
            && (!r.1.success ==> r.0 == t)
  {
  }

  method DeductCredits(db: Db, user: UserId, tool: string, n: int, lookup: UserLookup,
                       logFails: bool, rpcFails: bool, exc: string)
    returns (r: DeductResult)
    modifies db
    ensures (db.Snapshot(), r) == DeductSpec(old(db.Snapshot()), user, tool, n, lookup,
                                             logFails, rpcFails, exc)
  {
    if lookup.LookupRaised? {
      return DeductFailure(exc);
    }
    var email := if lookup.NoUser? then Some("") else lookup.email;
    if email.None? {
      // `None.lower()` raises inside the try block
      return DeductFailure(exc);
    }
    if AdminLookup(lookup) {
      if !logFails {
        db.usage := db.usage + [UsageRecord(user, tool, 0, UsageSuccess, None)];
      }
      return DeductResult(true, Some("Admin access - no credits deducted"), None,
                          Some(AdminRemaining), None, None);
    }
    if rpcFails {
      return DeductFailure(exc);
    }
    var reply := db.CallDeduct(user, tool, n);
    r := FromReply(reply, n);
  }

  // ---------------------------------------------------------------- add

  function AddSpec(t: Tables, user: UserId, n: int, rpcFails: bool, exc: string): (r: (Tables, AddResult))
    // success exactly when the procedure returned
    ensures r.1.AddOk? <==> !rpcFails && AddProc(t, user, n).Some?
    ensures r.1.AddOk? ==> user in t.credits && user in r.0.credits
                           && r.0.credits[user].remaining == t.credits[user].remaining + n
                           && r.0.credits[user].total == t.credits[user].total + n
                           && r.1.remaining == Some(r.0.credits[user].remaining)
                           && (forall u :: u in t.credits && u != user ==> u in r.0.credits && r.0.credits[u] == t.credits[u])
                           && r.0.usage == t.usage && r.0.payments == t.payments
    ensures r.1.AddErr? ==> r == (t, AddErr("Failed to add credits: " + exc))
  {
    if rpcFails then (t, AddErr("Failed to add credits: " + exc))
    else match AddProc(t, user, n)
      case None => (t, AddErr("Failed to add credits: " + exc))
      case Some((t', reply)) => (t', AddOk(reply.total, reply.remaining, reply.added))
  }

  method AddCredits(db: Db, user: UserId, n: int, rpcFails: bool, exc: string)
    returns (r: AddResult)
    modifies db
    ensures (db.Snapshot(), r) == AddSpec(old(db.Snapshot()), user, n, rpcFails, exc)
  {
    if rpcFails {
      return AddErr("Failed to add credits: " + exc);
    }
    var raised, reply := db.CallAdd(user, n);
    if raised {
      return AddErr("Failed to add credits: " + exc);
    }
    r := AddOk(reply.total, reply.remaining, reply.added);
  }

  // ---------------------------------------------------------------- failed use

  function LogFailedSpec(t: Tables, user: UserId, tool: string, message: string,
                         insertFails: bool, exc: string): (r: (Tables, Outcome))
    ensures r.1.Ok? <==> !insertFails
    ensures r.1.Ok? ==> r.0.usage == t.usage + [UsageRecord(user, tool, 0, UsageFailed, Some(message))]
                        && r.0.credits == t.credits
    ensures r.1.Ok? ==> r.0 == t.(usage := t.usage + [UsageRecord(user, tool, 0, UsageFailed, Some(message))])
    ensures r.1.Err? ==> r == (t, Err(exc))
  {
    if insertFails then (t, Err(exc))
    else (t.(usage := t.usage + [UsageRecord(user, tool, 0, UsageFailed, Some(message))]), Ok(""))
  }

  method LogFailedUsage(db: Db, user: UserId, tool: string, message: string,
                        insertFails: bool, exc: string)
    returns (r: Outcome)
    modifies db
    ensures (db.Snapshot(), r) == LogFailedSpec(old(db.Snapshot()), user, tool, message, insertFails, exc)
  {
    if insertFails {
      return Err(exc);
    }
    db.usage := db.usage + [UsageRecord(user, tool, 0, UsageFailed, Some(message))];
    r := Ok("");
  }
}

=== FILE: crop.dfy ===
/** The crop editor (static/js/crop.js): the crop box over the source
    image, moved by dragging, resized by eight handles with an optional
    aspect-ratio lock, and set by the ratio buttons and the size spinners.
    Coordinates are image pixels as reals; the view transform (rotation,
    flips, pan and the screen-to-image mapping) is not part of the model. */
module Crop {
  import opened Wrappers

  datatype Point = Point(x: real, y: real)
  datatype Box = Box(x: real, y: real, width: real, height: real)

  const HandleSize: real := 10.0
  const MinCrop: real := 20.0

  /** The eight handle names. */
  const Corners: seq<string> := ["tl", "tr", "bl", "br"]
  const Edges: seq<string> := ["n", "s", "w", "e"]

  function Abs(a: real): real { if a < 0.0 then -a else a }
  function Max(a: real, b: real): real { if a >= b then a else b }
  function Min(a: real, b: real): real { if a <= b then a else b }

  /** The box lies within a `w` by `h` image. */
  predicate Inside(b: Box, w: real, h: real) {
    0.0 <= b.x && 0.0 <= b.y && b.x + b.width <= w && b.y + b.height <= h
  }

  /** The press is on the box or its border. */
  predicate InBox(pos: Point, b: Box) {
    b.x <= pos.x <= b.x + b.width && b.y <= pos.y <= b.y + b.height
  }

  /** `initEditor`: 80% of each side, centred. */
  function DefaultBox(w: real, h: real): (b: Box)
    ensures b.width == 0.8 * w && b.height == 0.8 * h
    ensures b.x + b.width / 2.0 == w / 2.0 && b.y + b.height / 2.0 == h / 2.0
    ensures w >= 0.0 && h >= 0.0 ==> Inside(b, w, h)
  {
    var bw := w * 0.8;
    var bh := h * 0.8;
    Box((w - bw) / 2.0, (h - bh) / 2.0, bw, bh)
  }

  /** The hit distance of a handle at zoom `scale`: twice the drawn size. */
  function HitDistance(scale: real): (d: real)
    requires scale > 0.0
    ensures d > 0.0
  {
    HandleSize / scale * 2.0
  }

  /** `pos` is within `d` of the anchor on both axes. */
  predicate Near(pos: Point, ax: real, ay: real, d: real) {
    Abs(pos.x - ax) < d && Abs(pos.y - ay) < d
  }

  /** `getHandle`: the first of the eight anchors within the hit distance
      on both axes, corners first. */
  function GetHandle(pos: Point, b: Box, scale: real): (r: Option<string>)
    requires scale > 0.0
    ensures r.Some? ==> r.value in Corners || r.value in Edges
  {
    var d := HitDistance(scale);
    if Near(pos, b.x, b.y, d) then Some("tl")
    else if Near(pos, b.x + b.width, b.y, d) then Some("tr")
    else if Near(pos, b.x, b.y + b.height, d) then Some("bl")
    else if Near(pos, b.x + b.width, b.y + b.height, d) then Some("br")
    else if Near(pos, b.x + b.width / 2.0, b.y, d) then Some("n")
    else if Near(pos, b.x + b.width / 2.0, b.y + b.height, d) then Some("s")
    else if Near(pos, b.x, b.y + b.height / 2.0, d) then Some("w")
    else if Near(pos, b.x + b.width, b.y + b.height / 2.0, d) then Some("e")
    else None
  }

  /** On a box at least two hit distances wide and high, pressing exactly
      on each drawn anchor picks that anchor's handle. */
  lemma AnchorsPickTheirHandle(b: Box, scale: real)
    requires scale > 0.0
    requires b.width >= 2.0 * HitDistance(scale) && b.height >= 2.0 * HitDistance(scale)
    ensures GetHandle(Point(b.x, b.y), b, scale) == Some("tl")
    ensures GetHandle(Point(b.x + b.width, b.y), b, scale) == Some("tr")
    ensures GetHandle(Point(b.x, b.y + b.height), b, scale) == Some("bl")
    ensures GetHandle(Point(b.x + b.width, b.y + b.height), b, scale) == Some("br")
    ensures GetHandle(Point(b.x + b.width / 2.0, b.y), b, scale) == Some("n")
    ensures GetHandle(Point(b.x + b.width / 2.0, b.y + b.height), b, scale) == Some("s")
    ensures GetHandle(Point(b.x, b.y + b.height / 2.0), b, scale) == Some("w")
    ensures GetHandle(Point(b.x + b.width, b.y + b.height / 2.0), b, scale) == Some("e")
  {
    var d := HitDistance(scale);
    assert d > 0.0;
  }

  /** The drag branch of `handleMove` on one axis: the moved edge clamped
      to `[0, size - extent]`. */
  function DragTo(start: real, delta: real, extent: real, size: real): (v: real)
    ensures extent <= size ==> 0.0 <= v && v + extent <= size
    ensures extent <= size && 0.0 <= start + delta <= size - extent ==> v == start + delta
  {
    Max(0.0, Min(start + delta, size - extent))
  }

  /** The handle tests of the resize branch: each side moves only when the
      handle's name contains its letter; the west and north sides move the
      near edge and keep the opposite one fixed. */
  function EdgeStep(s: Box, handle: string, dx: real, dy: real): (b: Box)
  {
    var b1 := if 'e' in handle then s.(width := Max(MinCrop, s.width + dx)) else s;
    var b2 := if 'w' in handle then
                var w := Max(MinCrop, s.width - dx); b1.(x := s.x + s.width - w, width := w)
              else b1;
    var b3 := if 's' in handle then b2.(height := Max(MinCrop, s.height + dy)) else b2;
    if 'n' in handle then
      var h := Max(MinCrop, s.height - dy); b3.(y := s.y + s.height - h, height := h)
    else b3
  }

  /** The edge handles leave the dragged side at least 20 long; the west
      and north handles keep the east and south edges where they were. */
  lemma EdgeHandlesKeepMinimum(s: Box, dx: real, dy: real)
    ensures EdgeStep(s, "e", dx, dy).width >= MinCrop && EdgeStep(s, "e", dx, dy).x == s.x
    ensures var b := EdgeStep(s, "w", dx, dy); b.width >= MinCrop && b.x + b.width == s.x + s.width
    ensures EdgeStep(s, "s", dx, dy).height >= MinCrop && EdgeStep(s, "s", dx, dy).y == s.y
    ensures var b := EdgeStep(s, "n", dx, dy); b.height >= MinCrop && b.y + b.height == s.y + s.height
    ensures EdgeStep(s, "e", dx, dy).height == s.height && EdgeStep(s, "n", dx, dy).width == s.width
  {
    assert 'e' !in "w" && 'e' !in "s" && 'e' !in "n";
    assert 'w' !in "e" && 'w' !in "s" && 'w' !in "n";
    assert 's' !in "e" && 's' !in "w" && 's' !in "n";
    assert 'n' !in "e" && 'n' !in "w" && 'n' !in "s";
  }

  /** No corner name contains any of the letters the edge tests look for,
      so a corner drag leaves the start box as it was at this step. */
  lemma CornersMoveNoEdge(s: Box, dx: real, dy: real)
    ensures forall c :: c in Corners ==> EdgeStep(s, c, dx, dy) == s
  {
    assert Corners == ["tl", "tr", "bl", "br"];
    assert 'e' !in "tl" && 'w' !in "tl" && 's' !in "tl" && 'n' !in "tl";
    assert 'e' !in "tr" && 'w' !in "tr" && 's' !in "tr" && 'n' !in "tr";
    assert 'e' !in "bl" && 'w' !in "bl" && 's' !in "bl" && 'n' !in "bl";
    assert 'e' !in "br" && 'w' !in "br" && 's' !in "br" && 'n' !in "br";
  }

  /** The aspect-ratio step: handles containing `n` or `s` derive the
      width from the height, every other handle the height from the width.
      A ratio of 0 is falsy for `if (aspectRatio)` and locks nothing. */
  function RatioStep(b: Box, handle: string, ratio: Option<real>): (r: Box)
    ensures r.x == b.x && r.y == b.y
    ensures ratio.None? || ratio.value == 0.0 ==> r == b
    ensures ratio.Some? && ratio.value != 0.0 && ('n' in handle || 's' in handle) ==>
              r.width == r.height * ratio.value && r.height == b.height
    ensures ratio.Some? && ratio.value != 0.0 && !('n' in handle || 's' in handle) ==>
              r.height * ratio.value == r.width && r.width == b.width
  {
    match ratio
    case None => b
    case Some(q) =>
      if q == 0.0 then b
      else if 'n' in handle || 's' in handle then b.(width := b.height * q)
      else b.(height := b.width / q)
  }

  /** The boundary step: a negative corner is moved to 0 and a side that
      passes the image edge is cut back to it. */
  function BoundaryStep(b: Box, w: real, h: real): (r: Box)
    ensures 0.0 <= r.x && 0.0 <= r.y && r.x + r.width <= w && r.y + r.height <= h
    ensures Inside(b, w, h) ==> r == b
  {
    var x := if b.x < 0.0 then 0.0 else b.x;
    var y := if b.y < 0.0 then 0.0 else b.y;
    Box(x, y,
        if x + b.width > w then w - x else b.width,
        if y + b.height > h then h - y else b.height)
  }

  /** The whole resize branch of `handleMove`. */
  function ResizeTo(s: Box, handle: string, dx: real, dy: real, ratio: Option<real>, w: real, h: real): Box
  {
    BoundaryStep(RatioStep(EdgeStep(s, handle, dx, dy), handle, ratio), w, h)
  }

  /** With no ratio lock, a corner drag changes nothing but what the
      boundary step cuts: a box already inside the image stays put. */
  lemma CornerDragKeepsInsideBox(s: Box, c: string, dx: real, dy: real, w: real, h: real)
    requires c in Corners && Inside(s, w, h)
    ensures ResizeTo(s, c, dx, dy, None, w, h) == s
  {
    CornersMoveNoEdge(s, dx, dy);
  }

  /** A fixed ratio button: the longer side (relative to the ratio) is
      shrunk so that width / height equals the ratio. */
  function FitRatio(b: Box, q: real): (r: Box)
    requires q > 0.0
    ensures r.x == b.x && r.y == b.y
  {
    if b.height == 0.0 then
      // w / 0 is +Infinity for w > 0, and -Infinity or NaN otherwise
      if b.width > 0.0 then b.(width := 0.0) else b.(height := b.width / q)
    else if b.width / b.height > q then b.(width := b.height * q) else b.(height := b.width / q)
  }

  /** On a box of positive size, the fitted box has exactly the ratio and
      neither side grows. */
  lemma FitRatioShrinks(b: Box, q: real)
    requires q > 0.0 && b.width > 0.0 && b.height > 0.0
    ensures var r := FitRatio(b, q);
            r.height > 0.0 && r.width / r.height == q
            && r.width <= b.width && r.height <= b.height
  {
    var r := FitRatio(b, q);
    if b.width / b.height > q {
      assert b.width > b.height * q by {
        assert b.width == (b.width / b.height) * b.height;
      }
    } else {
      assert b.width / q <= b.height by {
        assert b.width <= q * b.height by {
          assert b.width == (b.width / b.height) * b.height;
        }
      }
      assert r.width == r.height * q;
    }
  }

  /** The spinner value: the input plus or minus 10, raised to 20, then
      capped at the image side. */
  function SpinValue(input: int, up: bool, side: real): (v: real)
    ensures v <= side || v == MinCrop
    ensures v <= Max(MinCrop, side)
    ensures side >= MinCrop ==> MinCrop <= v <= side
    ensures side > 0.0 ==> v > 0.0
    ensures MinCrop <= (input + (if up then 10 else -10)) as real <= side ==> v == (input + (if up then 10 else -10)) as real
  {
    var raw := (input + (if up then 10 else -10)) as real;
    var v := if raw < MinCrop then MinCrop else raw;
    if v > side then side else v
  }

  /** What the ratio buttons offer. */
  datatype RatioChoice = Custom | Free | Fixed(ratio: real)

  class CropEditor {
    var imgW: real
    var imgH: real
    var box: Box
    var aspectRatio: Option<real>
    var isDragging: bool
    var isResizing: bool
    var resizeHandle: Option<string>
    var startBox: Box
    var start: Point

    predicate Valid()
      reads this
    {
      imgW > 0.0 && imgH > 0.0
    }

    /** The first image loaded: the default box and no ratio lock. */
    constructor (w: real, h: real)
      requires w > 0.0 && h > 0.0
      ensures Valid() && imgW == w && imgH == h
      ensures box == DefaultBox(w, h) && Inside(box, w, h) && aspectRatio.None?
      ensures !isDragging && !isResizing
    {
      imgW := w;
      imgH := h;
      box := DefaultBox(w, h);
      aspectRatio := None;
      isDragging := false;
      isResizing := false;
      resizeHandle := None;
      startBox := box;
      start := Point(0.0, 0.0);
    }

    /** `initEditor` for a later image: the default box again; the ratio
        lock is kept. */
    method InitEditor(w: real, h: real)
      requires Valid() && w > 0.0 && h > 0.0
      modifies this`imgW, this`imgH, this`box
      ensures Valid() && imgW == w && imgH == h
      ensures box == DefaultBox(w, h) && Inside(box, w, h)
    {
      imgW := w;
      imgH := h;
      var bw := w * 0.8;
      var bh := h * 0.8;
      box := Box((w - bw) / 2.0, (h - bh) / 2.0, bw, bh);
    }

    /** `handleStart` outside pan mode: a handle starts a resize, a press
        inside the box starts a drag, anything else does nothing. */
    method HandleStart(pos: Point, scale: real)
      requires Valid() && scale > 0.0
      modifies this`isDragging, this`isResizing, this`resizeHandle, this`startBox, this`start
      ensures Valid()
      ensures resizeHandle == GetHandle(pos, box, scale)
      ensures resizeHandle.Some? ==> isResizing && startBox == box && start == pos
                                     && isDragging == old(isDragging)
      ensures (resizeHandle.None? && InBox(pos, box)) ==>
                isDragging && startBox == box && start == pos && isResizing == old(isResizing)
      ensures (resizeHandle.None? && !InBox(pos, box)) ==>
                isDragging == old(isDragging) && isResizing == old(isResizing)
                && startBox == old(startBox) && start == old(start)
    {
      resizeHandle := GetHandle(pos, box, scale);
      if resizeHandle.Some? {
        isResizing := true;
        startBox := box;
        start := pos;
      } else if InBox(pos, box) {
        isDragging := true;
        startBox := box;
        start := pos;
      }
    }

    /** `handleMove` outside pan mode: a drag moves the box within the
        image; a resize applies the handle, the ratio lock and the image
        boundary, in that order. A resize with no handle leaves the box
        alone (the source throws there). */
    method HandleMove(pos: Point)
      requires Valid()
      modifies this`box
      ensures Valid()
      ensures (!isDragging && (!isResizing || resizeHandle.None?)) ==> box == old(box)
      ensures isDragging ==>
                box == old(box).(x := DragTo(startBox.x, pos.x - start.x, old(box).width, imgW),
                                 y := DragTo(startBox.y, pos.y - start.y, old(box).height, imgH))
      ensures (!isDragging && isResizing && resizeHandle.Some?) ==>
                box == ResizeTo(startBox, resizeHandle.value, pos.x - start.x, pos.y - start.y,
                                aspectRatio, imgW, imgH)
    {
      var dx, dy := pos.x - start.x, pos.y - start.y;
      if isDragging {
        Drag(dx, dy);
      } else if isResizing && resizeHandle.Some? {
        Resize(resizeHandle.value, dx, dy);
      }
    }

    /** The drag branch; a box no larger than the image stays inside it. */
    method Drag(dx: real, dy: real)
      modifies this`box
      ensures box == old(box).(x := DragTo(startBox.x, dx, old(box).width, imgW),
                               y := DragTo(startBox.y, dy, old(box).height, imgH))
      ensures old(box).width <= imgW && old(box).height <= imgH ==> Inside(box, imgW, imgH)
    {
      var newX := Max(0.0, Min(startBox.x + dx, imgW - box.width));
      var newY := Max(0.0, Min(startBox.y + dy, imgH - box.height));
      box := box.(x := newX);
      box := box.(y := newY);
    }

    /** The resize branch; the result always lies within the image. */
    method Resize(handle: string, dx: real, dy: real)
      requires Valid()
      modifies this`box
      ensures box == ResizeTo(startBox, handle, dx, dy, aspectRatio, imgW, imgH)
      ensures Inside(box, imgW, imgH)
    {
      var b := EdgeStep(startBox, handle, dx, dy);
      b := RatioStep(b, handle, aspectRatio);
      if b.x < 0.0 { b := b.(x := 0.0); }
      if b.y < 0.0 { b := b.(y := 0.0); }
      if b.x + b.width > imgW { b := b.(width := imgW - b.x); }
      if b.y + b.height > imgH { b := b.(height := imgH - b.y); }
      box := b;
    }

    /** `handleEnd`. */
    method HandleEnd()
      modifies this`isDragging, this`isResizing, this`resizeHandle
      ensures !isDragging && !isResizing && resizeHandle.None?
    {
      isDragging := false;
      isResizing := false;
      resizeHandle := None;
    }

    /** A ratio button. `custom` locks the current ratio, `free` drops the
        lock, a fixed ratio is locked and applied to the box at once. */
    method ChooseRatio(choice: RatioChoice)
      requires Valid()
      requires choice == Custom ==> box.height != 0.0
      requires choice.Fixed? ==> choice.ratio > 0.0
      modifies this`aspectRatio, this`box
      ensures Valid()
      ensures choice == Custom ==> aspectRatio == Some(old(box).width / old(box).height) && box == old(box)
      ensures choice == Free ==> aspectRatio.None? && box == old(box)
      ensures choice.Fixed? ==> aspectRatio == Some(choice.ratio) && box == FitRatio(old(box), choice.ratio)
      ensures choice == Custom ==> box.width / box.height == aspectRatio.value
      ensures choice.Fixed? && old(box).width > 0.0 && old(box).height > 0.0 ==>
                box.height > 0.0 && box.width / box.height == choice.ratio
                && box.width <= old(box).width && box.height <= old(box).height
    {
      match choice
      case Custom =>
        aspectRatio := Some(box.width / box.height);
      case Free =>
        aspectRatio := None;
      case Fixed(q) =>
        aspectRatio := Some(q);
        if box.width > 0.0 && box.height > 0.0 {
          FitRatioShrinks(box, q);
        }
        box := FitRatio(box, q);
    }

    /** A spinner button on the width (`onWidth`) or height field: the
        clamped value becomes that side and the ratio lock follows the box. */
    method Spin(input: int, up: bool, onWidth: bool) returns (shown: real)
      requires Valid()
      requires onWidth ==> box.height != 0.0
      modifies this`box, this`aspectRatio
      ensures Valid() && shown > 0.0 && box.height != 0.0
      ensures onWidth ==> shown == SpinValue(input, up, imgW) && box == old(box).(width := shown)
      ensures !onWidth ==> shown == SpinValue(input, up, imgH) && box == old(box).(height := shown)
      ensures aspectRatio == Some(box.width / box.height)
    {
      var v := (input + (if up then 10 else -10)) as real;
      if v < MinCrop {
        v := MinCrop;
      }
      if onWidth {
        if v > imgW {
          v := imgW;
        }
        box := box.(width := v);
      } else {
        if v > imgH {
          v := imgH;
        }
        box := box.(height := v);
      }
      shown := v;
      aspectRatio := Some(box.width / box.height);
    }
  }
}

=== FILE: filter.dfy ===
/** The filter tool (static/js/filter.js): seventeen adjustment values,
    the preset table that overwrites some of them, the reset, the slider
    update, the AI auto-enhance flag, and the list of CSS filter functions
    the live preview is drawn with. */
module Filter {

  /** The seventeen adjustment names, in declaration order. */
  const FieldNames: seq<string> := [
    "brightness", "contrast", "saturation", "exposure", "vibrance",
    "temperature", "tint", "hueShift",
    "highlights", "shadows", "whites", "blacks",
    "sharpness", "clarity", "blur", "vignette", "grain"]

  predicate IsField(k: string) {
    k in FieldNames
  }

  /** Every adjustment at 0. */
  function Zeros(): (m: map<string, real>)
    ensures m.Keys == set k | k in FieldNames
    ensures forall k :: k in m ==> m[k] == 0.0
  {
    map k | k in FieldNames :: 0.0
  }

  /** The values a preset writes after the reset, in the order its `case`
      writes them; an unknown name writes nothing. */
  function PresetTable(name: string): seq<(string, real)> {
    match name
    case "teal_orange" => [("contrast", 25.0), ("saturation", 15.0), ("hueShift", 30.0)]
    case "moody_dark" => [("brightness", -25.0), ("contrast", 20.0), ("saturation", -15.0)]
    case "bright_cinematic" => [("brightness", 20.0), ("saturation", 25.0), ("contrast", 15.0)]
    case "film_noir" => [("saturation", -100.0), ("contrast", 50.0), ("brightness", -10.0)]
    case "dramatic" => [("contrast", 45.0), ("saturation", -5.0), ("brightness", -15.0)]
    case "retro_70s" => [("brightness", 10.0), ("contrast", -5.0), ("saturation", 30.0), ("hueShift", 15.0)]
    case "polaroid" => [("brightness", 15.0), ("saturation", 20.0), ("contrast", -10.0)]
    case "faded_film" => [("brightness", 10.0), ("contrast", -20.0), ("saturation", -40.0)]
    case "warm_vintage" => [("brightness", 5.0), ("saturation", 15.0), ("hueShift", -20.0)]
    case "cool_vintage" => [("brightness", 5.0), ("saturation", 10.0), ("hueShift", 40.0)]
    case "clean_bright" => [("brightness", 25.0), ("contrast", 10.0), ("saturation", 5.0)]
    case "high_contrast" => [("contrast", 60.0), ("brightness", 5.0)]
    case "matte_finish" => [("contrast", -15.0), ("saturation", -10.0), ("brightness", 5.0)]
    case "vibrant_pop" => [("saturation", 50.0), ("contrast", 25.0), ("brightness", 10.0)]
    case "soft_pastel" => [("brightness", 15.0), ("saturation", 25.0), ("contrast", -10.0)]
    case "classic_bw" => [("saturation", -100.0), ("contrast", 15.0)]
    case "high_contrast_bw" => [("saturation", -100.0), ("contrast", 50.0)]
    case "soft_bw" => [("saturation", -100.0), ("contrast", -10.0), ("brightness", 10.0)]
    case "dramatic_bw" => [("saturation", -100.0), ("contrast", 40.0), ("brightness", -15.0)]
    case "film_bw" => [("saturation", -100.0), ("contrast", 20.0), ("brightness", -5.0)]
    case "golden_hour" => [("brightness", 15.0), ("saturation", 30.0), ("hueShift", -25.0)]
    case "blue_hour" => [("brightness", -10.0), ("saturation", 20.0), ("hueShift", 60.0)]
    case "sunset_glow" => [("brightness", 10.0), ("saturation", 35.0), ("hueShift", -15.0)]
    case "cool_tones" => [("saturation", 15.0), ("hueShift", 50.0)]
    case "warm_tones" => [("saturation", 20.0), ("hueShift", -30.0)]
    case _ => []
  }

  /** Each preset only touches brightness, contrast, saturation and hue. */
  lemma PresetTouchesBasics(name: string)
    ensures forall i :: 0 <= i < |PresetTable(name)| ==>
              PresetTable(name)[i].0 in ["brightness", "contrast", "saturation", "hueShift"]
  {
  }

  /** The writes of a table applied in order. */
  function Overlay(m: map<string, real>, writes: seq<(string, real)>): (r: map<string, real>)
    ensures r.Keys == m.Keys + set i | 0 <= i < |writes| :: writes[i].0
    decreases |writes|
  {
    if |writes| == 0 then m else Overlay(m[writes[0].0 := writes[0].1], writes[1..])
  }

  /** Keys the writes never name keep their value. */
  lemma {:induction false} OverlayKeepsOthers(m: map<string, real>, writes: seq<(string, real)>, k: string)
    requires k in m && forall i :: 0 <= i < |writes| ==> writes[i].0 != k
    ensures k in Overlay(m, writes) && Overlay(m, writes)[k] == m[k]
    decreases |writes|
  {
    if |writes| > 0 {
      OverlayKeepsOthers(m[writes[0].0 := writes[0].1], writes[1..], k);
    }
  }

  /** The filter values a preset leaves: the reset, then its writes. */
  function PresetValues(name: string): map<string, real> {
    Overlay(Zeros(), PresetTable(name))
  }

  /** A preset keeps exactly the seventeen keys and leaves every field it
      does not list at 0; an unknown name leaves all of them at 0. */
  lemma PresetSetsOnlyItsFields(name: string)
    ensures PresetValues(name).Keys == set k | k in FieldNames
    ensures forall k :: IsField(k) && (forall i :: 0 <= i < |PresetTable(name)| ==> PresetTable(name)[i].0 != k)
              ==> PresetValues(name)[k] == 0.0
    ensures PresetTable(name) == [] ==> PresetValues(name) == Zeros()
  {
    PresetTouchesBasics(name);
    assert (set i | 0 <= i < |PresetTable(name)| :: PresetTable(name)[i].0) <= (set k | k in FieldNames) by {
      forall i | 0 <= i < |PresetTable(name)| ensures PresetTable(name)[i].0 in FieldNames {
        assert PresetTable(name)[i].0 in ["brightness", "contrast", "saturation", "hueShift"];
      }
    }
    forall k | IsField(k) && (forall i :: 0 <= i < |PresetTable(name)| ==> PresetTable(name)[i].0 != k)
      ensures PresetValues(name)[k] == 0.0
    {
      OverlayKeepsOthers(Zeros(), PresetTable(name), k);
    }
  }

  /** The five adjustments the preview reads are among the keys. */
  lemma PreviewFieldsPresent(m: map<string, real>)
    requires m.Keys == set k | k in FieldNames
    ensures "brightness" in m && "contrast" in m && "saturation" in m && "hueShift" in m && "blur" in m
  {
    assert FieldNames[0] == "brightness" && FieldNames[1] == "contrast" && FieldNames[2] == "saturation";
    assert FieldNames[7] == "hueShift" && FieldNames[14] == "blur";
  }

  /** The state `applyPreset` and `resetFilters` work on. */
  datatype Settings = Settings(filters: map<string, real>, preset: string, aiAutoEnhance: bool)

  /** `resetFilters`: all zero, preset 'none', auto-enhance off. */
  function ResetSettings(): Settings {
    Settings(Zeros(), "none", false)
  }

  /** `applyPreset` as written: the name is stored first, then the reset
      that follows overwrites it with 'none'. */
  function ApplyPresetAsWritten(s: Settings, name: string): (r: Settings)
    ensures r.filters == PresetValues(name)
  {
    if name == "none" then ResetSettings()
    else
      var reset := ResetSettings();
      reset.(filters := Overlay(reset.filters, PresetTable(name)))
  }

  /** Whatever preset is chosen, the stored preset name ends up 'none' and
      auto-enhance ends up off, so the download request never names the
      preset. */
  lemma PresetNameIsLost(s: Settings, name: string)
    ensures ApplyPresetAsWritten(s, name).preset == "none"
    ensures !ApplyPresetAsWritten(s, name).aiAutoEnhance
    ensures ApplyPresetAsWritten(s, "teal_orange").preset != "teal_orange"
  {
  }

  /** `applyPreset` as intended: the preset's values and its name. */
  function ApplyPresetIntended(s: Settings, name: string): (r: Settings)
    ensures r.preset == name && !r.aiAutoEnhance
  {
    Settings(PresetValues(name), name, false)
  }

  /** Choosing 'none' is a reset; choosing a preset twice is the same as
      choosing it once; the values do not depend on what came before. */
  lemma PresetProperties(s: Settings, t: Settings, name: string)
    ensures ApplyPresetIntended(s, "none") == ResetSettings()
    ensures ApplyPresetIntended(ApplyPresetIntended(s, name), name) == ApplyPresetIntended(s, name)
    ensures ApplyPresetIntended(s, name).filters == ApplyPresetIntended(t, name).filters
  {
    assert PresetTable("none") == [];
  }

  /** One function of the preview's CSS `filter` list. */
  datatype CssFilter = Brightness(percent: real) | Contrast(percent: real) | Saturate(percent: real)
                     | HueRotate(degrees: real) | Blur(pixels: real)

  class FilterApp {
    var filters: map<string, real>
    var currentPreset: string
    var aiAutoEnhance: bool

    predicate Valid()
      reads this
    {
      filters.Keys == set k | k in FieldNames
    }

    function Snapshot(): Settings
      reads this
    {
      Settings(filters, currentPreset, aiAutoEnhance)
    }

    constructor ()
      ensures Valid() && Snapshot() == ResetSettings()
    {
      filters := Zeros();
      currentPreset := "none";
      aiAutoEnhance := false;
    }

    /** `resetFilters`: every key set to 0 in turn, then the preset and
        the auto-enhance flag. */
    method ResetFilters()
      requires Valid()
      modifies this
      ensures Valid() && Snapshot() == ResetSettings()
    {
      var i := 0;
      while i < |FieldNames|
        invariant 0 <= i <= |FieldNames|
        invariant filters.Keys == set k | k in FieldNames
        invariant forall j :: 0 <= j < i ==> filters[FieldNames[j]] == 0.0
      {
        filters := filters[FieldNames[i] := 0.0];
        i := i + 1;
      }
      forall k | k in filters ensures filters[k] == 0.0 {
        var j :| 0 <= j < |FieldNames| && FieldNames[j] == k;
      }
      currentPreset := "none";
      aiAutoEnhance := false;
    }

    /** `applyPreset` with its name kept: reset, write the preset's
        values, and record the name. */
    method ApplyPreset(name: string)
      requires Valid()
      modifies this
      ensures Valid() && Snapshot() == ApplyPresetIntended(old(Snapshot()), name)
    {
      ResetFilters();
      if name != "none" {
        filters := Overlay(filters, PresetTable(name));
      }
      currentPreset := name;
      PresetSetsOnlyItsFields(name);
      assert PresetTable("none") == [];
    }

    /** A slider's `input` event: only that field changes. */
    method SetSlider(id: string, value: real)
      requires Valid() && IsField(id)
      modifies this`filters
      ensures Valid() && filters == old(filters)[id := value]
      ensures forall k :: k in filters && k != id ==> filters[k] == old(filters)[k]
    {
      filters := filters[id := value];
    }

    /** `toggleAIAutoEnhance`. */
    method ToggleAutoEnhance()
      modifies this`aiAutoEnhance
      ensures aiAutoEnhance == !old(aiAutoEnhance)
    {
      aiAutoEnhance := !aiAutoEnhance;
    }

    /** The preview's filter list: brightness, contrast and saturation
        always, in that order, as offsets from 100%; a hue rotation of
        twice the shift only when the shift is not 0; a blur of a tenth of
        the value only when it is positive. */
    method FilterParts() returns (parts: seq<CssFilter>)
      requires Valid()
      ensures |parts| >= 3
      ensures parts[0] == Brightness(100.0 + filters["brightness"])
      ensures parts[1] == Contrast(100.0 + filters["contrast"])
      ensures parts[2] == Saturate(100.0 + filters["saturation"])
      ensures |parts| == 3 + (if filters["hueShift"] != 0.0 then 1 else 0) + (if filters["blur"] > 0.0 then 1 else 0)
      ensures filters["hueShift"] != 0.0 ==> parts[3] == HueRotate(2.0 * filters["hueShift"])
      ensures filters["blur"] > 0.0 ==> parts[|parts| - 1] == Blur(filters["blur"] / 10.0)
    {
      PreviewFieldsPresent(filters);
      var hue := filters["hueShift"];
      var blur := filters["blur"];
      var basics := [Brightness(100.0 + filters["brightness"]), Contrast(100.0 + filters["contrast"]),
                     Saturate(100.0 + filters["saturation"])];
      var rotate: seq<CssFilter> := if hue != 0.0 then [HueRotate(hue * 2.0)] else [];
      var soften: seq<CssFilter> := if blur > 0.0 then [Blur(blur / 10.0)] else [];
      parts := basics + rotate + soften;
    }
  }
}

=== FILE: hex.dfy ===
/** Two-digit hexadecimal bytes, as used by the `#rrggbb` colour notation
    (CSS Color Module Level 4, section 5.2). */
module Hex {
  type Byte = x: int | 0 <= x < 256

  predicate IsHexChar(c: char) {
    ('0' <= c <= '9') || ('a' <= c <= 'f') || ('A' <= c <= 'F')
  }

  predicate IsLowerHexChar(c: char) {
    ('0' <= c <= '9') || ('a' <= c <= 'f')
  }

  function HexValue(c: char): (v: int)
    requires IsHexChar(c)
    ensures 0 <= v < 16
  {
    if '0' <= c <= '9' then c as int - '0' as int
    else if 'a' <= c <= 'f' then c as int - 'a' as int + 10
    else c as int - 'A' as int + 10
  }

  function HexDigit(d: int): (c: char)
    requires 0 <= d < 16
    ensures IsLowerHexChar(c) && IsHexChar(c) && HexValue(c) == d
  {
    if d < 10 then ('0' as int + d) as char else ('a' as int + d - 10) as char
  }

  /** The lower-case digit with the same value. */
  function LowerHexChar(c: char): (l: char)
    requires IsHexChar(c)
    ensures IsLowerHexChar(l) && HexValue(l) == HexValue(c)
  {
    HexDigit(HexValue(c))
  }

  /** `'{:02x}'.format(b)`: two lower-case digits. */
  function Hex2(b: Byte): (s: string)
    ensures |s| == 2 && IsLowerHexChar(s[0]) && IsLowerHexChar(s[1])
    ensures HexValue(s[0]) * 16 + HexValue(s[1]) == b
  {
    [HexDigit(b / 16), HexDigit(b % 16)]
  }

  /** The value of two hex digits. */
  function PairValue(a: char, b: char): (v: Byte)
    requires IsHexChar(a) && IsHexChar(b)
  {
    HexValue(a) * 16 + HexValue(b)
  }

  /** Printing the value of two digits gives them back in lower case. */
  lemma Hex2OfPair(a: char, b: char)
    requires IsHexChar(a) && IsHexChar(b)
    ensures Hex2(PairValue(a, b)) == [LowerHexChar(a), LowerHexChar(b)]
  {
    var v := PairValue(a, b);
    assert v / 16 == HexValue(a) && v % 16 == HexValue(b);
  }

  /** `'#{:02x}{:02x}{:02x}'`: the colour notation of three channels. */
  function ColorHex(r: Byte, g: Byte, b: Byte): (s: string)
    ensures |s| == 7 && s[0] == '#'
    ensures forall i :: 1 <= i < 7 ==> IsLowerHexChar(s[i])
  {
    "#" + Hex2(r) + Hex2(g) + Hex2(b)
  }
}

=== FILE: pwa.dfy ===
/** The progressive-web-app helper (static/js/pwa.js): turning a URL-safe
    base64 key (section 5 of RFC 4648) into bytes, the once-a-day install
    prompt, the theme colour, and the names sent with a clear-cache
    message. The browser's `atob` is a parameter. */
module Pwa {
  import opened Wrappers
  import opened Hex
  import ServiceWorker

  /** `(4 - length % 4) % 4`. */
  function Padding(length: nat): (p: nat)
    ensures p <= 3
    ensures (length + p) % 4 == 0
    ensures length % 4 == 0 <==> p == 0
  {
    (4 - length % 4) % 4
  }

  /** The two replacements: '-' to '+' and '_' to '/'. */
  function ToStandardChar(c: char): char {
    if c == '-' then '+' else if c == '_' then '/' else c
  }

  function ToUrlSafeChar(c: char): char {
    if c == '+' then '-' else if c == '/' then '_' else c
  }

  /** Every character replaced independently. */
  function MapChars(s: string, standard: bool): (r: string)
    ensures |r| == |s|
    ensures forall i :: 0 <= i < |s| ==> r[i] == (if standard then ToStandardChar(s[i]) else ToUrlSafeChar(s[i]))
  {
    if |s| == 0 then [] else [if standard then ToStandardChar(s[0]) else ToUrlSafeChar(s[0])] + MapChars(s[1..], standard)
  }

  /** The padded, translated string handed to `atob`. */
  function Normalised(s: string): (r: string)
    ensures |r| == |s| + Padding(|s|) && |r| % 4 == 0
    ensures forall i :: 0 <= i < |s| ==> r[i] == ToStandardChar(s[i])
    ensures forall i :: |s| <= i < |r| ==> r[i] == '='
    ensures '-' !in r && '_' !in r
  {
    var padding := seq(Padding(|s|), _ => '=');
    MapChars(s + padding, true)
  }

  /** For a key in the URL-safe alphabet, translating back gives the key
      and the padding: no information is lost. */
  lemma NormalisedRoundTrip(s: string)
    requires '+' !in s && '/' !in s
    ensures MapChars(Normalised(s), false) == s + seq(Padding(|s|), _ => '=')
  {
    var r := MapChars(Normalised(s), false);
    var t := s + seq(Padding(|s|), _ => '=');
    assert |r| == |t|;
    forall i | 0 <= i < |r| ensures r[i] == t[i] {
      if i < |s| {
        assert s[i] != '+' && s[i] != '/';
      }
    }
  }

  class PwaManager {
    var theme: string
    /** The stored time of the last install prompt, if any. */
    var lastPromptTime: Option<int>
    var themeColor: string
    var darkClass: bool
    var lightClass: bool

    constructor (stored: Option<int>)
      ensures lastPromptTime == stored
    {
      theme := "light";
      lastPromptTime := stored;
      themeColor := "#F97316";
      darkClass := false;
      lightClass := true;
    }

    /** The colour for the theme-colour meta tag. */
    static function ThemeColor(t: string): (c: string)
      ensures c == "#1a1a1a" <==> t == "dark"
      ensures c == "#F97316" <==> t != "dark"
    {
      if t == "dark" then "#1a1a1a" else "#F97316"
    }

    /** `setTheme` with `applyTheme`. */
    method SetTheme(t: string)
      modifies this`theme, this`themeColor, this`darkClass, this`lightClass
      ensures theme == t && themeColor == ThemeColor(t)
      ensures darkClass <==> t == "dark"
      ensures lightClass <==> t == "light"
    {
      theme := t;
      darkClass := t == "dark";
      lightClass := t == "light";
      themeColor := ThemeColor(t);
    }

    /** Whether the install prompt may be shown at `now`. */
    static predicate PromptAllowed(last: Option<int>, now: int) {
      last.None? || now - last.value >= 86400000
    }

    /** `showInstallPrompt`: suppressed within 86,400,000 ms of the last
        one; otherwise shown, and the time recorded. */
    method ShowInstallPrompt(now: int) returns (shown: bool)
      modifies this`lastPromptTime
      ensures shown <==> PromptAllowed(old(lastPromptTime), now)
      ensures shown ==> lastPromptTime == Some(now)
      ensures !shown ==> lastPromptTime == old(lastPromptTime)
    {
      if lastPromptTime.Some? && now - lastPromptTime.value < 86400000 {
        return false;
      }
      lastPromptTime := Some(now);
      shown := true;
    }
  }

  /** Once shown, the prompt stays suppressed for a day, and is allowed
      again after it. */
  lemma PromptOncePerDay(now: int, later: int)
    ensures now <= later < now + 86400000 ==> !PwaManager.PromptAllowed(Some(now), later)
    ensures later >= now + 86400000 ==> PwaManager.PromptAllowed(Some(now), later)
  {
  }

  /** `urlBase64ToUint8Array`: normalise, decode with `atob` (which throws
      on bad input, here `None`), and copy each character code into a
      byte array. */
  method UrlBase64ToUint8Array(s: string, atob: string -> Option<string>) returns (out: Option<array<Byte>>)
    ensures out.None? <==> atob(Normalised(s)).None?
    ensures out.Some? ==> fresh(out.value) && out.value.Length == |atob(Normalised(s)).value|
    ensures out.Some? ==> forall i :: 0 <= i < out.value.Length ==>
                            out.value[i] == (atob(Normalised(s)).value[i] as int) % 256
  {
    var decoded := atob(Normalised(s));
    if decoded.None? {
      return None;
    }
    var rawData := decoded.value;
    var outputArray := new Byte[|rawData|];
    var i := 0;
    while i < |rawData|
      invariant 0 <= i <= |rawData|
      invariant forall j :: 0 <= j < i ==> outputArray[j] == (rawData[j] as int) % 256
    {
      outputArray[i] := (rawData[i] as int) % 256;
      i := i + 1;
    }
    out := Some(outputArray);
  }

  /** `clearCache`'s message: each name prefixed with "imgcraft-v1-";
      without a service worker nothing is sent. */
  function ClearCacheMessage(hasWorker: bool, names: Option<seq<string>>): (m: Option<seq<string>>)
    ensures !hasWorker <==> m.None?
    ensures m.Some? ==> var ns := names.GetOr(["static", "images", "api"]);
                        |m.value| == |ns| && forall i :: 0 <= i < |ns| ==> m.value[i] == "imgcraft-v1-" + ns[i]
  {
    if !hasWorker then None
    else
      var ns := names.GetOr(["static", "images", "api"]);
      Some(seq(|ns|, i requires 0 <= i < |ns| => "imgcraft-v1-" + ns[i]))
  }

  /** The default message names exactly the service worker's three current
      caches, in its own order. */
  lemma DefaultClearNamesCurrentCaches()
    ensures ClearCacheMessage(true, None) == Some(ServiceWorker.CurrentCaches)
  {
    var m := ClearCacheMessage(true, None).value;
    var ns: seq<string> := ["static", "images", "api"];
    assert None.GetOr(ns) == ns;
    assert |m| == 3;
    assert m[0] == "imgcraft-v1-" + ns[0] == ServiceWorker.StaticCache;
    assert m[1] == "imgcraft-v1-" + ns[1] == ServiceWorker.ImageCache;
    assert m[2] == "imgcraft-v1-" + ns[2] == ServiceWorker.ApiCache;
    assert m == ServiceWorker.CurrentCaches;
  }
}

=== FILE: razorpay_client.dfy ===
/** The payment-gateway client (payments/razorpay_client.py): the credit-pack
    catalogue, plan lookup, order payload construction and the payment
    signature check. The gateway's own calls are inputs: the order id it
    assigns (None when the call raised) and the signature its utility expects. */
module RazorpayClient {
  import opened Wrappers
  import Text

  /** One entry of the credit-pack catalogue. */
  datatype Plan = Plan(id: string, name: string, credits: int, price: int,
                       priceDisplay: string, currency: string,
                       savings: Option<string>, popular: bool)

  const CreditPlans: seq<Plan> := [
    Plan("starter", "Starter", 50, 99, "\U{20B9}99", "INR", None, false),
    Plan("basic", "Basic", 100, 179, "\U{20B9}179", "INR", Some("10%"), false),
    Plan("pro", "Pro", 500, 799, "\U{20B9}799", "INR", Some("20%"), true),
    Plan("enterprise", "Enterprise", 1000, 1499, "\U{20B9}1,499", "INR", Some("25%"), false)
  ]

  /** The catalogue's ids are pairwise distinct, so a lookup by id has at most
      one answer. */
  lemma PlanIdsDistinct()
    ensures forall i, j :: 0 <= i < j < |CreditPlans| ==> CreditPlans[i].id != CreditPlans[j].id
  {
  }

  /** Every pack sells a positive number of credits at a positive price. */
  lemma PlansPositive()
    ensures forall i :: 0 <= i < |CreditPlans| ==> CreditPlans[i].credits > 0 && CreditPlans[i].price > 0
  {
  }

  /** `get_plan_by_id`: a linear search returning the first plan with the id. */
  method GetPlanById(id: string) returns (r: Option<Plan>)
    ensures r.Some? ==> exists i :: 0 <= i < |CreditPlans| && CreditPlans[i] == r.value
                                   && r.value.id == id
                                   && forall j :: 0 <= j < i ==> CreditPlans[j].id != id
    ensures r.None? <==> forall i :: 0 <= i < |CreditPlans| ==> CreditPlans[i].id != id
  {
    var k := 0;
    while k < |CreditPlans|
      invariant 0 <= k <= |CreditPlans|
      invariant forall j :: 0 <= j < k ==> CreditPlans[j].id != id
    {
      if CreditPlans[k].id == id {
        return Some(CreditPlans[k]);
      }
      k := k + 1;
    }
    return None;
  }

  /** A payload value: a number, a text, or the notes object. */
  datatype Value = Num(n: int) | Text(s: string) | Notes(fields: map<string, string>)

  /** The gateway's reply to an order creation. */
  datatype OrderResult = OrderCreated(id: string, payload: map<string, Value>)
                       | OrderFailed(error: string)

  /** Python truthiness of an optional text and an optional dictionary. */
  predicate TruthyText(s: Option<string>) { s.Some? && s.value != "" }
  predicate TruthyNotes(m: Option<map<string, string>>) { m.Some? && |m.value| > 0 }

  /** `create_order`: the payload carries the amount in paise, the currency and
      automatic capture, plus `receipt` and `notes` only when they are truthy;
      a gateway error becomes a failure carrying its text. */
  method CreateOrder(amount: int, currency: string, receipt: Option<string>,
                     notes: Option<map<string, string>>, gatewayId: Option<string>, exc: string)
    returns (payload: map<string, Value>, r: OrderResult)
    ensures "amount" in payload && payload["amount"] == Num(amount * 100)
    ensures "currency" in payload && payload["currency"] == Text(currency)
    ensures "payment_capture" in payload && payload["payment_capture"] == Num(1)
    ensures "receipt" in payload <==> TruthyText(receipt)
    ensures "receipt" in payload ==> payload["receipt"] == Text(receipt.value)
    ensures "notes" in payload <==> TruthyNotes(notes)
    ensures "notes" in payload ==> payload["notes"] == Notes(notes.value)
    ensures payload.Keys <= {"amount", "currency", "payment_capture", "receipt", "notes"}
    ensures r == if gatewayId.Some? then OrderCreated(gatewayId.value, payload) else OrderFailed(exc)
  {
    payload := map["amount" := Num(amount * 100), "currency" := Text(currency),
                   "payment_capture" := Num(1)];
    if TruthyText(receipt) {
      payload := payload["receipt" := Text(receipt.value)];
    }
    if TruthyNotes(notes) {
      payload := payload["notes" := Notes(notes.value)];
    }
    if gatewayId.None? {
      return payload, OrderFailed(exc);
    }
    r := OrderCreated(gatewayId.value, payload);
  }

  /** `verify_payment_signature`: true exactly when the gateway utility accepts
      the signature, i.e. it equals the signature the utility computes for the
      order and payment ids. */
  function VerifyPaymentSignature(signature: string, expected: string): bool
  {
    signature == expected
  }

  /** The notes the credit-pack order endpoint attaches to an order
      (app.py): the buyer, the plan and its credit count as text. */
  function OrderNotes(user: string, plan: Plan): (notes: map<string, string>)
    ensures notes.Keys == {"user_id", "plan_id", "credits"}
    ensures Text.ParseInt(notes["credits"]) == Some(plan.credits)
  {
    Text.IntRoundTrip(plan.credits);
    map["user_id" := user, "plan_id" := plan.id, "credits" := Text.IntToString(plan.credits)]
  }
}

=== FILE: remove_bg.dfy ===
/** The manual-fix editor of the background remover (static/js/remove_bg.js):
    the bounded undo/redo history of canvas snapshots and the slider and
    zoom clamps. A snapshot is any value of type `T`. */
module RemoveBg {
  import opened Wrappers

  /** At most this many entries survive before a new one is pushed. */
  const MaxKept: nat := 20

  /** The history after `saveState` pushes `snap` at position `step + 1`:
      the redo tail is cut, the oldest entry is dropped when more than 20
      remain, and the new entry becomes current. */
  function SaveSpec<T>(history: seq<T>, step: int, snap: T): (r: (seq<T>, int))
    requires -1 <= step < |history|
    ensures r.1 == |r.0| - 1 && |r.0| >= 1
    ensures |history| <= MaxKept + 1 ==> |r.0| <= MaxKept + 1
    ensures r.0[|r.0| - 1] == snap
    ensures step + 1 <= MaxKept ==> r.0 == history[..step + 1] + [snap]
    ensures step + 1 > MaxKept ==> r.0 == history[1..step + 1] + [snap]
  {
    var kept := history[..step + 1];
    if |kept| > MaxKept then (kept[1..] + [snap], |kept| - 1) else (kept + [snap], |kept|)
  }

  /** The history buffer and the index of the entry shown. */
  class EditHistory<T> {
    var history: seq<T>
    var step: int

    predicate Valid()
      reads this
    {
      -1 <= step < |history| && |history| <= MaxKept + 1 && (step == -1 ==> history == [])
    }

    /** Entering edit mode: an empty history, then the first snapshot. */
    constructor (first: T)
      ensures Valid() && history == [first] && step == 0
    {
      history := [first];
      step := 0;
    }

    method SaveState(snap: T)
      requires Valid()
      modifies this
      ensures Valid()
      ensures (history, step) == SaveSpec(old(history), old(step), snap)
    {
      step := step + 1;
      if step < |history| {
        history := history[..step];
      }
      assert history == old(history)[..old(step) + 1];
      if |history| > MaxKept {
        history := history[1..];
        step := step - 1;
      }
      history := history + [snap];
    }

    /** `performReset`: clear the history, then save the current canvas. */
    method Reset(snap: T)
      modifies this
      ensures Valid() && history == [snap] && step == 0
    {
      history := [];
      step := -1;
      SaveState(snap);
    }

    /** Steps back when there is an earlier entry; returns the entry now
        shown. The entries themselves never change. */
    method Undo() returns (shown: Option<T>)
      requires Valid()
      modifies this
      ensures Valid() && history == old(history)
      ensures old(step) > 0 ==> step == old(step) - 1 && shown == Some(history[step])
      ensures old(step) <= 0 ==> step == old(step) && shown.None?
    {
      if step > 0 {
        step := step - 1;
        return Some(history[step]);
      }
      return None;
    }

    method Redo() returns (shown: Option<T>)
      requires Valid()
      modifies this
      ensures Valid() && history == old(history)
      ensures old(step) < |history| - 1 ==> step == old(step) + 1 && shown == Some(history[step])
      ensures old(step) >= |history| - 1 ==> step == old(step) && shown.None?
    {
      if step < |history| - 1 {
        step := step + 1;
        return Some(history[step]);
      }
      return None;
    }

    /** `updateHistoryButtons`: which of undo and redo are disabled; both
        are only when there is nothing to go back or forward to. */
    function Buttons(): (b: (bool, bool))
      reads this
      ensures Valid() ==> (b.0 && b.1 <==> |history| <= 1)
    {
      (step <= 0, step >= |history| - 1)
    }
  }

  /** Right after a save, undo is possible iff an earlier entry survived,
      and redo is never possible. */
  lemma AfterSave<T>(history: seq<T>, step: int, snap: T)
    requires -1 <= step < |history|
    ensures var (h, s) := SaveSpec(history, step, snap);
            (s > 0 <==> step >= 0) && !(s < |h| - 1)
  {
  }

  /** The comparison slider's position in percent: the cursor's offset
      clamped to the container, as a share of its width (undefined for a
      container of no width). */
  function SliderPercent(offset: real, width: real): (p: Option<real>)
    ensures width > 0.0 ==> p.Some? && 0.0 <= p.value <= 100.0
    ensures width > 0.0 && 0.0 <= offset <= width ==> p == Some(offset / width * 100.0)
  {
    if width <= 0.0 then None
    else
      var x := if offset < 0.0 then 0.0 else if offset > width then width else offset;
      ShareBound(x, width);
      Some(x / width * 100.0)
  }

  lemma ShareBound(x: real, w: real)
    requires 0.0 <= x <= w && w > 0.0
    ensures 0.0 <= x / w <= 1.0
  {
    var q := x / w;
    assert q * w == x;
  }

  /** The editor zoom after a pinch or wheel step: kept within [0.1, 5]. */
  function ClampZoom(v: real): (z: real)
    ensures 0.1 <= z <= 5.0
    ensures 0.1 <= v <= 5.0 ==> z == v
  {
    var lo := if v > 0.1 then v else 0.1;
    if lo < 5.0 then lo else 5.0
  }
}

=== FILE: resize_client.dfy ===
/** The resize page (static/js/resize.js): the spin buttons, the aspect
    lock between the two size inputs, the target size in pixel and
    percent mode, and the checks made before a request is sent. An input
    box's text is modelled as empty, an integer, or text that is not a
    number. */
module ResizeClient {
  import opened Wrappers
  import AppRules

  const MaxDimension: int := 10000
  const MaxTotalPixels: int := 100000000
  /** Above this many pixels the user is asked to confirm. */
  const ConfirmPixels: int := 50000000

  /** `Math.round`: halves round up. */
  function Round(x: real): (r: int)
    ensures r as real - 0.5 <= x < r as real + 0.5
  {
    (x + 0.5).Floor
  }

  /** The text of a number box. */
  datatype BoxText = Empty | Number(n: int) | NotANumber

  /** `parseInt(value) || 0`: an empty box and one without a number read 0. */
  function OrZero(v: BoxText): (n: int)
    ensures v.Number? ==> n == v.n
    ensures !v.Number? ==> n == 0
  {
    match v case Number(n) => n case _ => 0
  }

  /** The other side under the aspect lock: `Math.round(value * ratio)`.
      JavaScript multiplies the empty text as 0, so a cleared box gives 0;
      text that is not a number, or a ratio that is not finite (a zero
      divisor), gives a value that is not a number. */
  function Scaled(v: BoxText, num: int, den: int): (r: BoxText)
    ensures den != 0 && v.Number? ==> r == Number(Round(v.n as real * (num as real / den as real)))
    ensures den != 0 && v.Empty? ==> r == Number(0)
    ensures den == 0 || v.NotANumber? ==> r == NotANumber
  {
    if den == 0 then NotANumber
    else
      match v
      case Empty => Number(Round(0.0 * (num as real / den as real)))
      case Number(_) => Number(Round(v.n as real * (num as real / den as real)))
      case NotANumber => NotANumber
  }

  /** Typing the original width under the lock gives back the original
      height, and the other way round. */
  lemma OriginalSizeIsFixedPoint(w: nat, h: nat)
    requires w > 0 && h > 0
    ensures Scaled(Number(w), h, w) == Number(h)
    ensures Scaled(Number(h), w, h) == Number(w)
  {
    var x := w as real * (h as real / w as real);
    var y := h as real * (w as real / h as real);
    assert x == h as real && y == w as real;
    assert Round(x) == h && Round(y) == w;
    var vw: BoxText, vh: BoxText := Number(w), Number(h);
    assert Scaled(vw, h, w) == Number(Round(vw.n as real * (h as real / w as real)));
    assert Scaled(vh, w, h) == Number(Round(vh.n as real * (w as real / h as real)));
    assert vw.n as real * (h as real / w as real) == x;
    assert vh.n as real * (w as real / h as real) == y;
  }

  /** The value a spin button leaves: the parsed value (0 when none) plus
      the step, floored at 1. */
  function Adjusted(v: BoxText, delta: int): (n: int)
    ensures n >= 1
    ensures OrZero(v) + delta >= 1 ==> n == OrZero(v) + delta
  {
    var n := OrZero(v) + delta;
    if n < 1 then 1 else n
  }

  /** The size a percent-mode request asks for: each side scaled by
      `scale / 100` and rounded. */
  function PercentTarget(originalWidth: nat, originalHeight: nat, scale: int): (t: (int, int))
    ensures scale == 100 ==> t == (originalWidth, originalHeight)
    ensures t.0 as real - 0.5 <= originalWidth as real * scale as real / 100.0 < t.0 as real + 0.5
    ensures t.1 as real - 0.5 <= originalHeight as real * scale as real / 100.0 < t.1 as real + 0.5
  {
    var s := scale as real / 100.0;
    (Round(originalWidth as real * s), Round(originalHeight as real * s))
  }

  /** What a percent-mode request carries, or a pixel-mode one. */
  datatype Request = PixelRequest(width: BoxText, height: BoxText) | PercentRequest(scale: int)

  /** What the resize button does. */
  datatype Decision =
    | NoFile
    | SideTooLarge(width: int, height: int)
    | TooManyPixels(pixels: int)
    | Declined
    | NoCredits
    | Send(request: Request, width: int, height: int)

  /** A percent-mode side as the server computes it (truncated) never
      exceeds the page's rounded one. */
  lemma TruncatedBelowRounded(side: nat, scale: nat)
    ensures AppRules.TruncDiv(side * scale, 100) <= Round(side as real * (scale as real / 100.0))
    ensures AppRules.TruncDiv(side * scale, 100) >= 0
  {
    var q := AppRules.TruncDiv(side * scale, 100);
    assert q * 100 <= side * scale;
    assert (side * scale) as real == side as real * scale as real;
    assert side as real * (scale as real / 100.0) == (side * scale) as real / 100.0;
    assert q as real <= (side * scale) as real / 100.0;
  }

  lemma ProductMonotone(a: int, b: int, c: int, d: int)
    requires 0 <= a <= c && 0 <= b <= d
    ensures a * b <= c * d
  {
    assert a * b <= c * b;
    assert c * b <= c * d;
  }

  class ResizePage {
    var hasFile: bool
    var originalWidth: nat
    var originalHeight: nat
    var currentMode: string
    var aspectLocked: bool
    var widthValue: BoxText
    var heightValue: BoxText
    var scaleValue: int

    constructor ()
      ensures !hasFile && originalWidth == 0 && originalHeight == 0 && currentMode == "pixel"
    {
      hasFile := false;
      originalWidth := 0;
      originalHeight := 0;
      currentMode := "pixel";
      aspectLocked := true;
      widthValue := Empty;
      heightValue := Empty;
      scaleValue := 100;
    }

    /** `setMode`. */
    method SetMode(mode: string)
      modifies this`currentMode
      ensures currentMode == mode
    {
      currentMode := mode;
    }

    /** The image has loaded: both inputs take its size. */
    method ImageLoaded(w: nat, h: nat)
      modifies this`hasFile, this`originalWidth, this`originalHeight, this`widthValue, this`heightValue
      ensures hasFile && originalWidth == w && originalHeight == h
      ensures widthValue == Number(w as int) && heightValue == Number(h as int)
    {
      hasFile := true;
      originalWidth := w;
      originalHeight := h;
      widthValue := Number(w);
      heightValue := Number(h);
    }

    /** The width box's `input` event: under the lock, with a known
        original width, the height follows. */
    method WidthInput(v: BoxText)
      modifies this`widthValue, this`heightValue
      ensures widthValue == v
      ensures aspectLocked && originalWidth > 0 ==> heightValue == Scaled(v, originalHeight, originalWidth)
      ensures !(aspectLocked && originalWidth > 0) ==> heightValue == old(heightValue)
    {
      widthValue := v;
      if aspectLocked && originalWidth > 0 {
        heightValue := Scaled(v, originalHeight, originalWidth);
      }
    }

    /** The height box's `input` event: the guard tests the original
        width, and the ratio divides by the original height. */
    method HeightInput(v: BoxText)
      modifies this`widthValue, this`heightValue
      ensures heightValue == v
      ensures aspectLocked && originalWidth > 0 ==> widthValue == Scaled(v, originalWidth, originalHeight)
      ensures !(aspectLocked && originalWidth > 0) ==> widthValue == old(widthValue)
    {
      heightValue := v;
      if aspectLocked && originalWidth > 0 {
        widthValue := Scaled(v, originalWidth, originalHeight);
      }
    }

    /** `adjustValue`: step one box, then fire its `input` event. */
    method AdjustValue(onWidth: bool, delta: int)
      modifies this`widthValue, this`heightValue
      ensures onWidth ==> widthValue == Number(Adjusted(old(widthValue), delta))
      ensures !onWidth ==> heightValue == Number(Adjusted(old(heightValue), delta))
    {
      if onWidth {
        WidthInput(Number(Adjusted(widthValue, delta)));
      } else {
        HeightInput(Number(Adjusted(heightValue, delta)));
      }
    }

    /** The size the resize button checks: the boxes' numbers (0 when
        none) in pixel mode, the scaled original otherwise. */
    function Target(): (int, int)
      reads this
    {
      if currentMode == "pixel" then (OrZero(widthValue), OrZero(heightValue))
      else PercentTarget(originalWidth, originalHeight, scaleValue)
    }

    /** The resize button. `confirmed` is the answer the confirmation
        dialog would give; `hasCredits` is the credit manager's answer, or
        `None` without a credit manager. Nothing here changes state. */
    method ResizeClick(loggedIn: bool, hasCredits: Option<bool>, confirmed: bool) returns (d: Decision)
      ensures !hasFile <==> d.NoFile?
      ensures d.Send? ==> d.width <= MaxDimension && d.height <= MaxDimension
                          && d.width * d.height <= MaxTotalPixels
      ensures d.Send? && d.width * d.height > ConfirmPixels ==> confirmed
      ensures d.Send? && loggedIn ==> hasCredits != Some(false)
      ensures !loggedIn && d.NoCredits? ==> false
      ensures d.Send? && currentMode == "pixel" ==>
                d.request == PixelRequest(widthValue, heightValue)
                && d.width == OrZero(widthValue) && d.height == OrZero(heightValue)
      ensures d.Send? && currentMode != "pixel" ==>
                d.request == PercentRequest(scaleValue)
                && (d.width, d.height) == PercentTarget(originalWidth, originalHeight, scaleValue)
      ensures hasFile ==> (d.SideTooLarge? <==> Target().0 > MaxDimension || Target().1 > MaxDimension)
      ensures hasFile && Target().0 <= MaxDimension && Target().1 <= MaxDimension ==>
                (d.TooManyPixels? <==> Target().0 * Target().1 > MaxTotalPixels)
      ensures (hasFile && Target().0 <= MaxDimension && Target().1 <= MaxDimension
               && Target().0 * Target().1 <= MaxTotalPixels) ==>
                (d.Declined? <==> Target().0 * Target().1 > ConfirmPixels && !confirmed)
      ensures (&& hasFile && Target().0 <= MaxDimension && Target().1 <= MaxDimension
               && Target().0 * Target().1 <= MaxTotalPixels
               && (Target().0 * Target().1 > ConfirmPixels ==> confirmed)
               && !(loggedIn && hasCredits == Some(false)))
              ==> d.Send?
    {
      if !hasFile {
        return NoFile;
      }
      var (w, h) := Target();
      if w > MaxDimension || h > MaxDimension {
        return SideTooLarge(w, h);
      }
      var total := w * h;
      if total > MaxTotalPixels {
        return TooManyPixels(total);
      }
      if total > ConfirmPixels && !confirmed {
        return Declined;
      }
      if loggedIn && hasCredits == Some(false) {
        return NoCredits;
      }
      var request := if currentMode == "pixel" then PixelRequest(widthValue, heightValue)
                     else PercentRequest(scaleValue);
      d := Send(request, w, h);
    }
  }

  /** A pixel-mode request the page sends with two numbers passes the
      server's size checks. */
  lemma PixelRequestPassesServer(w: int, h: int)
    requires w <= MaxDimension && h <= MaxDimension && w * h <= MaxTotalPixels
    ensures AppRules.ResizeCheck(AppRules.ResizeTarget(Some("pixel"), 0, 0, Some(w), Some(h), None)).ResizeTo?
  {
  }

  /** A percent-mode request the page sends passes the server's size
      checks too: the server truncates where the page rounds, so its
      sides are no larger. */
  lemma PercentRequestPassesServer(ow: nat, oh: nat, scale: nat)
    requires var (w, h) := PercentTarget(ow, oh, scale);
             w <= MaxDimension && h <= MaxDimension && w * h <= MaxTotalPixels
    ensures AppRules.ResizeCheck(AppRules.ResizeTarget(Some("percent"), ow, oh, None, None, Some(scale))).ResizeTo?
  {
    TruncatedBelowRounded(ow, scale);
    TruncatedBelowRounded(oh, scale);
    var (w, h) := PercentTarget(ow, oh, scale);
    ProductMonotone(AppRules.TruncDiv(ow * scale, 100), AppRules.TruncDiv(oh * scale, 100), w, h);
  }
}

=== FILE: review_modal.dfy ===
/** The review prompt (static/js/review-modal.js): the stored state, when
    the prompt may be shown, and how showing it, "remind me later",
    "don't ask again", a submitted review and tool use change the state.
    Times are millisecond timestamps passed in by the caller; a stored
    timestamp is `None` where the page stores `null`. */
module ReviewModal {
  import opened Wrappers

  const DayMs: int := 24 * 60 * 60 * 1000
  const PromptGapMs: int := 300000
  /** The tool-use count at which the prompt is offered. */
  const ToolUsageTrigger: nat := 5
  /** After this many remind-laters the prompt is meant to stop for good. */
  const MaxRemindLater: nat := 3

  datatype ReviewState = ReviewState(
    hasReviewed: bool,
    permanentlyDismissed: bool,
    remindLaterCount: nat,
    lastRemindLater: Option<int>,
    toolUsageCount: nat,
    firstVisit: int,
    lastReviewPrompt: Option<int>)

  /** The state with nothing stored. */
  function DefaultState(now: int): (s: ReviewState)
    ensures !s.hasReviewed && !s.permanentlyDismissed
    ensures s.remindLaterCount == 0 && s.toolUsageCount == 0
    ensures s.lastRemindLater == None && s.lastReviewPrompt == None && s.firstVisit == now
  {
    ReviewState(false, false, 0, None, 0, now, None)
  }

  /** `loadState`: the stored state, or the default when nothing is
      stored or it does not parse. */
  function LoadState(stored: Option<ReviewState>, now: int): (s: ReviewState)
    ensures stored.Some? ==> s == stored.value
    ensures stored.None? ==> s == DefaultState(now)
  {
    match stored
    case Some(saved) => saved
    case None => DefaultState(now)
  }

  /** `canShowReview` as written: not after a review or a permanent
      dismissal, not within a day of a remind-later, not within five
      minutes of the last prompt. The number of remind-laters is not
      consulted. */
  predicate CanShowAsWritten(s: ReviewState, now: int) {
    !s.hasReviewed && !s.permanentlyDismissed
    && (s.lastRemindLater.Some? ==> now - s.lastRemindLater.value >= DayMs)
    && (s.lastReviewPrompt.Some? ==> now - s.lastReviewPrompt.value >= PromptGapMs)
  }

  /** The check as intended: the same, and never once the remind-later
      cap is reached. */
  predicate CanShow(s: ReviewState, now: int) {
    CanShowAsWritten(s, now) && s.remindLaterCount < MaxRemindLater
  }

  /** `show` records the prompt time. */
  function Shown(s: ReviewState, now: int): ReviewState {
    s.(lastReviewPrompt := Some(now))
  }

  /** `remindLater` counts the click and records its time. */
  function RemindedLater(s: ReviewState, now: int): ReviewState {
    s.(remindLaterCount := s.remindLaterCount + 1, lastRemindLater := Some(now))
  }

  /** `dismiss`. */
  function Dismissed(s: ReviewState): ReviewState {
    s.(permanentlyDismissed := true)
  }

  /** A review accepted by the server. */
  function Reviewed(s: ReviewState): ReviewState {
    s.(hasReviewed := true)
  }

  /** `shouldShowAgain`: from three remind-laters on, the state is marked
      permanently dismissed and the answer is no. */
  function ShouldShowAgain(s: ReviewState): (r: (ReviewState, bool))
    ensures r.1 <==> s.remindLaterCount < MaxRemindLater
    ensures r.1 ==> r.0 == s
    ensures !r.1 ==> r.0 == Dismissed(s)
  {
    if s.remindLaterCount >= MaxRemindLater then (Dismissed(s), false) else (s, true)
  }

  /** `initTriggers`' timer decision: `shouldShowAgain` is consulted only
      while no prompt has ever been shown. Gives the new state and whether
      the one-minute timer is set. */
  function InitTriggers(s: ReviewState): (r: (ReviewState, bool))
    ensures s.lastReviewPrompt.Some? ==> r == (s, false)
  {
    if s.hasReviewed || s.permanentlyDismissed then (s, false)
    else if s.lastReviewPrompt.None? then ShouldShowAgain(s)
    else (s, false)
  }

  /** The tool-use event as written: the count goes up, and the prompt is
      offered exactly when the count reaches 5 and `canShowReview` allows
      it; the remind-later count is not consulted. */
  function ToolUsed(s: ReviewState, now: int): (r: (ReviewState, bool))
    ensures r.0 == s.(toolUsageCount := s.toolUsageCount + 1)
    ensures r.1 <==> s.toolUsageCount + 1 == ToolUsageTrigger && CanShowAsWritten(r.0, now)
  {
    var t := s.(toolUsageCount := s.toolUsageCount + 1);
    (t, t.toolUsageCount == ToolUsageTrigger && CanShowAsWritten(t, now))
  }

  /** The tool-use event with the intended check: the same new state, and
      the offer also needs the remind-later cap not to be reached. */
  function ToolUsedIntended(s: ReviewState, now: int): (r: (ReviewState, bool))
    ensures r.0 == ToolUsed(s, now).0
    ensures r.1 <==> ToolUsed(s, now).1 && s.remindLaterCount < MaxRemindLater
  {
    var t := s.(toolUsageCount := s.toolUsageCount + 1);
    (t, t.toolUsageCount == ToolUsageTrigger && CanShow(t, now))
  }

  /** A reviewed or permanently dismissed state is never prompted, and a
      prompt or a remind-later just recorded blocks the next one for five
      minutes. Stated for `canShowReview` as written; the intended check
      only adds a conjunct, so it refuses wherever this one does. */
  lemma ShowBlocks(s: ReviewState, now: int, later: int)
    requires now <= later < now + PromptGapMs
    ensures s.hasReviewed || s.permanentlyDismissed ==> !CanShowAsWritten(s, later)
    ensures !CanShowAsWritten(Shown(s, now), later)
    ensures !CanShowAsWritten(RemindedLater(s, now), later)
    ensures !CanShowAsWritten(Dismissed(s), later) && !CanShowAsWritten(Reviewed(s), later)
    ensures !CanShowAsWritten(s, later) ==> !CanShow(s, later)
  {
  }

  /** Outside the windows, a fresh state may be prompted. */
  lemma FreshStateMayShow(now: int, later: int)
    ensures CanShow(DefaultState(now), later)
  {
  }

  /** No step lowers the remind-later count or clears a review or a
      dismissal, so once the intended check refuses for good it keeps
      refusing: three remind-laters end the prompts. */
  lemma CapIsFinal(s: ReviewState, now: int, later: int)
    requires s.remindLaterCount >= MaxRemindLater
    ensures !CanShow(s, later)
    ensures !CanShow(Shown(s, now), later) && !CanShow(RemindedLater(s, now), later)
    ensures !CanShow(InitTriggers(s).0, later) && !CanShow(ToolUsed(s, now).0, later)
    ensures !ToolUsedIntended(s, now).1
  {
  }

  /** The day of a remind-later in milliseconds after the first visit. */
  function Day(k: int): int { k * (DayMs + 1) }

  /** As written, three remind-laters do not end the prompts: after three
      rounds of prompt and remind-later, a new page load keeps the state
      as it is (a prompt has been shown, so the cap is not consulted), and
      a day later the check lets the prompt show a fourth time, for
      instance on the fifth tool use. */
  lemma RemindCapNotEnforced()
    ensures var s0 := DefaultState(0);
            var s3 := RemindedLater(Shown(RemindedLater(Shown(RemindedLater(Shown(s0, Day(1)), Day(1)), Day(2)), Day(2)), Day(3)), Day(3));
            s3.remindLaterCount == 3
            && InitTriggers(s3).0 == s3
            && !s3.permanentlyDismissed
            && CanShowAsWritten(s3, Day(4))
            && !CanShow(s3, Day(4))
            && ToolUsed(s3.(toolUsageCount := 4), Day(4)).1
            && !ToolUsedIntended(s3.(toolUsageCount := 4), Day(4)).1
  {
  }

  class ReviewModalManager {
    var state: ReviewState
    /** Whether `initTriggers` ran and registered the event listeners. */
    const listening: bool

    /** The constructor: the loaded state, then `init`, which sets up the
        triggers (and with them the event listeners) unless the loaded user
        has reviewed or dismissed. */
    constructor (stored: Option<ReviewState>, now: int)
      ensures state == InitTriggers(LoadState(stored, now)).0
      ensures listening <==> !(LoadState(stored, now).hasReviewed || LoadState(stored, now).permanentlyDismissed)
    {
      var loaded := LoadState(stored, now);
      var registers := !(loaded.hasReviewed || loaded.permanentlyDismissed);
      if registers {
        loaded := InitTriggers(loaded).0;
      }
      state := loaded;
      listening := registers;
    }

    /** `canShowReview` as written. */
    predicate CanShowReview(now: int)
      reads this
    {
      CanShowAsWritten(state, now)
    }

    /** `show`. */
    method Show(now: int)
      modifies this
      ensures state == Shown(old(state), now)
      ensures !CanShowReview(now)
    {
      state := state.(lastReviewPrompt := Some(now));
    }

    /** `remindLater`. */
    method RemindLater(now: int)
      modifies this
      ensures state == RemindedLater(old(state), now)
      ensures state.remindLaterCount == old(state.remindLaterCount) + 1
    {
      state := state.(remindLaterCount := state.remindLaterCount + 1);
      state := state.(lastRemindLater := Some(now));
    }

    /** `dismiss`. */
    method Dismiss()
      modifies this
      ensures state == Dismissed(old(state))
      ensures forall t :: !CanShowReview(t)
    {
      state := state.(permanentlyDismissed := true);
    }

    /** A review the server accepted. */
    method ReviewSubmitted()
      modifies this
      ensures state == Reviewed(old(state))
      ensures forall t :: !CanShowReview(t)
    {
      state := state.(hasReviewed := true);
    }

    /** The tool-use event. Returns whether the prompt is offered. Without
        the listener the event is not heard: nothing changes. */
    method ToolUse(now: int) returns (offer: bool)
      modifies this
      ensures listening ==> (state, offer) == ToolUsed(old(state), now)
      ensures !listening ==> state == old(state) && !offer
    {
      if !listening {
        return false;
      }
      state := state.(toolUsageCount := state.toolUsageCount + 1);
      offer := state.toolUsageCount == ToolUsageTrigger && CanShowReview(now);
    }
  }
}

=== FILE: service_worker.dfy ===
/** The service worker (static/service-worker.js): which strategy answers
    a request, which responses are stored, the trimming of a cache to its
    size limit, the clean-up of old caches on activation and the
    clear-cache message. The browser's cache storage is modelled as a map
    from cache name to the request keys it holds, oldest first. */
module ServiceWorker {
  import opened Wrappers

  const CacheVersion: string := "imgcraft-v1"
  const StaticCache: string := "imgcraft-v1-static"
  const ImageCache: string := "imgcraft-v1-images"
  const ApiCache: string := "imgcraft-v1-api"
  const CurrentCaches: seq<string> := [StaticCache, ImageCache, ApiCache]

  const ToolPages: seq<string> := ["/resize", "/compress", "/convert", "/crop", "/filter", "/watermark",
                                   "/collage", "/upscale", "/exif", "/palette", "/remove_bg"]

  /** `CACHE_LIMITS`, keyed by short names. */
  const CacheLimits: map<string, nat> := map["images" := 50, "api" := 100, "static" := 50]

  predicate StartsWith(s: string, prefix: string) {
    |prefix| <= |s| && s[..|prefix|] == prefix
  }

  /** A request as the fetch handler sees it: HTTP method, full URL (the cache
      key), path and destination. */
  datatype Request = Request(verb: string, url: string, pathname: string, destination: string)

  /** The strategy that answers a request. */
  datatype Route =
    | NotIntercepted
    | Favicon
    | NetworkFirst(cache: string)
    | CacheFirst(cache: string)
    | NetworkFirstOffline

  predicate IsApiPath(p: string) { StartsWith(p, "/api/") }
  predicate IsImage(r: Request) { r.destination == "image" || StartsWith(r.pathname, "/static/image/") }
  predicate IsStyleOrScript(r: Request) { r.destination == "style" || r.destination == "script" }
  predicate IsPage(p: string) { StartsWith(p, "/static/") || p == "/" || p in ToolPages }

  /** The fetch handler's decision, first match wins: anything but GET is
      left alone; then the favicon; then API calls network-first; then
      images cache-first; then styles and scripts cache-first; then static
      files, the home page and the tool pages network-first; then the
      network-first default with the offline page. */
  function RouteFor(r: Request): (route: Route)
    ensures r.verb != "GET" <==> route == NotIntercepted
    ensures route == Favicon <==> r.verb == "GET" && r.pathname == "/favicon.ico"
    ensures route == NetworkFirst(ApiCache) <==>
              r.verb == "GET" && r.pathname != "/favicon.ico" && IsApiPath(r.pathname)
    ensures route == CacheFirst(ImageCache) <==>
              r.verb == "GET" && r.pathname != "/favicon.ico" && !IsApiPath(r.pathname) && IsImage(r)
    ensures route == CacheFirst(StaticCache) <==>
              r.verb == "GET" && r.pathname != "/favicon.ico" && !IsApiPath(r.pathname) && !IsImage(r)
              && IsStyleOrScript(r)
    ensures route == NetworkFirst(StaticCache) <==>
              r.verb == "GET" && r.pathname != "/favicon.ico" && !IsApiPath(r.pathname) && !IsImage(r)
              && !IsStyleOrScript(r) && IsPage(r.pathname)
    ensures route == NetworkFirstOffline <==>
              r.verb == "GET" && r.pathname != "/favicon.ico" && !IsApiPath(r.pathname) && !IsImage(r)
              && !IsStyleOrScript(r) && !IsPage(r.pathname)
  {
    if r.verb != "GET" then NotIntercepted
    else if r.pathname == "/favicon.ico" then Favicon
    else if IsApiPath(r.pathname) then NetworkFirst(ApiCache)
    else if IsImage(r) then CacheFirst(ImageCache)
    else if IsStyleOrScript(r) then CacheFirst(StaticCache)
    else if IsPage(r.pathname) then NetworkFirst(StaticCache)
    else NetworkFirstOffline
  }

  /** An API call is always answered network-first from the API cache,
      even when it asks for an image or a script. */
  lemma ApiAlwaysNetworkFirst(r: Request)
    requires r.verb == "GET" && r.pathname != "/favicon.ico" && IsApiPath(r.pathname)
    ensures RouteFor(r) == NetworkFirst(ApiCache)
  {
  }

  /** Every cache a route uses is one of the three current caches. */
  lemma RoutesUseCurrentCaches(r: Request)
    ensures RouteFor(r).NetworkFirst? || RouteFor(r).CacheFirst? ==> RouteFor(r).cache in CurrentCaches
  {
  }

  /** The limit as written: `CACHE_LIMITS[cacheName] || 50` looks the full
      cache name up among the short keys. */
  function LimitAsWritten(cacheName: string): (n: nat)
    ensures n > 0
    ensures cacheName !in CacheLimits ==> n == 50
  {
    if cacheName in CacheLimits && CacheLimits[cacheName] != 0 then CacheLimits[cacheName] else 50
  }

  /** No cache name ever matches a key, so every cache gets 50 and the API
      cache's 100 is never used. */
  lemma ApiLimitIgnored()
    ensures LimitAsWritten(ApiCache) == 50
    ensures LimitAsWritten(ImageCache) == 50 && LimitAsWritten(StaticCache) == 50
    ensures CacheLimits["api"] == 100
  {
    assert ApiCache !in CacheLimits;
  }

  /** The limit as intended: the entry for the cache's short name. */
  function LimitFor(cacheName: string): (n: nat)
    ensures cacheName == ApiCache ==> n == CacheLimits["api"]
    ensures cacheName == ImageCache ==> n == CacheLimits["images"]
    ensures cacheName == StaticCache ==> n == CacheLimits["static"]
    ensures n > 0
  {
    if cacheName == ApiCache then CacheLimits["api"]
    else if cacheName == ImageCache then CacheLimits["images"]
    else if cacheName == StaticCache then CacheLimits["static"]
    else 50
  }

  predicate Distinct(s: seq<string>) {
    forall i, j :: 0 <= i < j < |s| ==> s[i] != s[j]
  }

  /** The list without one key. */
  function Without(s: seq<string>, k: string): (r: seq<string>)
    ensures k !in r
    ensures forall x :: x in r <==> x in s && x != k
    ensures Distinct(s) ==> Distinct(r)
    ensures k !in s ==> r == s
    ensures |r| <= |s|
  {
    if |s| == 0 then []
    else if s[0] == k then Without(s[1..], k)
    else
      assert Distinct(s) ==> s[0] !in s[1..];
      [s[0]] + Without(s[1..], k)
  }

  /** Deleting the oldest key of a list of distinct keys drops its head. */
  lemma WithoutHead(s: seq<string>)
    requires |s| > 0 && Distinct(s)
    ensures Without(s, s[0]) == s[1..]
  {
    assert s[0] !in s[1..];
  }

  /** The keys a cache holds, none when it does not exist. */
  function KeysIn(c: map<string, seq<string>>, name: string): seq<string> {
    if name in c then c[name] else []
  }

  /** The caches after `cache.put`: the key moves to the newest end of the
      named cache, which is opened if it did not exist. */
  function PutInto(c: map<string, seq<string>>, name: string, key: string): (r: map<string, seq<string>>)
    ensures KeysIn(r, name) == Without(KeysIn(c, name), key) + [key]
  {
    c[name := Without(KeysIn(c, name), key) + [key]]
  }

  /** The caches after `enforceCacheLimit(name, max)`: above the limit the
      newest `max` keys remain; the named cache is opened either way. */
  function Trim(c: map<string, seq<string>>, name: string, max: nat): (r: map<string, seq<string>>)
    ensures name in r && |r[name]| == if |KeysIn(c, name)| > max then max else |KeysIn(c, name)|
    ensures r[name] == KeysIn(c, name)[|KeysIn(c, name)| - |r[name]|..]
    ensures forall n :: n != name ==> (n in r <==> n in c)
    ensures forall n :: n in c && n != name ==> r[n] == c[n]
  {
    var keys := KeysIn(c, name);
    if |keys| > max then c[name := keys[|keys| - max..]] else c[name := keys]
  }

  /** Trimming to a positive limit keeps the newest key. */
  lemma TrimKeepsNewest(c: map<string, seq<string>>, name: string, max: nat)
    requires max > 0 && |KeysIn(c, name)| > 0
    ensures KeysIn(c, name)[|KeysIn(c, name)| - 1] in Trim(c, name, max)[name]
  {
    var keys := KeysIn(c, name);
    var kept := Trim(c, name, max)[name];
    assert kept[|kept| - 1] == keys[|keys| - 1];
  }

  /** A 200 response stored and its cache trimmed to `max`. */
  function StoredAndTrimmed(c: map<string, seq<string>>, name: string, key: string, max: nat)
    : map<string, seq<string>>
  {
    Trim(PutInto(c, name, key), name, max)
  }

  /** As written, the API cache is trimmed at 50: when it holds 50 other
      keys, storing a 51st response evicts the oldest one, which the
      intended limit of 100 would keep. */
  lemma FiftyFirstApiResponseEvicts(c: map<string, seq<string>>, key: string)
    requires |KeysIn(c, ApiCache)| == 50 && Distinct(KeysIn(c, ApiCache)) && key !in KeysIn(c, ApiCache)
    ensures KeysIn(StoredAndTrimmed(c, ApiCache, key, LimitAsWritten(ApiCache)), ApiCache)
            == KeysIn(c, ApiCache)[1..] + [key]
    ensures KeysIn(StoredAndTrimmed(c, ApiCache, key, LimitFor(ApiCache)), ApiCache)
            == KeysIn(c, ApiCache) + [key]
  {
    ApiLimitIgnored();
    var keys := KeysIn(c, ApiCache);
    assert Without(keys, key) == keys;
    assert (keys + [key])[1..] == keys[1..] + [key];
  }

  /** The answer a fetch event gives. */
  datatype Answer = Passthrough | FromCache | FromNetwork(status: int) | NetworkError | OfflinePage | OfflineJson

  /** What the fetch handler falls back to when the network fails and
      nothing is cached: the offline page for documents, a 503 otherwise. */
  function OfflineAnswer(r: Request): Answer {
    if r.destination == "document" then OfflinePage else OfflineJson
  }

  class CacheStore {
    /** Cache name to request keys, oldest first. */
    var caches: map<string, seq<string>>

    predicate Valid()
      reads this
    {
      forall n :: n in caches ==> Distinct(caches[n])
    }

    function Keys(name: string): seq<string>
      reads this
    {
      KeysIn(caches, name)
    }

    /** A key held by any cache (`caches.match`). */
    predicate Holds(key: string)
      reads this
    {
      exists n :: n in caches && key in caches[n]
    }

    constructor ()
      ensures Valid() && caches == map[]
    {
      caches := map[];
    }

    /** `cache.put`: the key moves to the newest end. */
    method Put(name: string, key: string)
      requires Valid()
      modifies this
      ensures Valid()
      ensures caches == PutInto(old(caches), name, key)
    {
      var kept := Without(Keys(name), key);
      caches := caches[name := kept + [key]];
    }

    /** `enforceCacheLimit`: above the limit, delete the oldest
        `length - max` keys one by one, leaving the newest `max`; at or
        under it, change nothing. */
    method EnforceCacheLimit(name: string, max: nat)
      requires Valid()
      modifies this
      ensures Valid()
      ensures caches == Trim(old(caches), name, max)
      ensures |old(Keys(name))| > max ==> Keys(name) == old(Keys(name))[|old(Keys(name))| - max..]
      ensures |old(Keys(name))| <= max ==> Keys(name) == old(Keys(name))
    {
      if name !in caches {
        caches := caches[name := []];
      }
      var keys := caches[name];
      if |keys| > max {
        var itemsToDelete := |keys| - max;
        var i := 0;
        while i < itemsToDelete
          invariant 0 <= i <= itemsToDelete
          invariant Valid()
          invariant name in caches && caches[name] == keys[i..]
          invariant caches == old(caches)[name := keys[i..]]
        {
          WithoutHead(keys[i..]);
          assert keys[i..][0] == keys[i] && keys[i..][1..] == keys[i + 1..];
          caches := caches[name := Without(caches[name], keys[i])];
          i := i + 1;
        }
      }
    }

    /** A successful response is stored and the cache trimmed to the
        limit as written, 50 for every cache; any other status stores
        nothing. */
    method StoreAndTrim(name: string, key: string, status: int)
      requires Valid()
      modifies this
      ensures Valid()
      ensures status != 200 ==> caches == old(caches)
      ensures status == 200 ==> caches == StoredAndTrimmed(old(caches), name, key, LimitAsWritten(name))
      ensures status == 200 ==> name in caches && key in caches[name] && |caches[name]| <= LimitAsWritten(name)
      ensures status == 200 && name !in CacheLimits ==> |caches[name]| <= 50
    {
      if status == 200 {
        ghost var put := PutInto(caches, name, key);
        Put(name, key);
        assert KeysIn(put, name)[|KeysIn(put, name)| - 1] == key;
        TrimKeepsNewest(put, name, LimitAsWritten(name));
        EnforceCacheLimit(name, LimitAsWritten(name));
      }
    }

    /** The fetch handler. `network` is the status the network answers
        with, or `None` when the request fails or takes over 8 seconds. */
    method HandleFetch(r: Request, network: Option<int>) returns (answer: Answer)
      requires Valid()
      modifies this
      ensures Valid()
      ensures RouteFor(r) == NotIntercepted ==> answer == Passthrough && caches == old(caches)
      ensures network.None? || network.value != 200 ==> caches == old(caches)
      ensures network == Some(200) ==> caches == match RouteFor(r)
                case NotIntercepted => old(caches)
                case Favicon =>
                  if "/favicon.ico" in old(Keys(StaticCache)) then old(caches)
                  else PutInto(old(caches), StaticCache, "/favicon.ico")
                case CacheFirst(name) =>
                  if old(Holds(r.url)) then old(caches)
                  else StoredAndTrimmed(old(caches), name, r.url, LimitAsWritten(name))
                case NetworkFirst(name) => StoredAndTrimmed(old(caches), name, r.url, LimitAsWritten(name))
                case NetworkFirstOffline => PutInto(old(caches), StaticCache, r.url)
      ensures (RouteFor(r).CacheFirst? || RouteFor(r) == Favicon) && answer.FromNetwork? ==> network == Some(answer.status)
      ensures RouteFor(r) == Favicon ==>
                answer == (if "/favicon.ico" in old(Keys(StaticCache)) then FromCache
                           else if network.None? then NetworkError
                           else FromNetwork(network.value))
      ensures RouteFor(r).CacheFirst? ==>
                answer == (if old(Holds(r.url)) then FromCache
                           else if network.Some? then FromNetwork(network.value)
                           else OfflineAnswer(r))
      ensures RouteFor(r) == NetworkFirstOffline ==>
                answer == (if network.Some? then FromNetwork(network.value)
                           else if old(Holds(r.url)) then FromCache
                           else OfflineAnswer(r))
      ensures RouteFor(r).NetworkFirst? && network.Some? ==> answer == FromNetwork(network.value)
      ensures RouteFor(r).NetworkFirst? && network.None? ==>
                answer == (if old(Holds(r.url)) then FromCache else OfflineAnswer(r))
    {
      var route := RouteFor(r);
      match route
      case NotIntercepted =>
        answer := Passthrough;
      case Favicon =>
        if "/favicon.ico" in Keys(StaticCache) {
          answer := FromCache;
        } else if network.None? {
          answer := NetworkError;
        } else {
          if network.value == 200 {
            Put(StaticCache, "/favicon.ico");
          }
          answer := FromNetwork(network.value);
        }
      case CacheFirst(name) =>
        if Holds(r.url) {
          answer := FromCache;
        } else if network.None? {
          answer := OfflineAnswer(r);
        } else {
          StoreAndTrim(name, r.url, network.value);
          answer := FromNetwork(network.value);
        }
      case NetworkFirst(name) =>
        if network.Some? {
          StoreAndTrim(name, r.url, network.value);
          answer := FromNetwork(network.value);
        } else if Holds(r.url) {
          answer := FromCache;
        } else {
          answer := OfflineAnswer(r);
        }
      case NetworkFirstOffline =>
        if network.Some? {
          if network.value == 200 {
            Put(StaticCache, r.url);
          }
          answer := FromNetwork(network.value);
        } else if Holds(r.url) {
          answer := FromCache;
        } else {
          answer := OfflineAnswer(r);
        }
    }

    /** The activate handler: delete every cache whose name starts with
        "imgcraft-" and is not one of the three current ones. */
    method Activate()
      requires Valid()
      modifies this
      ensures Valid()
      ensures caches == map n | n in old(caches) && (n in CurrentCaches || !StartsWith(n, "imgcraft-")) :: old(caches)[n]
    {
      var remaining := caches.Keys;
      ghost var start := caches;
      while remaining != {}
        invariant remaining <= start.Keys
        invariant Valid()
        invariant caches.Keys <= start.Keys
        invariant forall n :: n in caches ==> caches[n] == start[n]
        invariant forall n :: n in start && n !in remaining ==>
                    (n in caches <==> n in CurrentCaches || !StartsWith(n, "imgcraft-"))
        invariant forall n :: n in remaining ==> n in caches
        decreases remaining
      {
        var name :| name in remaining;
        if name !in CurrentCaches && StartsWith(name, "imgcraft-") {
          caches := map n | n in caches && n != name :: caches[n];
        }
        remaining := remaining - {name};
      }
    }

    /** The clear-cache message: delete the named caches, or the three
        current ones when no names are given. */
    method HandleClearCache(names: Option<seq<string>>)
      requires Valid()
      modifies this
      ensures Valid()
      ensures var gone := match names case None => CurrentCaches case Some(ns) => ns;
              caches == map n | n in old(caches) && n !in gone :: old(caches)[n]
    {
      var gone := match names case None => CurrentCaches case Some(ns) => ns;
      var i := 0;
      while i < |gone|
        invariant 0 <= i <= |gone|
        invariant Valid()
        invariant caches == map n | n in old(caches) && n !in gone[..i] :: old(caches)[n]
      {
        caches := map n | n in caches && n != gone[i] :: caches[n];
        assert gone[..i + 1] == gone[..i] + [gone[i]];
        i := i + 1;
      }
      assert gone[..i] == gone;
    }
  }
}

=== FILE: settlement.dfy ===
/** The synchronous payment confirmation (`verify_payment` in app.py): the
    client reports an order id, a payment id and a signature; the server checks
    them, reads the order from the gateway, records the payment and adds the
    purchased credits. Gateway answers and store errors are inputs (`Env`). */
module Settlement {
  import opened Wrappers
  import opened Store
  import Text
  import RazorpayClient
  import CreditManager

  /** What fetching the payment from the gateway gave: it raised, reported a
      failure, or returned the payment's amount (paise) and currency. */
  datatype PaymentFetch = FetchRaised | FetchFailed | Fetched(amount: Option<int>, currency: Option<string>)

  /** What fetching the order gave: it raised, or returned the order's notes. */
  datatype OrderFetch = OrderRaised | OrderFetched(notes: map<string, string>)

  /** The insert of the payment row: it went through, returned no data, or raised. */
  datatype InsertFault = InsertOk | InsertEmpty | InsertRaised

  /** Everything outside the server's own code that one confirmation depends on. */
  datatype Env = Env(expectedSignature: string, payment: PaymentFetch, order: OrderFetch,
                     lookupFails: bool, insert: InsertFault, addFails: bool,
                     markFails: bool, exc: string)

  /** The client's request body. */
  datatype Request = Request(orderId: Option<string>, paymentId: Option<string>,
                             signature: Option<string>)

  /** The HTTP status and JSON body of the reply. */
  datatype Response = Response(status: int, success: bool, text: string,
                               creditsAdded: Option<int>, newBalance: Option<int>)

  predicate Truthy(s: Option<string>) { s.Some? && s.value != "" }

  /** `int(notes.get('credits', 0))`: a missing entry is 0, an unparsable one
      raises (None). */
  function CreditsInNotes(notes: map<string, string>): Option<int> {
    if "credits" in notes then Text.ParseInt(notes["credits"]) else Some(0)
  }

  function Reject(status: int, text: string): Response {
    Response(status, false, text, None, None)
  }

  /** The row the confirmation inserts. */
  function NewRow(user: UserId, req: Request, paid: Option<int>, currency: Option<string>,
                  credits: int, plan: string): PaymentRow
    requires Truthy(req.orderId) && Truthy(req.paymentId) && Truthy(req.signature)
  {
    PaymentRow(user, req.orderId.value, req.paymentId, req.signature.value,
               paid.GetOr(0) / 100, currency.GetOr("INR"), credits, plan, Completed, None)
  }

  /** The outcome of the checks before the store is touched (steps 1 to 3):
      a refusal, or the credit count and plan name read from the order. */
  datatype Checked = Refused(resp: Response) | Accepted(credits: int, plan: string)

  function Precheck(req: Request, env: Env): (c: Checked)
    ensures c.Accepted? <==>
              && Truthy(req.orderId) && Truthy(req.paymentId) && Truthy(req.signature)
              && req.signature.value == env.expectedSignature
              && env.payment.Fetched? && env.order.OrderFetched?
              && CreditsInNotes(env.order.notes).Some?
              && CreditsInNotes(env.order.notes).value > 0
    ensures c.Accepted? ==> c.credits == CreditsInNotes(env.order.notes).value && c.credits > 0
  {
    if !(Truthy(req.orderId) && Truthy(req.paymentId) && Truthy(req.signature)) then
      Refused(Reject(400, "Missing payment parameters"))
    else if !RazorpayClient.VerifyPaymentSignature(req.signature.value, env.expectedSignature) then
      Refused(Reject(400, "Invalid payment signature"))
    else if env.payment.FetchFailed? then
      Refused(Reject(500, "Failed to fetch payment details from Razorpay"))
    else if env.payment.FetchRaised? then
      Refused(Reject(500, "Error fetching payment details: " + env.exc))
    else if env.order.OrderRaised? || CreditsInNotes(env.order.notes).None? then
      Refused(Reject(500, "Error fetching order details: " + env.exc))
    else if CreditsInNotes(env.order.notes).value <= 0 then
      Refused(Reject(400, "Invalid credits amount"))
    else
      var notes := env.order.notes;
      Accepted(CreditsInNotes(notes).value, if "plan_id" in notes then notes["plan_id"] else "unknown")
  }

  /** Steps 4 to 6 on a snapshot: the duplicate check, the insert and the credit. */
  function RecordSpec(t: Tables, user: UserId, req: Request, env: Env, credits: int, plan: string)
    : (Tables, Response)
    requires Truthy(req.orderId) && Truthy(req.paymentId) && Truthy(req.signature)
    requires env.payment.Fetched?
  {
    var pid := req.paymentId.value;
    if !env.lookupFails && HasPaymentId(t.payments, pid) then
      (t, Response(200, true, "Payment already processed", Some(credits), None))
    else if env.insert.InsertRaised? || HasPaymentId(t.payments, pid) then
      // a raised insert, or the unique key on the payment id refusing a second row
      (t, Reject(500, "Database error: " + env.exc))
    else if env.insert.InsertEmpty? then
      (t, Reject(500, "Failed to create payment record"))
    else
      var row := NewRow(user, req, env.payment.amount, env.payment.currency, credits, plan);
      var t1 := t.(payments := t.payments + [row]);
      var (t2, added) := CreditManager.AddSpec(t1, user, credits, env.addFails, env.exc);
      if added.AddErr? then
        if env.markFails then
          (t1, Reject(500, "Failed to add credits: " + env.exc))
        else
          (t1.(payments := SetStatusByPaymentId(t1.payments, pid, Failed, Some(added.error))),
           Reject(500, "Payment verified but failed to add credits: " + added.error))
      else
        (t2, Response(200, true, "Payment verified and credits added successfully",
                      Some(credits), added.remaining))
  }

  /** The whole confirmation on a snapshot of the store. */
  function SettleSpec(t: Tables, user: UserId, req: Request, env: Env): (Tables, Response)
  {
    match Precheck(req, env)
    case Refused(resp) => (t, resp)
    case Accepted(credits, plan) => RecordSpec(t, user, req, env, credits, plan)
  }

  /** Missing parameters, a bad signature or a non-positive credit count in
      the order's notes are refused with 400 and write nothing. */
  lemma EarlyRejectionsWriteNothing(t: Tables, user: UserId, req: Request, env: Env)
    requires || !(Truthy(req.orderId) && Truthy(req.paymentId) && Truthy(req.signature))
             || req.signature.value != env.expectedSignature
             || (env.payment.Fetched? && env.order.OrderFetched?
                 && CreditsInNotes(env.order.notes).Some? && CreditsInNotes(env.order.notes).value <= 0)
    ensures SettleSpec(t, user, req, env).0 == t
    ensures SettleSpec(t, user, req, env).1.status == 400
  {
  }

  /** A payment id already recorded is answered "already processed" with no
      insert and no credit. */
  lemma DuplicateIsAnsweredWithoutWriting(t: Tables, user: UserId, req: Request, env: Env)
    requires Truthy(req.orderId) && Truthy(req.paymentId) && Truthy(req.signature)
    requires req.signature.value == env.expectedSignature
    requires env.payment.Fetched? && env.order.OrderFetched?
    requires CreditsInNotes(env.order.notes).Some? && CreditsInNotes(env.order.notes).value > 0
    requires !env.lookupFails && HasPaymentId(t.payments, req.paymentId.value)
    ensures SettleSpec(t, user, req, env) ==
            (t, Response(200, true, "Payment already processed",
                         CreditsInNotes(env.order.notes), None))
  {
  }

  /** A fresh, valid confirmation inserts exactly one completed row whose amount
      is the paise amount floor-divided by 100, and adds the order's credits to
      the buyer's balance exactly once. */
  lemma FreshPaymentCreditsOnce(t: Tables, user: UserId, req: Request, env: Env)
    requires Truthy(req.orderId) && Truthy(req.paymentId) && Truthy(req.signature)
    requires req.signature.value == env.expectedSignature
    requires env.payment.Fetched? && env.order.OrderFetched?
    requires CreditsInNotes(env.order.notes).Some? && CreditsInNotes(env.order.notes).value > 0
    requires !HasPaymentId(t.payments, req.paymentId.value)
    requires env.insert.InsertOk? && !env.addFails && user in t.credits
    ensures var (t', resp) := SettleSpec(t, user, req, env);
            var n := CreditsInNotes(env.order.notes).value;
            && resp.status == 200 && resp.creditsAdded == Some(n)
            && |t'.payments| == |t.payments| + 1
            && t'.payments[..|t.payments|] == t.payments
            && t'.payments[|t.payments|].status == Completed
            && t'.payments[|t.payments|].paymentId == req.paymentId
            && t'.payments[|t.payments|].amount == env.payment.amount.GetOr(0) / 100
            && t'.payments[|t.payments|].credits == n
            && user in t'.credits
            && t'.credits[user].remaining == t.credits[user].remaining + n
            && resp.newBalance == Some(t'.credits[user].remaining)
  {
  }

  /** When adding the credits fails after the insert, the inserted row is
      marked failed, the balance is untouched and the reply is an error. */
  lemma CreditFailureMarksRowFailed(t: Tables, user: UserId, req: Request, env: Env)
    requires Truthy(req.orderId) && Truthy(req.paymentId) && Truthy(req.signature)
    requires req.signature.value == env.expectedSignature
    requires env.payment.Fetched? && env.order.OrderFetched?
    requires CreditsInNotes(env.order.notes).Some? && CreditsInNotes(env.order.notes).value > 0
    requires !HasPaymentId(t.payments, req.paymentId.value)
    requires env.insert.InsertOk? && env.addFails && !env.markFails
    ensures var (t', resp) := SettleSpec(t, user, req, env);
            && resp.status == 500 && !resp.success
            && t'.credits == t.credits
            && |t'.payments| == |t.payments| + 1
            && t'.payments[|t.payments|].status == Failed
            && t'.payments[..|t.payments|] == t.payments
  {
    var (t', _) := SettleSpec(t, user, req, env);
    var pid := req.paymentId.value;
    forall i | 0 <= i < |t.payments| ensures t'.payments[i] == t.payments[i] {
      assert t.payments[i].paymentId != Some(pid);
    }
  }

  /** With the payment id already recorded, a confirmation writes nothing,
      whichever of the duplicate check or the unique key stops it. */
  lemma RecordedPaymentWritesNothing(t: Tables, user: UserId, req: Request, env: Env)
    requires req.paymentId.Some? && HasPaymentId(t.payments, req.paymentId.value)
    ensures SettleSpec(t, user, req, env).0 == t
  {
  }

  /** A successful record step leaves the payment id in the `payments` table. */
  lemma RecordSuccessKeepsRow(t: Tables, user: UserId, req: Request, env: Env,
                              credits: int, plan: string)
    requires Truthy(req.orderId) && Truthy(req.paymentId) && Truthy(req.signature)
    requires env.payment.Fetched?
    requires RecordSpec(t, user, req, env, credits, plan).1.status == 200
    ensures HasPaymentId(RecordSpec(t, user, req, env, credits, plan).0.payments, req.paymentId.value)
  {
    var pid := req.paymentId.value;
    if env.lookupFails || !HasPaymentId(t.payments, pid) {
      var row := NewRow(user, req, env.payment.amount, env.payment.currency, credits, plan);
      var t1 := t.(payments := t.payments + [row]);
      var t2 := CreditManager.AddSpec(t1, user, credits, env.addFails, env.exc).0;
      assert t2.payments == t1.payments;
      assert t1.payments[|t.payments|].paymentId == Some(pid);
    }
  }

  /** Once a confirmation has succeeded, repeating it for the same payment id,
      by any caller and even when the duplicate lookup errs, changes nothing:
      along the callback path the balance grows at most once per payment id. */
  lemma SecondCallbackChangesNothing(t: Tables, user: UserId, req: Request, env: Env,
                                     user2: UserId, env2: Env)
    requires SettleSpec(t, user, req, env).1.status == 200
    ensures var t1 := SettleSpec(t, user, req, env).0;
            SettleSpec(t1, user2, req, env2).0 == t1
  {
    var c := Precheck(req, env);
    assert c.Accepted?;
    RecordSuccessKeepsRow(t, user, req, env, c.credits, c.plan);
    RecordedPaymentWritesNothing(SettleSpec(t, user, req, env).0, user2, req, env2);
  }

  /** What a successful confirmation of an unrecorded payment id did: it
      appended the new completed row and added the order's credits to an
      existing balance. */
  lemma SuccessAppendsRowAndCredits(t: Tables, user: UserId, req: Request, env: Env)
    requires req.paymentId.Some?
    requires SettleSpec(t, user, req, env).1.status == 200
    requires !HasPaymentId(t.payments, req.paymentId.value)
    ensures Precheck(req, env).Accepted?
    ensures var c := Precheck(req, env);
            var t1 := SettleSpec(t, user, req, env).0;
            && t1.payments == t.payments + [NewRow(user, req, env.payment.amount,
                                                   env.payment.currency, c.credits, c.plan)]
            && user in t.credits && user in t1.credits
            && t1.credits[user].remaining == t.credits[user].remaining + c.credits
  {
  }

  /** The confirmation on the store object. */
  method VerifyPayment(db: Db, user: UserId, req: Request, env: Env) returns (resp: Response)
    modifies db
    ensures (db.Snapshot(), resp) == SettleSpec(old(db.Snapshot()), user, req, env)
  {
    // Steps 1 to 3: the request, the signature, the payment and the order
    var checked := Precheck(req, env);
    if checked.Refused? {
      return checked.resp;
    }
    var credits, plan := checked.credits, checked.plan;
    // Step 4: the duplicate check; an error here is logged and ignored
    var pid := req.paymentId.value;
    if !env.lookupFails && HasPaymentId(db.payments, pid) {
      return Response(200, true, "Payment already processed", Some(credits), None);
    }
    // Step 5: the payment row
    if env.insert.InsertRaised? || HasPaymentId(db.payments, pid) {
      return Reject(500, "Database error: " + env.exc);
    }
    if env.insert.InsertEmpty? {
      return Reject(500, "Failed to create payment record");
    }
    db.payments := db.payments + [NewRow(user, req, env.payment.amount, env.payment.currency,
                                         credits, plan)];
    // Step 6: the credits
    var added := CreditManager.AddCredits(db, user, credits, env.addFails, env.exc);
    if added.AddErr? {
      if env.markFails {
        return Reject(500, "Failed to add credits: " + env.exc);
      }
      db.payments := SetStatusByPaymentId(db.payments, pid, Failed, Some(added.error));
      return Reject(500, "Payment verified but failed to add credits: " + added.error);
    }
    resp := Response(200, true, "Payment verified and credits added successfully",
                     Some(credits), added.remaining);
  }
}

=== FILE: store.dfy ===
/** The hosted relational store shared by the ledger, the settlement paths and
    the ad-free flow: the `user_credits`, `payments`, `tool_usage`,
    `user_profiles.ad_free` and `ad_free_purchases` tables, and the two stored
    procedures `deduct_credits` and `add_credits` the ledger calls. */
module Store {
  import opened Wrappers

  type UserId = string

  /** One `user_credits` row. */
  datatype CreditRow = CreditRow(total: int, remaining: int, free: int)

  datatype UsageStatus = UsageSuccess | UsageFailed

  /** One `tool_usage` row. */
  datatype UsageRecord = UsageRecord(user: UserId, tool: string, consumed: int,
                                     status: UsageStatus, error: Option<string>)

  datatype PayStatus = Pending | Completed | Failed

  /** One `payments` row. */
  datatype PaymentRow = PaymentRow(user: UserId, orderId: string, paymentId: Option<string>,
                                   signature: string, amount: int, currency: string,
                                   credits: int, plan: string, status: PayStatus,
                                   error: Option<string>)

  /** One `ad_free_purchases` row. */
  datatype Purchase = Purchase(user: UserId, orderId: string, paymentId: Option<string>,
                               plan: string, amountPaid: int, currency: string,
                               status: PayStatus)

  /** A snapshot of every table. */
  datatype Tables = Tables(credits: map<UserId, CreditRow>,
                           payments: seq<PaymentRow>,
                           usage: seq<UsageRecord>,
                           adFree: map<UserId, bool>,
                           purchases: seq<Purchase>)

  /** The JSON object the `deduct_credits` procedure answers with. */
  datatype DeductReply = DeductReply(success: bool, remaining: Option<int>,
                                     deducted: Option<int>, required: Option<int>,
                                     error: Option<string>)

  /** The JSON object the `add_credits` procedure answers with. */
  datatype AddReply = AddReply(total: Option<int>, remaining: Option<int>, added: Option<int>)

  /** The `deduct_credits` procedure: one atomic step that checks the balance,
      and if it suffices decrements it and appends a successful usage record;
      otherwise it changes nothing. */
  function DeductProc(t: Tables, user: UserId, tool: string, n: int): (r: (Tables, DeductReply))
    ensures r.1.success <==> user in t.credits && t.credits[user].remaining >= n
    ensures r.1.success ==>
      && r.0.credits == t.credits[user := t.credits[user].(remaining := t.credits[user].remaining - n)]
      && r.0.usage == t.usage + [UsageRecord(user, tool, n, UsageSuccess, None)]
      && r.0.payments == t.payments && r.0.adFree == t.adFree && r.0.purchases == t.purchases
      && r.1.remaining == Some(t.credits[user].remaining - n) && r.1.deducted == Some(n)
    ensures !r.1.success ==> r.0 == t && r.1.required == Some(n)
  {
    if user in t.credits && t.credits[user].remaining >= n then
      var row := t.credits[user];
      (t.(credits := t.credits[user := row.(remaining := row.remaining - n)],
          usage := t.usage + [UsageRecord(user, tool, n, UsageSuccess, None)]),
       DeductReply(true, Some(row.remaining - n), Some(n), None, None))
    else
      var remaining := if user in t.credits then Some(t.credits[user].remaining) else None;
      (t, DeductReply(false, remaining, None, Some(n), Some("Insufficient credits")))
  }

  /** The `add_credits` procedure: one atomic step adding `n` to the total and
      the remaining balance. An unknown account makes the call raise (None). */
  function AddProc(t: Tables, user: UserId, n: int): (r: Option<(Tables, AddReply)>)
    ensures r.Some? <==> user in t.credits
    ensures r.Some? ==>
      && r.value.0 == t.(credits := t.credits[user := CreditRow(t.credits[user].total + n,
                                                               t.credits[user].remaining + n,
                                                               t.credits[user].free)])
      && r.value.1.remaining == Some(t.credits[user].remaining + n)
  {
    if user in t.credits then
      var row := t.credits[user];
      var row' := row.(total := row.total + n, remaining := row.remaining + n);
      Some((t.(credits := t.credits[user := row']),
            AddReply(Some(row'.total), Some(row'.remaining), Some(n))))
    else None
  }

  /** Some `payments` row carries the given payment id. */
  predicate HasPaymentId(rows: seq<PaymentRow>, paymentId: string) {
    exists i :: 0 <= i < |rows| && rows[i].paymentId == Some(paymentId)
  }

  /** `update(...).eq('razorpay_payment_id', p)`: every row with that payment id
      gets the new status and error text. */
  function SetStatusByPaymentId(rows: seq<PaymentRow>, paymentId: string,
                                status: PayStatus, error: Option<string>): seq<PaymentRow>
  {
    seq(|rows|, i requires 0 <= i < |rows| =>
      if rows[i].paymentId == Some(paymentId) then rows[i].(status := status, error := error) else rows[i])
  }

  /** `update({'razorpay_payment_id': p, 'status': s}).eq('razorpay_order_id', o)`. */
  function SetPaymentByOrderId(rows: seq<PaymentRow>, orderId: string,
                               paymentId: Option<string>, status: PayStatus): seq<PaymentRow>
  {
    seq(|rows|, i requires 0 <= i < |rows| =>
      if rows[i].orderId == orderId then rows[i].(paymentId := paymentId, status := status)
      else rows[i])
  }

  /** `update({'status': s}).eq('razorpay_order_id', o)`. */
  function SetStatusByOrderId(rows: seq<PaymentRow>, orderId: string, status: PayStatus): seq<PaymentRow>
  {
    seq(|rows|, i requires 0 <= i < |rows| =>
      if rows[i].orderId == orderId then rows[i].(status := status) else rows[i])
  }

  /** The indices of the `payments` rows for an order, in table order. */
  function RowsForOrder(rows: seq<PaymentRow>, orderId: string): (r: seq<nat>)
    ensures forall k :: 0 <= k < |r| ==> r[k] < |rows| && rows[r[k]].orderId == orderId
    ensures forall i :: 0 <= i < |rows| && rows[i].orderId == orderId ==> i in r
  {
    if rows == [] then []
    else
      var rest := RowsForOrder(rows[..|rows| - 1], orderId);
      if rows[|rows| - 1].orderId == orderId then rest + [|rows| - 1] else rest
  }

  /** `update({'razorpay_payment_id': p, 'status': s}).eq('razorpay_order_id', o)`
      on `ad_free_purchases`. */
  function SetPurchaseStatus(rows: seq<Purchase>, orderId: string,
                             paymentId: string, status: PayStatus): seq<Purchase>
  {
    seq(|rows|, i requires 0 <= i < |rows| =>
      if rows[i].orderId == orderId then rows[i].(paymentId := Some(paymentId), status := status)
      else rows[i])
  }

  /** The indices of the `ad_free_purchases` rows for an order, in table order. */
  function PurchasesForOrder(rows: seq<Purchase>, orderId: string): (r: seq<nat>)
    ensures forall k :: 0 <= k < |r| ==> r[k] < |rows| && rows[r[k]].orderId == orderId
    ensures forall i :: 0 <= i < |rows| && rows[i].orderId == orderId ==> i in r
  {
    if rows == [] then []
    else
      var rest := PurchasesForOrder(rows[..|rows| - 1], orderId);
      if rows[|rows| - 1].orderId == orderId then rest + [|rows| - 1] else rest
  }

  predicate HasPurchase(rows: seq<Purchase>, orderId: string) {
    exists i :: 0 <= i < |rows| && rows[i].orderId == orderId
  }

  /** The store: one object whose tables the server's handlers read and write. */
  class Db {
    var credits: map<UserId, CreditRow>
    var payments: seq<PaymentRow>
    var usage: seq<UsageRecord>
    var adFree: map<UserId, bool>
    var purchases: seq<Purchase>

    function Snapshot(): Tables
      reads this
    {
      Tables(credits, payments, usage, adFree, purchases)
    }

    constructor (t: Tables)
      ensures Snapshot() == t
    {
      credits, payments, usage, adFree, purchases :=
        t.credits, t.payments, t.usage, t.adFree, t.purchases;
    }

    /** Runs the `deduct_credits` procedure. */
    method CallDeduct(user: UserId, tool: string, n: int) returns (reply: DeductReply)
      modifies this
      ensures (Snapshot(), reply) == DeductProc(old(Snapshot()), user, tool, n)
    {
      if user in credits && credits[user].remaining >= n {
        var row := credits[user];
        credits := credits[user := row.(remaining := row.remaining - n)];
        usage := usage + [UsageRecord(user, tool, n, UsageSuccess, None)];
        reply := DeductReply(true, Some(row.remaining - n), Some(n), None, None);
      } else {
        var remaining := if user in credits then Some(credits[user].remaining) else None;
        reply := DeductReply(false, remaining, None, Some(n), Some("Insufficient credits"));
      }
    }

    /** Runs the `add_credits` procedure; `raised` reports an unknown account. */
    method CallAdd(user: UserId, n: int) returns (raised: bool, reply: AddReply)
      modifies this
      ensures raised == AddProc(old(Snapshot()), user, n).None?
      ensures raised ==> Snapshot() == old(Snapshot())
      ensures !raised ==> (Snapshot(), reply) == AddProc(old(Snapshot()), user, n).value
    {
      if user in credits {
        var row := credits[user];
        var row' := row.(total := row.total + n, remaining := row.remaining + n);
        credits := credits[user := row'];
        raised, reply := false, AddReply(Some(row'.total), Some(row'.remaining), Some(n));
      } else {
        raised, reply := true, AddReply(None, None, None);
      }
    }
  }
}

=== FILE: streak.dfy ===
/** The daily usage streak (streak/utils.py). Days are whole numbers (the
    day before `today` is `today - 1`), and "today" is an input. */
module Streak {
  import opened Wrappers
  import Text

  type UserId = string

  /** A `streaks` row. */
  datatype StreakRow = StreakRow(current: int, longest: int, lastActive: Option<int>)

  datatype Status = Started | Maintained | Continued | Reset

  /** The new row and the status of one day's activity; for Maintained the
      row is the old one and nothing is written. */
  function Transition(row: Option<StreakRow>, today: int): (r: (StreakRow, Status))
    ensures row.None? ==> r == (StreakRow(1, 1, Some(today)), Started)
    ensures row.Some? && row.value.current == 0 ==>
              r == (StreakRow(1, if row.value.longest > 1 then row.value.longest else 1, Some(today)), Started)
    ensures row.Some? && row.value.current != 0 && row.value.lastActive == Some(today) ==>
              r == (row.value, Maintained)
    ensures row.Some? && row.value.current != 0 && row.value.lastActive == Some(today - 1) ==>
              r.1 == Continued && r.0.current == row.value.current + 1
              && r.0.longest >= r.0.current && r.0.longest >= row.value.longest
              && (r.0.longest == r.0.current || r.0.longest == row.value.longest)
    ensures row.Some? && row.value.current != 0 && row.value.lastActive != Some(today)
            && row.value.lastActive != Some(today - 1) ==>
              r == (StreakRow(1, row.value.longest, Some(today)), Reset)
    ensures r.1 != Maintained ==> r.0.lastActive == Some(today)
  {
    match row
    case None => (StreakRow(1, 1, Some(today)), Started)
    case Some(prev) =>
      if prev.current == 0 then
        (StreakRow(1, if prev.longest > 1 then prev.longest else 1, Some(today)), Started)
      else if prev.lastActive == Some(today) then (prev, Maintained)
      else if prev.lastActive == Some(today - 1) then
        var n := prev.current + 1;
        (StreakRow(n, if n > prev.longest then n else prev.longest, Some(today)), Continued)
      else (StreakRow(1, prev.longest, Some(today)), Reset)
  }

  /** A consistent row: the longest streak covers the current one, which is
      not negative. */
  predicate Consistent(r: StreakRow) {
    r.longest >= r.current >= 0
  }

  /** From a consistent row (or none), a day's activity leaves a row with
      longest >= current >= 1. */
  lemma TransitionKeepsConsistent(row: Option<StreakRow>, today: int)
    requires row.Some? ==> Consistent(row.value)
    ensures var r := Transition(row, today).0;
            Consistent(r) && r.current >= 1
  {
  }

  /** Every writing branch stamps today, so a second activity on the same
      day changes nothing and reports the streak maintained. */
  lemma SecondCallSameDayIsNoOp(row: Option<StreakRow>, today: int)
    requires row.Some? ==> Consistent(row.value)
    ensures var r := Transition(row, today).0;
            Transition(Some(r), today) == (r, Maintained)
  {
    TransitionKeepsConsistent(row, today);
  }

  /** Activity on consecutive days lengthens the streak by one per day. */
  lemma {:induction false} ConsecutiveDays(r: StreakRow, today: int, k: nat)
    requires Consistent(r) && r.current >= 1 && r.lastActive == Some(today)
    ensures var e := Days(r, today + 1, k);
            e.current == r.current + k && e.lastActive == Some(today + k) && Consistent(e)
    decreases k
  {
    if k > 0 {
      ConsecutiveDays(r, today, k - 1);
      var e := Days(r, today + 1, k - 1);
      assert Transition(Some(e), today + k).1 == Continued;
    }
  }

  /** The row after activity on `k` consecutive days starting at `first`. */
  function Days(r: StreakRow, first: int, k: nat): StreakRow
    decreases k
  {
    if k == 0 then r else Transition(Some(Days(r, first, k - 1)), first + k - 1).0
  }

  /** The reply of `update_streak`. */
  datatype UpdateReply =
    | Updated(status: Status, newStreak: int, longest: int, message: string)
    | UpdateFailed(error: string)

  function Message(s: Status, n: int): string {
    match s
    case Started => "\U{1F525} Streak started! Day 1!"
    case Maintained => "Streak maintained for today!"
    case Continued => "\U{1F525} Day " + Text.IntToString(n) + " streak!"
    case Reset => "Streak reset. Day 1! \U{1F4AA}"
  }

  /** `update_streak` on the table: a failed read or write reports the error
      and changes nothing; otherwise the transition's row is stored unless
      the streak was already counted today. */
  function UpdateSpec(rows: map<UserId, StreakRow>, user: UserId, today: int,
                      readFails: bool, writeFails: bool, exc: string): (r: (map<UserId, StreakRow>, UpdateReply))
    ensures readFails ==> r == (rows, UpdateFailed(exc))
    ensures r.1.Updated? <==> !readFails && (!writeFails || Transition(Lookup(rows, user), today).1 == Maintained)
    ensures r.1.Updated? ==>
              && r.1.status == Transition(Lookup(rows, user), today).1
              && r.1.newStreak == Transition(Lookup(rows, user), today).0.current
              && r.1.longest == Transition(Lookup(rows, user), today).0.longest
              && r.0 == (if r.1.status == Maintained then rows
                         else rows[user := Transition(Lookup(rows, user), today).0])
    ensures r.1.UpdateFailed? ==> r.0 == rows
  {
    if readFails then (rows, UpdateFailed(exc))
    else
      var (next, status) := Transition(Lookup(rows, user), today);
      if status == Maintained then
        (rows, Updated(status, next.current, next.longest, Message(status, next.current)))
      else if writeFails then (rows, UpdateFailed(exc))
      else (rows[user := next], Updated(status, next.current, next.longest, Message(status, next.current)))
  }

  function Lookup(rows: map<UserId, StreakRow>, user: UserId): Option<StreakRow> {
    if user in rows then Some(rows[user]) else None
  }

  /** `get_streak`: the stored values, zeros and no date without a row,
      None on a read error. */
  function GetStreak(rows: map<UserId, StreakRow>, user: UserId, readFails: bool): (r: Option<StreakRow>)
    ensures readFails <==> r.None?
    ensures !readFails && user !in rows ==> r == Some(StreakRow(0, 0, None))
    ensures !readFails && user in rows ==> r == Some(rows[user])
  {
    if readFails then None
    else if user in rows then Some(rows[user])
    else Some(StreakRow(0, 0, None))
  }

  /** The `streaks` table. */
  class StreakTable {
    var rows: map<UserId, StreakRow>

    constructor (initial: map<UserId, StreakRow>)
      ensures rows == initial
    {
      rows := initial;
    }

    method UpdateStreak(user: UserId, today: int, readFails: bool, writeFails: bool, exc: string)
      returns (reply: UpdateReply)
      modifies this
      ensures (rows, reply) == UpdateSpec(old(rows), user, today, readFails, writeFails, exc)
    {
      if readFails {
        return UpdateFailed(exc);
      }
      var existing := if user in rows then Some(rows[user]) else None;
      var (next, status) := Transition(existing, today);
      if status != Maintained {
        if writeFails {
          return UpdateFailed(exc);
        }
        rows := rows[user := next];
      }
      reply := Updated(status, next.current, next.longest, Message(status, next.current));
    }
  }
}

=== FILE: sync_tools.dfy ===
/** The tool-definition sync script (sync_tools.py): the master list of
    tools, the classification of each definition against the stored
    `tool_config` rows, the counters and the validation. The store's rows
    and the errors of individual writes are inputs; the statements the sync
    issues are recorded in order. */
module SyncTools {
  import opened ToolCosts
  import Text

  /** The master list: name, display name, price, description, active, free. */
  const ToolDefinitions: seq<ToolRow> := [
    ToolRow("resize", "Image Resize", 0, "Resize images to custom dimensions", true, true),
    ToolRow("compress", "Image Compress", 2, "Compress images to reduce file size", true, false),
    ToolRow("convert", "Format Convert", 0, "Convert images between different formats", true, true),
    ToolRow("crop", "Image Crop", 1, "Crop images to custom dimensions", true, false),
    ToolRow("palette", "Color Palette", 2, "Extract color palette from images", true, false),
    ToolRow("watermark", "Add Watermark", 3, "Add text or image watermarks", true, false),
    ToolRow("remove_bg", "Remove Background", 10, "AI-powered background removal", true, false),
    ToolRow("exif", "EXIF Data", 1, "View and edit image metadata", true, false),
    ToolRow("filter", "Image Filter", 2, "Apply filters and effects", true, false),
    ToolRow("upscale", "Image Upscale", 8, "AI-powered image upscaling", true, false),
    ToolRow("collage", "AI Collage Generator", 13, "AI-powered photo collage with automatic layout selection", true, false),
    ToolRow("annotation", "AI Annotation Studio", 15, "Professional annotation with bounding boxes, polygons, and metadata export", true, false)
  ]

  /** No two definitions share a name, so each stored row is matched by at
      most one definition. */
  lemma DefinitionNamesDistinct()
    ensures forall i, j :: 0 <= i < j < |ToolDefinitions| ==> ToolDefinitions[i].name != ToolDefinitions[j].name
  {
  }

  /** The free definitions are exactly the guest tools, at price 0. */
  lemma FreeDefinitionsAreGuestTools()
    ensures forall i :: 0 <= i < |ToolDefinitions| ==>
              (ToolDefinitions[i].isFree <==> IsFreeTool(ToolDefinitions[i].name))
              && (ToolDefinitions[i].isFree ==> ToolDefinitions[i].cost == 0)
  {
  }

  /** `fetch_existing_tools`: all stored rows by name, or {} when the read fails. */
  function FetchExisting(table: seq<ToolRow>, fetchFails: bool): (m: map<string, ToolRow>)
    ensures fetchFails ==> m == map[]
    ensures !fetchFails ==> forall k :: k in m <==> k in Names(table)
    ensures !fetchFails ==> forall k :: k in m ==> m[k] in table && m[k].name == k
    ensures !fetchFails ==> forall k :: k in m ==> exists i :: LastNamed(table, i, k) && table[i] == m[k]
  {
    if fetchFails then map[]
    else
      var idx := IndexByName(table);
      map k | k in idx :: idx[k].row
  }

  /** Python's `str` of a boolean. */
  function BoolText(b: bool): string {
    if b then "True" else "False"
  }

  /** One entry of the change list. */
  function ChangeLine(key: string, was: string, now: string): string {
    key + ": " + was + " → " + now
  }

  /** The compared fields that differ, one line each, in the order
      display_name, credit_cost, description, is_active. */
  function Changes(existing: ToolRow, def: ToolRow): (c: seq<string>)
    ensures |c| == (if existing.displayName != def.displayName then 1 else 0)
                 + (if existing.cost != def.cost then 1 else 0)
                 + (if existing.description != def.description then 1 else 0)
                 + (if existing.isActive != def.isActive then 1 else 0)
  {
    (if existing.displayName != def.displayName
     then [ChangeLine("display_name", existing.displayName, def.displayName)] else [])
    + (if existing.cost != def.cost
       then [ChangeLine("credit_cost", Text.IntToString(existing.cost), Text.IntToString(def.cost))] else [])
    + (if existing.description != def.description
       then [ChangeLine("description", existing.description, def.description)] else [])
    + (if existing.isActive != def.isActive
       then [ChangeLine("is_active", BoolText(existing.isActive), BoolText(def.isActive))] else [])
  }

  /** What the store is told: the update payload has no name and no free
      flag; the insert payload has no free flag. */
  datatype Fields = Fields(displayName: string, cost: int, description: string, isActive: bool)
  datatype Write = UpdateTool(name: string, fields: Fields) | InsertTool(name: string, fields: Fields)

  function FieldsOf(def: ToolRow): Fields {
    Fields(def.displayName, def.cost, def.description, def.isActive)
  }

  datatype Detail =
    | Updated(tool: string, changes: seq<string>)
    | Inserted(tool: string, cost: int)
    | Errored(tool: string, error: string)

  datatype Tally = Tally(inserted: nat, updated: nat, upToDate: nat, errors: nat)
  {
    function Sum(): nat { inserted + updated + upToDate + errors }
  }

  /** The outcome of one definition: the statement issued (if any), the
      counter bumped, and the detail entry (if any). `fails` maps a tool
      name to the error its write raises. */
  datatype StepResult = StepResult(writes: seq<Write>, tally: Tally, details: seq<Detail>)

  function Step(def: ToolRow, existing: map<string, ToolRow>, dryRun: bool,
                fails: map<string, string>): (r: StepResult)
    ensures r.tally.Sum() == 1
  {
    if def.name in existing then
      var changes := Changes(existing[def.name], def);
      if changes == [] then StepResult([], Tally(0, 0, 1, 0), [])
      else if dryRun then StepResult([], Tally(0, 1, 0, 0), [Updated(def.name, changes)])
      else if def.name in fails then StepResult([], Tally(0, 0, 0, 1), [Errored(def.name, fails[def.name])])
      else StepResult([UpdateTool(def.name, FieldsOf(def))], Tally(0, 1, 0, 0), [Updated(def.name, changes)])
    else if dryRun then StepResult([], Tally(1, 0, 0, 0), [Inserted(def.name, def.cost)])
    else if def.name in fails then StepResult([], Tally(0, 0, 0, 1), [Errored(def.name, fails[def.name])])
    else StepResult([InsertTool(def.name, FieldsOf(def))], Tally(1, 0, 0, 0), [Inserted(def.name, def.cost)])
  }

  /** How one definition is classified: inserted when missing, updated iff
      a compared field differs, and counted as an error exactly when its
      statement raises; a dry run issues nothing. */
  lemma StepClassifies(def: ToolRow, existing: map<string, ToolRow>, dryRun: bool,
                       fails: map<string, string>)
    ensures var r := Step(def, existing, dryRun, fails);
            && |r.writes| <= 1 && (dryRun ==> r.writes == [])
            && (def.name !in existing && !dryRun && def.name !in fails ==>
                  r.writes == [InsertTool(def.name, FieldsOf(def))] && r.tally.inserted == 1)
            && (def.name in existing ==>
                  (Changes(existing[def.name], def) == [] <==> r.tally.upToDate == 1))
            && (def.name in existing && Changes(existing[def.name], def) != [] && !dryRun && def.name !in fails ==>
                  r.writes == [UpdateTool(def.name, FieldsOf(def))] && r.tally.updated == 1)
            && (r.tally.errors == 1 <==> !dryRun && def.name in fails
                                         && (def.name in existing ==> Changes(existing[def.name], def) != []))
  {
  }

  function Plus(a: Tally, b: Tally): Tally {
    Tally(a.inserted + b.inserted, a.updated + b.updated, a.upToDate + b.upToDate, a.errors + b.errors)
  }

  /** The outcomes of two runs of definitions, one after the other. */
  function Then(a: StepResult, b: StepResult): StepResult {
    StepResult(a.writes + b.writes, Plus(a.tally, b.tally), a.details + b.details)
  }

  /** The whole loop over a list of definitions. */
  function SyncSpec(defs: seq<ToolRow>, existing: map<string, ToolRow>, dryRun: bool,
                    fails: map<string, string>): StepResult
  {
    if |defs| == 0 then StepResult([], Tally(0, 0, 0, 0), [])
    else Then(SyncSpec(defs[..|defs| - 1], existing, dryRun, fails), Step(defs[|defs| - 1], existing, dryRun, fails))
  }

  /** One more definition adds its own step after the others'. */
  lemma SyncSpecExtend(defs: seq<ToolRow>, i: nat, existing: map<string, ToolRow>, dryRun: bool,
                       fails: map<string, string>)
    requires i < |defs|
    ensures SyncSpec(defs[..i + 1], existing, dryRun, fails)
            == Then(SyncSpec(defs[..i], existing, dryRun, fails), Step(defs[i], existing, dryRun, fails))
  {
    assert defs[..i + 1][..i] == defs[..i];
  }

  /** Each definition bumps exactly one counter, so the counters add up to
      the number of definitions. */
  lemma {:induction false} CountersAddUp(defs: seq<ToolRow>, existing: map<string, ToolRow>, dryRun: bool,
                                         fails: map<string, string>)
    ensures SyncSpec(defs, existing, dryRun, fails).tally.Sum() == |defs|
  {
    if |defs| > 0 {
      CountersAddUp(defs[..|defs| - 1], existing, dryRun, fails);
    }
  }

  /** A dry run issues no statement. */
  lemma {:induction false} DryRunWritesNothing(defs: seq<ToolRow>, existing: map<string, ToolRow>,
                                               fails: map<string, string>)
    ensures SyncSpec(defs, existing, true, fails).writes == []
  {
    if |defs| > 0 {
      DryRunWritesNothing(defs[..|defs| - 1], existing, fails);
      StepClassifies(defs[|defs| - 1], existing, true, fails);
    }
  }

  /** When no write fails, a dry run reports the same counters and details
      as the real run. */
  lemma {:induction false} DryRunReportsTheSame(defs: seq<ToolRow>, existing: map<string, ToolRow>)
    ensures SyncSpec(defs, existing, true, map[]).tally == SyncSpec(defs, existing, false, map[]).tally
    ensures SyncSpec(defs, existing, true, map[]).details == SyncSpec(defs, existing, false, map[]).details
  {
    if |defs| > 0 {
      DryRunReportsTheSame(defs[..|defs| - 1], existing);
    }
  }

  /** With nothing fetched and no write failing, every definition is
      inserted, in order. */
  lemma {:induction false} EmptyStoreInsertsAll(defs: seq<ToolRow>)
    ensures var r := SyncSpec(defs, map[], false, map[]);
            r.tally == Tally(|defs|, 0, 0, 0)
            && |r.writes| == |defs|
            && forall i :: 0 <= i < |defs| ==> r.writes[i] == InsertTool(defs[i].name, FieldsOf(defs[i]))
  {
    if |defs| > 0 {
      EmptyStoreInsertsAll(defs[..|defs| - 1]);
      StepClassifies(defs[|defs| - 1], map[], false, map[]);
    }
  }

  /** The counters of `sync_tools`. */
  datatype Stats = Stats(total: nat, tally: Tally, details: seq<Detail>)

  /** The `tool_config` statements issued so far. */
  class ToolConfigWriter {
    var writes: seq<Write>

    constructor ()
      ensures writes == []
    {
      writes := [];
    }

    /** `sync_tools`: classifies every definition against the stored rows,
        issuing the statements and counting as it goes. */
    method SyncTools(table: seq<ToolRow>, fetchFails: bool, dryRun: bool, fails: map<string, string>)
      returns (stats: Stats)
      modifies this
      ensures var r := SyncSpec(ToolDefinitions, FetchExisting(table, fetchFails), dryRun, fails);
              writes == old(writes) + r.writes
              && stats == Stats(|ToolDefinitions|, r.tally, r.details)
      ensures stats.tally.Sum() == stats.total
    {
      var existing := FetchExisting(table, fetchFails);
      var tally, details := SyncDefinitions(ToolDefinitions, existing, dryRun, fails);
      CountersAddUp(ToolDefinitions, existing, dryRun, fails);
      stats := Stats(|ToolDefinitions|, tally, details);
    }

    /** The loop of `sync_tools` over a list of definitions. */
    method SyncDefinitions(defs: seq<ToolRow>, existing: map<string, ToolRow>, dryRun: bool,
                           fails: map<string, string>)
      returns (tally: Tally, details: seq<Detail>)
      modifies this
      ensures var r := SyncSpec(defs, existing, dryRun, fails);
              writes == old(writes) + r.writes && tally == r.tally && details == r.details
    {
      var acc := StepResult([], Tally(0, 0, 0, 0), []);
      var i := 0;
      while i < |defs|
        invariant 0 <= i <= |defs|
        invariant acc == SyncSpec(defs[..i], existing, dryRun, fails)
        invariant writes == old(writes) + acc.writes
      {
        SyncSpecExtend(defs, i, existing, dryRun, fails);
        var s := Step(defs[i], existing, dryRun, fails);
        acc := Then(acc, s);
        writes := writes + s.writes;
        i := i + 1;
      }
      assert defs[..i] == defs;
      tally, details := acc.tally, acc.details;
    }
  }

  /** Every definition is stored with its price. */
  predicate InSync(defs: seq<ToolRow>, existing: map<string, ToolRow>) {
    forall i :: 0 <= i < |defs| ==> defs[i].name in existing && existing[defs[i].name].cost == defs[i].cost
  }

  /** `validate_sync`: true iff every defined tool is stored with the
      defined price; names, descriptions and flags are not compared. */
  method ValidateSync(table: seq<ToolRow>, fetchFails: bool) returns (allValid: bool)
    ensures allValid <==> InSync(ToolDefinitions, FetchExisting(table, fetchFails))
  {
    allValid := ValidateDefinitions(ToolDefinitions, FetchExisting(table, fetchFails));
  }

  /** The loop of `validate_sync`, clearing the flag on every mismatch. */
  method ValidateDefinitions(defs: seq<ToolRow>, existing: map<string, ToolRow>) returns (allValid: bool)
    ensures allValid <==> InSync(defs, existing)
  {
    allValid := true;
    var i := 0;
    while i < |defs|
      invariant 0 <= i <= |defs|
      invariant allValid <==> InSync(defs[..i], existing)
    {
      assert defs[..i + 1][..i] == defs[..i];
      if defs[i].name !in existing {
        allValid := false;
      } else if existing[defs[i].name].cost != defs[i].cost {
        allValid := false;
      }
      i := i + 1;
    }
    assert defs[..i] == defs;
  }

  /** A failed fetch makes validation fail. */
  lemma FailedFetchIsNotInSync(table: seq<ToolRow>)
    ensures !InSync(ToolDefinitions, FetchExisting(table, true))
  {
    assert ToolDefinitions[0].name !in FetchExisting(table, true);
  }
}

=== FILE: text.dfy ===
/** Decimal rendering of integers, as Python's f-strings and JavaScript's
    template literals print them. */
module Text {
  import opened Wrappers

  function DigitChar(d: int): (c: char)
    requires 0 <= d < 10
    ensures '0' <= c <= '9'
  {
    "0123456789"[d]
  }

  /** Decimal digits of a natural number, without leading zeros. */
  function NatToString(n: nat): (s: string)
    ensures |s| >= 1
    ensures forall i :: 0 <= i < |s| ==> '0' <= s[i] <= '9'
  {
    if n < 10 then [DigitChar(n)] else NatToString(n / 10) + [DigitChar(n % 10)]
  }

  /** Decimal rendering of an integer, with a leading '-' when negative. */
  function IntToString(n: int): (s: string)
    ensures |s| >= 1
  {
    if n < 0 then "-" + NatToString(-n) else NatToString(n)
  }

  predicate AllDigits(s: string) {
    forall i :: 0 <= i < |s| ==> '0' <= s[i] <= '9'
  }

  /** The value of a string of decimal digits. */
  function DigitsValue(s: string): nat
    requires AllDigits(s)
  {
    if s == [] then 0 else DigitsValue(s[..|s| - 1]) * 10 + (s[|s| - 1] as int - '0' as int)
  }

  /** Python's `int(text)` for an optionally signed run of decimal digits;
      None where Python raises. */
  function ParseInt(s: string): Option<int> {
    if |s| >= 2 && s[0] == '-' && AllDigits(s[1..]) then Some(0 - DigitsValue(s[1..]) as int)
    else if |s| >= 2 && s[0] == '+' && AllDigits(s[1..]) then Some(DigitsValue(s[1..]))
    else if |s| >= 1 && AllDigits(s) then Some(DigitsValue(s))
    else None
  }

  lemma {:induction false} NatToStringValue(n: nat)
    ensures AllDigits(NatToString(n)) && DigitsValue(NatToString(n)) == n
  {
    if n >= 10 {
      NatToStringValue(n / 10);
      var s := NatToString(n);
      assert s[..|s| - 1] == NatToString(n / 10);
    }
  }

  /** Parsing a rendered integer gives it back. */
  lemma IntRoundTrip(n: int)
    ensures ParseInt(IntToString(n)) == Some(n)
  {
    if n < 0 {
      NegativeRoundTrip(n);
    } else {
      NatToStringValue(n);
      ParseUnsigned(NatToString(n));
    }
  }

  lemma NegativeRoundTrip(n: int)
    requires n < 0
    ensures ParseInt(IntToString(n)) == Some(n)
  {
    var m: nat := -n;
    var t := NatToString(m);
    assert IntToString(n) == "-" + t;
    assert ParseInt("-" + t) == Some(n) by {
      NatToStringValue(m);
      ParseNegative(t, m);
    }
  }

  /** A run of digits is read as its value. */
  lemma ParseUnsigned(t: string)
    requires |t| >= 1 && AllDigits(t)
    ensures ParseInt(t) == Some(DigitsValue(t))
  {
    assert '0' <= t[0] <= '9';
  }

  /** A '-' before a run of digits negates its value. */
  lemma ParseNegative(t: string, m: int)
    requires |t| >= 1 && AllDigits(t) && DigitsValue(t) == m
    ensures ParseInt("-" + t) == Some(-m)
  {
    assert ("-" + t)[1..] == t;
  }

  /** The characters Python's `str.split` and `str.strip` treat as white space. */
  predicate IsSpace(c: char) {
    var n := c as int;
    (9 <= n <= 13) || (28 <= n <= 32) || n == 0x85 || n == 0xA0 || n == 0x1680
    || (0x2000 <= n <= 0x200A) || n == 0x2028 || n == 0x2029 || n == 0x202F
    || n == 0x205F || n == 0x3000
  }

}

=== FILE: tool_costs.dfy ===
/** The module-level tool price cache (credits/tool_costs.py). The
    `tool_config` table is passed to each call together with whether that
    call's queries raise; the cache and its initialised flag are the fields
    of `ToolCache`. */
module ToolCosts {
  import opened Wrappers

  /** A `tool_config` row. */
  datatype ToolRow = ToolRow(name: string, displayName: string, cost: int, description: string,
                             isActive: bool, isFree: bool)

  /** A cache entry: a full row (from a `select('*')`), or the one-key row
      `{credit_cost}` that the single-tool cost query stores. */
  datatype Entry = FullRow(row: ToolRow) | CostOnly(credit: int)
  {
    function Cost(): int {
      match this
      case FullRow(r) => r.cost
      case CostOnly(c) => c
    }
    /** `info.get('is_active', False)`. */
    predicate Active() {
      FullRow? && row.isActive
    }
  }

  /** The table as seen by one call: its rows, whether the list queries
      raise, and whether the single-tool query raises. */
  datatype Backend = Backend(table: seq<ToolRow>, listFails: bool, fetchFails: bool)

  /** The tools guests may use without logging in. */
  const FreeTools: seq<string> := ["resize", "convert"]

  predicate IsFreeTool(name: string) {
    name in FreeTools
  }

  lemma FreeToolsAreResizeAndConvert(name: string)
    ensures IsFreeTool(name) <==> name == "resize" || name == "convert"
  {
  }

  /** `select('*').eq('is_active', True)`. */
  function ActiveRows(table: seq<ToolRow>): (rows: seq<ToolRow>)
    ensures forall i :: 0 <= i < |rows| ==> rows[i].isActive && rows[i] in table
    ensures forall r :: r in table && r.isActive ==> r in rows
  {
    if |table| == 0 then []
    else
      var rest := ActiveRows(table[..|table| - 1]);
      var last := table[|table| - 1];
      assert table == table[..|table| - 1] + [last];
      if last.isActive then rest + [last] else rest
  }

  /** The active rows named `name`. */
  function Named(table: seq<ToolRow>, name: string): (rows: seq<ToolRow>)
    ensures forall i :: 0 <= i < |rows| ==> rows[i].isActive && rows[i].name == name && rows[i] in table
    ensures forall r :: r in table && r.isActive && r.name == name ==> r in rows
  {
    if |table| == 0 then []
    else
      var rest := Named(table[..|table| - 1], name);
      var last := table[|table| - 1];
      assert table == table[..|table| - 1] + [last];
      if last.isActive && last.name == name then rest + [last] else rest
  }

  /** `.single()`: the row when exactly one matches; otherwise the query raises. */
  function Single(table: seq<ToolRow>, name: string): (r: Option<ToolRow>)
    ensures r.Some? ==> r.value in table && r.value.isActive && r.value.name == name
  {
    var rows := Named(table, name);
    if |rows| == 1 then Some(rows[0]) else None
  }

  function Names(rows: seq<ToolRow>): seq<string> {
    seq(|rows|, i requires 0 <= i < |rows| => rows[i].name)
  }

  /** Row `i` carries name `k` and no later row does. */
  predicate LastNamed(rows: seq<ToolRow>, i: int, k: string) {
    0 <= i < |rows| && rows[i].name == k && forall j :: i < j < |rows| ==> rows[j].name != k
  }

  /** `{tool['tool_name']: tool for tool in rows}`: a later row with the same
      name overrides an earlier one. */
  function IndexByName(rows: seq<ToolRow>): (m: map<string, Entry>)
    ensures forall k :: k in m <==> k in Names(rows)
    ensures forall k :: k in m ==> m[k].FullRow? && m[k].row.name == k && m[k].row in rows
    ensures forall k :: k in m ==> exists i :: LastNamed(rows, i, k) && rows[i] == m[k].row
  {
    if |rows| == 0 then map[]
    else
      var init := rows[..|rows| - 1];
      var last := rows[|rows| - 1];
      assert Names(rows) == Names(init) + [last.name];
      assert rows == init + [last];
      IndexByName(init)[last.name := FullRow(last)]
  }

  /** The cache and its initialised flag. */
  datatype CacheState = CacheState(cache: map<string, Entry>, initialized: bool)

  /** `initialize_tool_cache`: on a non-empty active set the cache becomes
      that set indexed by name; on an empty answer or an error nothing changes. */
  function InitSpec(s: CacheState, b: Backend): (r: (CacheState, bool))
    ensures r.1 <==> !b.listFails && |ActiveRows(b.table)| > 0
    ensures r.1 ==> r.0 == CacheState(IndexByName(ActiveRows(b.table)), true)
    ensures !r.1 ==> r.0 == s
  {
    if b.listFails || |ActiveRows(b.table)| == 0 then (s, false)
    else (CacheState(IndexByName(ActiveRows(b.table)), true), true)
  }

  /** The lazy initialisation each read starts with. */
  function Prepared(s: CacheState, useCache: bool, b: Backend): CacheState {
    if !s.initialized && useCache then InitSpec(s, b).0 else s
  }

  /** `get_tool_cost` as written: a fetched price is cached as the one-key
      row `{credit_cost}`. */
  function CostAsWritten(s: CacheState, name: string, useCache: bool, b: Backend): (r: (CacheState, int))
    ensures var p := Prepared(s, useCache, b);
            && (useCache && name in p.cache ==> r == (p, p.cache[name].Cost()))
            && (!(useCache && name in p.cache) && Single(b.table, name).Some? && !b.fetchFails ==>
                  r.1 == Single(b.table, name).value.cost
                  && r.0.cache == (if useCache then p.cache[name := CostOnly(r.1)] else p.cache))
  {
    var p := Prepared(s, useCache, b);
    if useCache && name in p.cache then (p, p.cache[name].Cost())
    else if b.fetchFails || Single(b.table, name).None? then (p, 1)
    else
      var row := Single(b.table, name).value;
      (if useCache then p.(cache := p.cache[name := CostOnly(row.cost)]) else p, row.cost)
  }

  /** `get_tool_cost` with the fetched row cached whole, as every other
      reader of the cache expects. A tool that is not found, or a query
      error, costs 1. */
  function CostSpec(s: CacheState, name: string, useCache: bool, b: Backend): (r: (CacheState, int))
    ensures var p := Prepared(s, useCache, b);
            && (useCache && name in p.cache ==> r == (p, p.cache[name].Cost()))
            && (!(useCache && name in p.cache) && (b.fetchFails || Single(b.table, name).None?) ==> r == (p, 1))
            && (!(useCache && name in p.cache) && Single(b.table, name).Some? && !b.fetchFails ==>
                  r.1 == Single(b.table, name).value.cost
                  && r.0.cache == (if useCache then p.cache[name := FullRow(Single(b.table, name).value)]
                                   else p.cache))
  {
    var p := Prepared(s, useCache, b);
    if useCache && name in p.cache then (p, p.cache[name].Cost())
    else if b.fetchFails || Single(b.table, name).None? then (p, 1)
    else
      var row := Single(b.table, name).value;
      (if useCache then p.(cache := p.cache[name := FullRow(row)]) else p, row.cost)
  }

  /** `get_tool_info`: the cached entry, else the fetched full row (cached);
      None when the tool is missing or the query fails. */
  function InfoSpec(s: CacheState, name: string, useCache: bool, b: Backend): (r: (CacheState, Option<Entry>))
    ensures var p := Prepared(s, useCache, b);
            && (useCache && name in p.cache ==> r == (p, Some(p.cache[name])))
            && (!(useCache && name in p.cache) ==>
                  (r.1.Some? <==> !b.fetchFails && Single(b.table, name).Some?)
                  && (r.1.Some? ==> r.1 == Some(FullRow(Single(b.table, name).value))))
  {
    var p := Prepared(s, useCache, b);
    if useCache && name in p.cache then (p, Some(p.cache[name]))
    else if b.fetchFails || Single(b.table, name).None? then (p, None)
    else
      var row := Single(b.table, name).value;
      (if useCache then p.(cache := p.cache[name := FullRow(row)]) else p, Some(FullRow(row)))
  }

  /** `is_tool_available`: the info exists and is active. */
  function AvailableSpec(s: CacheState, name: string, useCache: bool, b: Backend): (r: (CacheState, bool))
    ensures r.1 <==> InfoSpec(s, name, useCache, b).1.Some? && InfoSpec(s, name, useCache, b).1.value.Active()
    ensures r.0 == InfoSpec(s, name, useCache, b).0
  {
    var (s', info) := InfoSpec(s, name, useCache, b);
    (s', info.Some? && info.value.Active())
  }

  /** Every cached entry is a full, active row filed under its own name: the
      shape the initialisation and the list query produce. */
  predicate CacheSound(s: CacheState) {
    forall k :: k in s.cache ==> s.cache[k].FullRow? && s.cache[k].row.isActive && s.cache[k].row.name == k
  }

  lemma PreparedKeepsSound(s: CacheState, useCache: bool, b: Backend)
    requires CacheSound(s)
    ensures CacheSound(Prepared(s, useCache, b))
  {
  }

  lemma InitKeepsSound(s: CacheState, b: Backend)
    requires CacheSound(s)
    ensures CacheSound(InitSpec(s, b).0)
  {
  }

  lemma AllToolsKeepsSound(s: CacheState, useCache: bool, b: Backend)
    requires CacheSound(s)
    ensures CacheSound(AllToolsSpec(s, useCache, b).0)
  {
    PreparedKeepsSound(s, useCache, b);
  }

  /** The corrected cost read keeps the cache sound. */
  lemma CostKeepsSound(s: CacheState, name: string, useCache: bool, b: Backend)
    requires CacheSound(s)
    ensures CacheSound(CostSpec(s, name, useCache, b).0)
  {
    PreparedKeepsSound(s, useCache, b);
  }

  lemma InfoKeepsSound(s: CacheState, name: string, useCache: bool, b: Backend)
    requires CacheSound(s)
    ensures CacheSound(InfoSpec(s, name, useCache, b).0)
  {
    PreparedKeepsSound(s, useCache, b);
  }

  /** In a sound cache a cached tool is reported available. */
  lemma CachedToolIsAvailable(s: CacheState, name: string, b: Backend)
    requires CacheSound(s) && name in Prepared(s, true, b).cache
    ensures AvailableSpec(s, name, true, b).1
  {
    PreparedKeepsSound(s, true, b);
  }

  /** As written: when a tool is activated after the cache was filled, a
      price read caches `{credit_cost}` for it, and from then on the tool is
      reported unavailable although its row is active. */
  lemma CostOnlyEntryHidesActiveTool(s: CacheState, name: string, b: Backend)
    requires s.initialized && name !in s.cache
    requires !b.fetchFails && Single(b.table, name).Some?
    ensures Single(b.table, name).value.isActive
    ensures !AvailableSpec(CostAsWritten(s, name, true, b).0, name, true, b).1
  {
  }

  /** Corrected: in the same situation the tool stays available. */
  lemma FullEntryKeepsActiveToolAvailable(s: CacheState, name: string, b: Backend)
    requires s.initialized && name !in s.cache
    requires !b.fetchFails && Single(b.table, name).Some?
    ensures AvailableSpec(CostSpec(s, name, true, b).0, name, true, b).1
  {
  }

  /** `get_all_tools`: the cached entries when the cache is in use and not
      empty; otherwise the active rows, which (when the cache is in use)
      replace the cache entry by entry. */
  function AllToolsSpec(s: CacheState, useCache: bool, b: Backend): (r: (CacheState, Option<map<string, Entry>>, seq<ToolRow>))
    ensures var p := Prepared(s, useCache, b);
            && (useCache && |p.cache| > 0 ==> r == (p, Some(p.cache), []))
            && (!(useCache && |p.cache| > 0) ==>
                  r.1 == None
                  && r.2 == (if b.listFails then [] else ActiveRows(b.table))
                  && (useCache && |r.2| > 0 ==> r.0 == CacheState(IndexByName(r.2), true))
                  && (!(useCache && |r.2| > 0) ==> r.0 == p))
  {
    var p := Prepared(s, useCache, b);
    if useCache && |p.cache| > 0 then (p, Some(p.cache), [])
    else
      var rows := if b.listFails then [] else ActiveRows(b.table);
      if useCache && |rows| > 0 then (CacheState(IndexByName(rows), true), None, rows)
      else (p, None, rows)
  }

  /** `refresh_tool_cache`: empties the cache and clears the flag, then
      initialises; a failed initialisation leaves the cache empty. */
  function RefreshSpec(s: CacheState, b: Backend): (r: (CacheState, bool))
    ensures r.1 ==> r.0 == CacheState(IndexByName(ActiveRows(b.table)), true)
    ensures !r.1 ==> r.0 == CacheState(map[], false)
  {
    InitSpec(CacheState(map[], false), b)
  }

  /** The cache as the module's globals. */
  class ToolCache {
    var cache: map<string, Entry>
    var initialized: bool

    function State(): CacheState
      reads this
    {
      CacheState(cache, initialized)
    }

    constructor ()
      ensures State() == CacheState(map[], false)
    {
      cache := map[];
      initialized := false;
    }

    method InitializeToolCache(b: Backend) returns (ok: bool)
      modifies this
      ensures (State(), ok) == InitSpec(old(State()), b)
    {
      if b.listFails {
        return false;
      }
      var rows := ActiveRows(b.table);
      if |rows| == 0 {
        return false;
      }
      cache := IndexByName(rows);
      initialized := true;
      ok := true;
    }

    method GetToolCost(name: string, useCache: bool, b: Backend) returns (cost: int)
      modifies this
      ensures (State(), cost) == CostSpec(old(State()), name, useCache, b)
    {
      if !initialized && useCache {
        var _ := InitializeToolCache(b);
      }
      if useCache && name in cache {
        return cache[name].Cost();
      }
      if b.fetchFails {
        return 1;
      }
      var row := Single(b.table, name);
      if row.None? {
        return 1;
      }
      if useCache {
        cache := cache[name := FullRow(row.value)];
      }
      cost := row.value.cost;
    }

    method GetToolInfo(name: string, useCache: bool, b: Backend) returns (info: Option<Entry>)
      modifies this
      ensures (State(), info) == InfoSpec(old(State()), name, useCache, b)
    {
      if !initialized && useCache {
        var _ := InitializeToolCache(b);
      }
      if useCache && name in cache {
        return Some(cache[name]);
      }
      if b.fetchFails {
        return None;
      }
      var row := Single(b.table, name);
      if row.None? {
        return None;
      }
      if useCache {
        cache := cache[name := FullRow(row.value)];
      }
      info := Some(FullRow(row.value));
    }

    method IsToolAvailable(name: string, useCache: bool, b: Backend) returns (available: bool)
      modifies this
      ensures (State(), available) == AvailableSpec(old(State()), name, useCache, b)
    {
      var info := GetToolInfo(name, useCache, b);
      available := info.Some? && info.value.Active();
    }

    /** Returns the cached entries, or else the fetched rows. */
    method GetAllTools(useCache: bool, b: Backend) returns (cached: Option<map<string, Entry>>, rows: seq<ToolRow>)
      modifies this
      ensures (State(), cached, rows) == AllToolsSpec(old(State()), useCache, b)
    {
      if !initialized && useCache {
        var _ := InitializeToolCache(b);
      }
      if useCache && |cache| > 0 {
        return Some(cache), [];
      }
      cached := None;
      rows := if b.listFails then [] else ActiveRows(b.table);
      if useCache && |rows| > 0 {
        FillCache(rows);
        initialized := true;
      }
    }

    /** The loop of `get_all_tools` that clears the cache and files each
        fetched row under its name. */
    method FillCache(rows: seq<ToolRow>)
      modifies this
      ensures cache == IndexByName(rows) && initialized == old(initialized)
    {
      cache := map[];
      var i := 0;
      while i < |rows|
        invariant 0 <= i <= |rows|
        invariant cache == IndexByName(rows[..i])
        invariant initialized == old(initialized)
      {
        assert rows[..i + 1][..i] == rows[..i];
        assert IndexByName(rows[..i + 1]) == IndexByName(rows[..i])[rows[i].name := FullRow(rows[i])];
        cache := cache[rows[i].name := FullRow(rows[i])];
        i := i + 1;
      }
      assert rows[..i] == rows;
    }

    method RefreshToolCache(b: Backend) returns (ok: bool)
      modifies this
      ensures (State(), ok) == RefreshSpec(old(State()), b)
    {
      cache := map[];
      initialized := false;
      ok := InitializeToolCache(b);
    }
  }
}

=== FILE: watermark.dfy ===
/** The watermark editor (static/js/watermark.js): the `#rrggbb` colour
    codec behind the RGB fields, the nine named positions, dragging the
    watermark within the canvas, and resetting the controls. Canvas
    drawing and text measuring are not part of the model. */
module Watermark {
  import opened Wrappers
  import opened Hex

  datatype Rgb = Rgb(r: Byte, g: Byte, b: Byte)

  predicate AllHex(s: string) {
    forall i :: 0 <= i < |s| ==> IsHexChar(s[i])
  }

  /** The shape `^#?([a-f\d]{2}){3}$` with the `i` flag: an optional `#`
      and six hex digits of either case. */
  predicate ColorShape(s: string) {
    (|s| == 7 && s[0] == '#' && AllHex(s[1..])) || (|s| == 6 && AllHex(s))
  }

  /** `hexToRgb`: the three pairs read in base 16, or nothing when the
      text does not have the shape. */
  function HexToRgb(s: string): (c: Option<Rgb>)
    ensures c.Some? <==> ColorShape(s)
    ensures c.Some? ==>
              var d := if |s| == 7 then s[1..] else s;
              c.value == Rgb(PairValue(d[0], d[1]), PairValue(d[2], d[3]), PairValue(d[4], d[5]))
  {
    if |s| == 7 && s[0] == '#' && AllHex(s[1..]) then
      var d := s[1..];
      Some(Rgb(PairValue(d[0], d[1]), PairValue(d[2], d[3]), PairValue(d[4], d[5])))
    else if |s| == 6 && AllHex(s) then
      Some(Rgb(PairValue(s[0], s[1]), PairValue(s[2], s[3]), PairValue(s[4], s[5])))
    else None
  }

  /** `Number.prototype.toString(16)` on a natural number: lower-case
      digits, most significant first, no leading zeros. */
  function ToHexString(n: nat): (s: string)
    ensures |s| >= 1
  {
    if n < 16 then [HexDigit(n)] else ToHexString(n / 16) + [HexDigit(n % 16)]
  }

  /** The `k` low-order hex digits of `v`, leading zeros kept. */
  function Digits(v: nat, k: nat): (s: string)
    ensures |s| == k
  {
    if k == 0 then [] else Digits(v / 16, k - 1) + [HexDigit(v % 16)]
  }

  function Pow16(k: nat): (p: nat)
    ensures p >= 1
  {
    if k == 0 then 1 else 16 * Pow16(k - 1)
  }

  /** A one followed by `k` digits prints as `1` and those digits. */
  lemma {:induction false} LeadingOne(v: nat, k: nat)
    requires v < Pow16(k)
    ensures ToHexString(Pow16(k) + v) == "1" + Digits(v, k)
  {
    if k > 0 {
      var n := Pow16(k) + v;
      assert n / 16 == Pow16(k - 1) + v / 16 && n % 16 == v % 16;
      LeadingOne(v / 16, k - 1);
      assert n >= 16;
    }
  }

  /** The last two of `k + 2` digits are the low byte's pair. */
  lemma DigitsSplit(v: nat, k: nat)
    ensures Digits(v, k + 2) == Digits(v / 256, k) + Hex2(v % 256)
  {
    assert v / 16 / 16 == v / 256;
    assert (v / 16) % 16 == (v % 256) / 16;
    assert v % 16 == (v % 256) % 16;
  }

  lemma ByteShift(q: nat, b: Byte)
    ensures (q * 256 + b) / 256 == q && (q * 256 + b) % 256 == b
  {
  }

  /** `k + 2` digits of a value shifted left by a byte. */
  lemma ShiftedDigits(q: nat, b: Byte, k: nat)
    ensures Digits(q * 256 + b, k + 2) == Digits(q, k) + Hex2(b)
  {
    ByteShift(q, b);
    DigitsSplit(q * 256 + b, k);
  }

  /** The packed colour `(r << 16) + (g << 8) + b`. */
  function Packed(r: Byte, g: Byte, b: Byte): nat {
    (r * 256 + g) * 256 + b
  }

  lemma FourDigits(r: Byte, g: Byte)
    ensures Digits(r * 256 + g, 4) == Hex2(r) + Hex2(g)
  {
    ShiftedDigits(r, g, 2);
    ShiftedDigits(0, r, 0);
    assert Digits(r, 2) == Hex2(r);
  }

  /** Six digits of a packed colour are the three channels' pairs. */
  lemma SixDigits(r: Byte, g: Byte, b: Byte)
    ensures Digits(Packed(r, g, b), 6) == Hex2(r) + Hex2(g) + Hex2(b)
  {
    ShiftedDigits(r * 256 + g, b, 4);
    FourDigits(r, g);
  }

  /** `rgbToHex`: `#` and the base-16 text of 2^24 + (r << 16) + (g << 8) + b
      with its leading `1` dropped. */
  function RgbToHex(r: Byte, g: Byte, b: Byte): (s: string)
    ensures |s| == 7 && s[0] == '#'
    ensures forall i :: 1 <= i < 7 ==> IsLowerHexChar(s[i])
  {
    var v := Packed(r, g, b);
    assert Pow16(6) == 16777216;
    LeadingOne(v, 6);
    SixDigits(r, g, b);
    "#" + ToHexString(16777216 + v)[1..]
  }

  /** The packed form is the usual two digits per channel. */
  lemma RgbToHexIsPairs(r: Byte, g: Byte, b: Byte)
    ensures RgbToHex(r, g, b) == "#" + Hex2(r) + Hex2(g) + Hex2(b)
  {
    assert Pow16(6) == 16777216;
    LeadingOne(Packed(r, g, b), 6);
    SixDigits(r, g, b);
  }

  /** Reading back what `rgbToHex` wrote gives the same channels. */
  lemma ChannelsRoundTrip(r: Byte, g: Byte, b: Byte)
    ensures HexToRgb(RgbToHex(r, g, b)) == Some(Rgb(r, g, b))
  {
    RgbToHexIsPairs(r, g, b);
    var s := RgbToHex(r, g, b);
    assert s[1..] == Hex2(r) + Hex2(g) + Hex2(b);
    assert AllHex(s[1..]);
  }

  /** The lower-case form of a digit string. */
  function LowerDigits(d: string): (l: string)
    requires AllHex(d)
    ensures |l| == |d| && forall i :: 0 <= i < |d| ==> IsLowerHexChar(l[i]) && HexValue(l[i]) == HexValue(d[i])
  {
    seq(|d|, i requires 0 <= i < |d| => LowerHexChar(d[i]))
  }

  /** Three pairs read and written out again come back in lower case. */
  lemma PairsRoundTrip(d: string)
    requires |d| == 6 && AllHex(d)
    ensures RgbToHex(PairValue(d[0], d[1]), PairValue(d[2], d[3]), PairValue(d[4], d[5]))
            == "#" + LowerDigits(d)
  {
    RgbToHexIsPairs(PairValue(d[0], d[1]), PairValue(d[2], d[3]), PairValue(d[4], d[5]));
    Hex2OfPair(d[0], d[1]);
    Hex2OfPair(d[2], d[3]);
    Hex2OfPair(d[4], d[5]);
    assert LowerDigits(d) == [LowerHexChar(d[0]), LowerHexChar(d[1])] + [LowerHexChar(d[2]), LowerHexChar(d[3])]
                             + [LowerHexChar(d[4]), LowerHexChar(d[5])];
  }

  /** Writing out what `hexToRgb` read gives the digits back in lower case,
      behind a `#` whether or not the input had one. */
  lemma TextRoundTrip(s: string)
    requires ColorShape(s)
    ensures var c := HexToRgb(s).value;
            RgbToHex(c.r, c.g, c.b) == "#" + LowerDigits(if |s| == 7 then s[1..] else s)
  {
    PairsRoundTrip(if |s| == 7 then s[1..] else s);
  }

  /** The margin of the named positions. */
  const Padding: real := 50.0

  const PositionNames: seq<string> := ["top-left", "top-center", "top-right",
                                       "center-left", "center", "center-right",
                                       "bottom-left", "bottom-center", "bottom-right"]

  /** `setPosition`: the anchor for each of the nine names, 50 from the
      edges it names or on the centre line; any other name is no anchor. */
  function PositionFor(name: string, w: real, h: real): (p: Option<(real, real)>)
    ensures p.Some? <==> name in PositionNames
    ensures p.Some? ==> (p.value.0 == Padding || p.value.0 == w / 2.0 || p.value.0 == w - Padding)
    ensures p.Some? ==> (p.value.1 == Padding || p.value.1 == h / 2.0 || p.value.1 == h - Padding)
    ensures p.Some? && w >= 2.0 * Padding && h >= 2.0 * Padding ==>
              Padding <= p.value.0 <= w - Padding && Padding <= p.value.1 <= h - Padding
  {
    var left, midX, right := Padding, w / 2.0, w - Padding;
    var top, midY, bottom := Padding, h / 2.0, h - Padding;
    if name == "top-left" then Some((left, top))
    else if name == "top-center" then Some((midX, top))
    else if name == "top-right" then Some((right, top))
    else if name == "center-left" then Some((left, midY))
    else if name == "center" then Some((midX, midY))
    else if name == "center-right" then Some((right, midY))
    else if name == "bottom-left" then Some((left, bottom))
    else if name == "bottom-center" then Some((midX, bottom))
    else if name == "bottom-right" then Some((right, bottom))
    else None
  }

  /** The drag hit radius: half the watermark's scaled diagonal when one
      was measured, and never less than 50. */
  function HitThreshold(halfDiagonal: Option<real>): (t: real)
    ensures t >= 50.0
    ensures halfDiagonal.Some? && halfDiagonal.value >= 50.0 ==> t == halfDiagonal.value
  {
    match halfDiagonal
    case None => 50.0
    case Some(d) => if d > 50.0 then d else 50.0
  }

  function Clamp(v: real, hi: real): (c: real)
    ensures hi >= 0.0 ==> 0.0 <= c <= hi
    ensures 0.0 <= v <= hi ==> c == v
  {
    if v < 0.0 then 0.0 else if v > hi then (if hi > 0.0 then hi else 0.0) else v
  }

  /** The watermark text and style controls. */
  datatype Controls = Controls(text: string, fontSize: int, fontFamily: string, fontColor: string,
                               opacity: int, scale: int, rotation: int, bold: bool, italic: bool)

  const DefaultControls: Controls :=
    Controls("\U{00A9} ImgCraft", 40, "Arial", "#ffffff", 70, 100, 0, false, false)

  class WatermarkEditor {
    var width: real
    var height: real
    var x: real
    var y: real
    var isDragging: bool
    var dragStartX: real
    var dragStartY: real
    var controls: Controls

    predicate Valid()
      reads this
    {
      width > 0.0 && height > 0.0
    }

    /** `setupCanvas`: the canvas takes the (fitted) image size and the
        watermark goes 100 from the right and 50 from the bottom. */
    constructor (w: real, h: real, c: Controls)
      requires w > 0.0 && h > 0.0
      ensures Valid() && width == w && height == h
      ensures x == w - 100.0 && y == h - 50.0 && !isDragging && controls == c
    {
      width := w;
      height := h;
      x := w - 100.0;
      y := h - 50.0;
      isDragging := false;
      dragStartX := 0.0;
      dragStartY := 0.0;
      controls := c;
    }

    /** `setPosition`: a named anchor, or no change for an unknown name. */
    method SetPosition(name: string)
      requires Valid()
      modifies this`x, this`y
      ensures Valid()
      ensures PositionFor(name, width, height).Some? ==> (x, y) == PositionFor(name, width, height).value
      ensures PositionFor(name, width, height).None? ==> x == old(x) && y == old(y)
    {
      var p := PositionFor(name, width, height);
      if p.Some? {
        x := p.value.0;
        y := p.value.1;
      }
    }

    /** `mousedown`/`touchstart`: a press closer to the watermark than the
        hit radius starts a drag and keeps the grab offset. The distance
        test compares squares, which is the same test for a positive
        radius. */
    method PressAt(px: real, py: real, halfDiagonal: Option<real>)
      requires Valid()
      modifies this`isDragging, this`dragStartX, this`dragStartY
      ensures Valid()
      ensures var t := HitThreshold(halfDiagonal);
              var hit := (px - x) * (px - x) + (py - y) * (py - y) < t * t;
              (hit ==> isDragging && dragStartX == px - x && dragStartY == py - y)
              && (!hit ==> isDragging == old(isDragging) && dragStartX == old(dragStartX)
                           && dragStartY == old(dragStartY))
    {
      var t := HitThreshold(halfDiagonal);
      if (px - x) * (px - x) + (py - y) * (py - y) < t * t {
        isDragging := true;
        dragStartX := px - x;
        dragStartY := py - y;
      }
    }

    /** `mousemove`/`touchmove` while dragging: the cursor less the grab
        offset, kept within the canvas. */
    method MoveTo(px: real, py: real)
      requires Valid()
      modifies this`x, this`y
      ensures Valid()
      ensures isDragging ==> 0.0 <= x <= width && 0.0 <= y <= height
      ensures isDragging ==> x == Clamp(px - dragStartX, width) && y == Clamp(py - dragStartY, height)
      ensures !isDragging ==> x == old(x) && y == old(y)
    {
      if isDragging {
        x := px - dragStartX;
        y := py - dragStartY;
        x := if x < 0.0 then 0.0 else if x > width then width else x;
        y := if y < 0.0 then 0.0 else if y > height then height else y;
      }
    }

    /** `mouseup`/`touchend`. */
    method Release()
      modifies this`isDragging
      ensures !isDragging
    {
      isDragging := false;
    }

    /** `confirmReset`: the default controls and the starting position. */
    method ConfirmReset()
      requires Valid()
      modifies this`controls, this`x, this`y
      ensures Valid() && controls == DefaultControls
      ensures x == width - 100.0 && y == height - 50.0
    {
      controls := DefaultControls;
      x := width - 100.0;
      y := height - 50.0;
    }
  }
}

=== FILE: web_ready_score.dfy ===
/** The web-ready score (static/js/web-ready-score.js): four part scores
    for file size, format, metadata and dimensions, their total, a letter
    grade and a list of tips. */
module WebReadyScore {
  import opened Wrappers
  import AdminConfig

  /** One part of the breakdown. The human-readable value column is not
      part of the model. */
  datatype Part = Part(score: nat, feedback: string)

  datatype Breakdown = Breakdown(fileSize: Part, format: Part, metadata: Part, dimensions: Part)

  datatype Report = Report(score: nat, breakdown: Breakdown, tips: seq<string>, grade: string)

  /** What `calculateScore` gives: `null` with no image or blob, a report,
      or a thrown error when no format can be found at all. */
  datatype Outcome = NoImage | Raises | Scored(report: Report)

  /** The image data handed in; `format == ""` stands for a missing or
      empty format, `hasMetadata == None` for undefined or null, and a
      width or height of 0 for an unknown one. */
  datatype ImageData = ImageData(blobSize: nat, blobType: string, format: string,
                                 width: nat, height: nat, hasMetadata: Option<bool>)

  const KiB: nat := 1024
  const MiB: nat := 1024 * 1024

  /** `_scoreFileSize`: 40 / 30 / 20 / 10 / 5 below 100 KiB, 500 KiB,
      1 MiB, 2 MiB and above. */
  function FileSizeScore(bytes: nat): (p: Part)
    ensures p.score in {40, 30, 20, 10, 5}
    ensures p.score == 40 <==> bytes < 100 * KiB
    ensures p.score == 5 <==> bytes >= 2 * MiB
  {
    if bytes < 100 * KiB then Part(40, "Excellent size for web")
    else if bytes < 500 * KiB then Part(30, "Good size for web")
    else if bytes < MiB then Part(20, "Acceptable size")
    else if bytes < 2 * MiB then Part(10, "Large file size")
    else Part(5, "Very large file")
  }

  /** A bigger file never scores higher. */
  lemma FileSizeScoreNonIncreasing(a: nat, b: nat)
    requires a <= b
    ensures FileSizeScore(b).score <= FileSizeScore(a).score
  {
  }

  /** `_scoreFormat` on the lower-cased name. */
  function FormatScore(format: string): (p: Part)
    ensures p.score in {30, 25, 20, 10, 5}
    ensures var f := AdminConfig.Lower(format);
            (p.score == 30 <==> f == "webp" || f == "avif")
            && (p.score == 20 <==> f == "jpeg" || f == "jpg")
  {
    var f := AdminConfig.Lower(format);
    if f == "webp" || f == "avif" then Part(30, "Modern web format")
    else if f == "png" then Part(25, "Good for transparency")
    else if f == "jpeg" || f == "jpg" then Part(20, "Standard web format")
    else if f == "gif" then Part(10, "Consider WebP for animations")
    else Part(5, "Legacy format")
  }

  /** Letter case does not change the format score. */
  lemma FormatScoreIgnoresCase(a: string, b: string)
    requires AdminConfig.CaseVariant(a, b)
    ensures FormatScore(a) == FormatScore(b)
  {
    assert AdminConfig.Lower(a) == AdminConfig.Lower(b);
  }

  /** `_scoreMetadata`: unknown 10, stripped 15, present 0. */
  function MetadataScore(hasMetadata: Option<bool>): (p: Part)
    ensures p.score == (match hasMetadata case None => 10 case Some(m) => if m then 0 else 15)
  {
    match hasMetadata
    case None => Part(10, "Metadata unknown")
    case Some(false) => Part(15, "Metadata stripped")
    case Some(true) => Part(0, "Contains metadata")
  }

  predicate IsHero(w: nat, h: nat) { 1800 <= w <= 2000 && 900 <= h <= 1200 }
  predicate IsSocial(w: nat, h: nat) { 1200 <= w <= 1300 && 600 <= h <= 700 }

  function MaxSide(w: nat, h: nat): nat { if w >= h then w else h }

  /** `_scoreDimensions`: unknown 10; hero, social or thumbnail sizes 15;
      a longest side in (800, 1920] 12; above 2000 5; otherwise 10. */
  function DimensionsScore(w: nat, h: nat): (p: Part)
    ensures w == 0 || h == 0 ==> p.score == 10
    ensures w > 0 && h > 0 ==>
              (p.score == 15 <==> IsHero(w, h) || IsSocial(w, h) || MaxSide(w, h) <= 800)
    ensures w > 0 && h > 0 && !(IsHero(w, h) || IsSocial(w, h)) ==>
              (p.score == 12 <==> 800 < MaxSide(w, h) <= 1920)
              && (p.score == 5 <==> MaxSide(w, h) > 2000)
              && (p.score == 10 <==> 1920 < MaxSide(w, h) <= 2000)
  {
    if w == 0 || h == 0 then Part(10, "Dimensions unknown")
    else
      var m := MaxSide(w, h);
      if IsHero(w, h) then Part(15, "Perfect for hero images")
      else if IsSocial(w, h) then Part(15, "Perfect for social media")
      else if m <= 800 then Part(15, "Great for thumbnails")
      else if m <= 1920 then Part(12, "Good web dimensions")
      else if m > 2000 then Part(5, "Consider resizing")
      else Part(10, "Acceptable dimensions")
  }

  /** `_getGrade`: A+ / A / B / C / D / F at 90 / 80 / 70 / 60 / 50. */
  function Grade(score: int): string {
    if score >= 90 then "A+"
    else if score >= 80 then "A"
    else if score >= 70 then "B"
    else if score >= 60 then "C"
    else if score >= 50 then "D"
    else "F"
  }

  /** The grades from worst to best. */
  const Grades: seq<string> := ["F", "D", "C", "B", "A", "A+"]

  /** The position of a score's grade in `Grades`. */
  function GradeRank(score: int): (k: nat)
    ensures k < |Grades| && Grades[k] == Grade(score)
  {
    if score >= 90 then 5
    else if score >= 80 then 4
    else if score >= 70 then 3
    else if score >= 60 then 2
    else if score >= 50 then 1
    else 0
  }

  /** A higher score never gets a worse grade. */
  lemma GradeMonotone(a: int, b: int)
    requires a <= b
    ensures GradeRank(a) <= GradeRank(b)
  {
  }

  const CompressTip: string := "\U{1F4A1} Compress the image to reduce file size"
  const WebpTip: string := "\U{1F4A1} Convert to WebP for better compression"
  const ExifTip: string := "\U{1F4A1} Remove EXIF data to reduce size and improve privacy"
  const ResizeTip: string := "\U{1F4A1} Resize to common web dimensions (e.g., 1920\U{00D7}1080)"
  const PraiseTip: string := "\U{2728} This image is well-optimized for web use!"

  /** `_generateTips`: one tip per weak part, or praise when there is none. */
  function Tips(b: Breakdown, format: string): (tips: seq<string>)
    ensures |tips| >= 1
    ensures (b.fileSize.score >= 20 && b.format.score >= 25 && b.metadata.score != 0
             && b.dimensions.score >= 10) ==> tips == [PraiseTip]
    ensures b.fileSize.score < 20 ==> tips[0] == CompressTip
    ensures b.format == FormatScore(format) && b.format.score < 25 ==> WebpTip in tips
    ensures b.metadata.score == 0 ==> ExifTip in tips
    ensures b.dimensions.score < 10 ==> ResizeTip in tips
    ensures PraiseTip in tips ==> tips == [PraiseTip]
  {
    var f := AdminConfig.Lower(format);
    var tips := (if b.fileSize.score < 20 then [CompressTip] else [])
      + (if b.format.score < 25 && f != "webp" && f != "avif" then [WebpTip] else [])
      + (if b.metadata.score == 0 then [ExifTip] else [])
      + (if b.dimensions.score < 10 then [ResizeTip] else []);
    if |tips| == 0 then [PraiseTip] else tips
  }

  /** `imageData.format || blob.type.split('/')[1]`: the given format, or
      the part of the MIME type after its first slash up to any next one;
      nothing when the type has no slash. */
  function FormatName(d: ImageData): (f: Option<string>)
    ensures d.format != "" ==> f == Some(d.format)
  {
    if d.format != "" then Some(d.format)
    else if '/' in d.blobType then Some(SecondField(d.blobType))
    else None
  }

  /** The field after the first `/`. */
  function SecondField(s: string): (r: string)
    requires '/' in s
    ensures '/' !in r
  {
    if s[0] == '/' then FirstField(s[1..]) else SecondField(s[1..])
  }

  /** The field before the first `/`. */
  function FirstField(s: string): (r: string)
    ensures '/' !in r && r <= s
  {
    if |s| == 0 || s[0] == '/' then [] else [s[0]] + FirstField(s[1..])
  }

  /** `calculateScore`. */
  function CalculateScore(d: Option<ImageData>): (o: Outcome)
  {
    match d
    case None => NoImage
    case Some(img) =>
      match FormatName(img)
      case None => Raises
      case Some(f) =>
        var b := Breakdown(FileSizeScore(img.blobSize), FormatScore(f),
                           MetadataScore(img.hasMetadata), DimensionsScore(img.width, img.height));
        var total := b.fileSize.score + b.format.score + b.metadata.score + b.dimensions.score;
        Scored(Report(total, b, Tips(b, f), Grade(total)))
  }

  /** The total is the sum of the four parts and lies in [15, 100]; the
      grade is the total's grade and there is always a tip. */
  lemma ScoreInRange(d: Option<ImageData>)
    ensures d.None? <==> CalculateScore(d) == NoImage
    ensures CalculateScore(d).Scored? ==>
              var r := CalculateScore(d).report;
              r.score == r.breakdown.fileSize.score + r.breakdown.format.score
                         + r.breakdown.metadata.score + r.breakdown.dimensions.score
              && 15 <= r.score <= 100 && r.grade == Grade(r.score) && |r.tips| >= 1
    ensures CalculateScore(d).Raises? <==> d.Some? && FormatName(d.value).None?
  {
    if d.Some? && FormatName(d.value).Some? {
      var img := d.value;
      var f := FormatName(img).value;
      var _ := FileSizeScore(img.blobSize);
      var _ := FormatScore(f);
      var _ := MetadataScore(img.hasMetadata);
      var _ := DimensionsScore(img.width, img.height);
    }
  }
}

=== FILE: webhook.dfy ===
/** The gateway's server-to-server notifications (payments/webhook_handler.py):
    the transport signature check, the dispatch on the event type, and the
    handlers for captured and failed payments. The signature the shared secret
    gives for the raw body is an input, as are the store's errors. */
module Webhook {
  import opened Wrappers
  import opened Store
  import Text
  import CreditManager
  import Settlement

  /** `verify_webhook_signature`: false when the secret is unset or empty, and
      false when the header is missing (the comparison raises); otherwise the
      header must equal the hex HMAC-SHA256 of the body under the secret. */
  function VerifyWebhookSignature(secret: Option<string>, header: Option<string>,
                                  expectedHex: string): (ok: bool)
    ensures ok ==> secret.Some? && secret.value != "" && header == Some(expectedHex)
    ensures secret.Some? && secret.value != "" && header == Some(expectedHex) ==> ok
  {
    if secret.None? || secret.value == "" then false
    else if header.None? then false
    else header.value == expectedHex
  }

  /** The payment entity of an event: its order id and payment id, either of
      which may be absent. */
  datatype Entity = Entity(orderId: Option<string>, paymentId: Option<string>)

  datatype Event = Event(eventType: Option<string>, entity: Entity)

  /** A handler's dictionary: success with a message, or failure with an error. */
  datatype HandlerResult = Handled(message: string) | NotHandled(error: string)

  /** Store errors during one handler run. */
  datatype Faults = Faults(selectFails: bool, updateFails: bool, addFails: bool, exc: string)

  /** The rows `.eq('razorpay_order_id', o).single()` would return. */
  function OrderRows(t: Tables, orderId: Option<string>): seq<nat> {
    if orderId.None? then [] else RowsForOrder(t.payments, orderId.value)
  }

  /** `handle_payment_captured` as written: find the single row for the order,
      set it to completed with the event's payment id, then add the row's
      credits to the row's user, with no check of the row's prior status.
      `.single()` raises unless exactly one row matches, and the handler's
      `except` answers with the raised text (`f.exc`); the "Payment record
      not found" branch after it needs an empty row, which a select never
      returns, so no store reaches it. */
  function CapturedAsWritten(t: Tables, e: Entity, f: Faults): (r: (Tables, HandlerResult))
    ensures |OrderRows(t, e.orderId)| != 1 ==> r == (t, NotHandled(f.exc))
    ensures r.1.Handled? ==> !f.selectFails && !f.updateFails && !f.addFails
  {
    var rows := OrderRows(t, e.orderId);
    if f.selectFails || |rows| != 1 then (t, NotHandled(f.exc))  // `.single()` raises
    else if f.updateFails then (t, NotHandled(f.exc))
    else
      var row := t.payments[rows[0]];
      var t1 := t.(payments := SetPaymentByOrderId(t.payments, e.orderId.value, e.paymentId, Completed));
      var (t2, added) := CreditManager.AddSpec(t1, row.user, row.credits, f.addFails, f.exc);
      if added.AddErr? then (t1, NotHandled("Failed to add credits"))
      else (t2, Handled("Added " + Text.IntToString(row.credits) + " credits to user " + row.user))
  }

  /** The handler with the evidently intended guard: a row already completed
      is acknowledged without crediting again. */
  function Captured(t: Tables, e: Entity, f: Faults): (r: (Tables, HandlerResult))
    ensures |OrderRows(t, e.orderId)| != 1 ==> r == (t, NotHandled(f.exc))
    ensures |OrderRows(t, e.orderId)| == 1 && t.payments[OrderRows(t, e.orderId)[0]].status == Completed
            ==> r.0 == t
    ensures |OrderRows(t, e.orderId)| == 1 && t.payments[OrderRows(t, e.orderId)[0]].status != Completed
            ==> r == CapturedAsWritten(t, e, f)
  {
    var rows := OrderRows(t, e.orderId);
    if f.selectFails || |rows| != 1 then (t, NotHandled(f.exc))
    else if t.payments[rows[0]].status == Completed then (t, Handled("Payment already processed"))
    else CapturedAsWritten(t, e, f)
  }

  /** `handle_payment_failed`: every row of the order becomes failed. */
  function FailedSpec(t: Tables, e: Entity, f: Faults): (r: (Tables, HandlerResult))
    ensures r.0.credits == t.credits && r.0.usage == t.usage && |r.0.payments| == |t.payments|
    ensures r.0 == t.(payments := r.0.payments)
    ensures r.1.Handled? ==> forall i :: 0 <= i < |t.payments| ==>
              r.0.payments[i] == if Some(t.payments[i].orderId) == e.orderId
                                 then t.payments[i].(status := Failed) else t.payments[i]
    ensures r.1.NotHandled? ==> r.0 == t
  {
    if f.updateFails then (t, NotHandled(f.exc))
    else if e.orderId.None? then (t, Handled("Payment marked as failed"))
    else (t.(payments := SetStatusByOrderId(t.payments, e.orderId.value, Failed)),
          Handled("Payment marked as failed"))
  }

  /** Which handler an event type selects. */
  datatype Route = ToCaptured | ToFailed | Acknowledge

  function RouteOf(eventType: Option<string>): Route {
    if eventType == Some("payment.captured") then ToCaptured
    else if eventType == Some("payment.failed") then ToFailed
    else Acknowledge
  }

  /** The reply of `process_webhook`: the body and the status code. */
  datatype Reply = Reply(result: HandlerResult, status: int)

  function StatusOf(r: HandlerResult): int {
    if r.Handled? then 200 else 500
  }

  /** `process_webhook`: a bad signature is refused with 401 before anything
      runs; captured and failed events reply 200 when their handler succeeds
      and 500 otherwise; any other event is acknowledged with 200. Captured
      events go to the handler as written. */
  function ProcessSpec(t: Tables, ev: Event, signatureOk: bool, f: Faults): (r: (Tables, Reply))
    ensures !signatureOk ==> r == (t, Reply(NotHandled("Invalid webhook signature"), 401))
    ensures signatureOk && RouteOf(ev.eventType) == Acknowledge ==> r.0 == t && r.1.status == 200
    ensures signatureOk && RouteOf(ev.eventType) != Acknowledge ==>
              (r.1.status == 200 <==> r.1.result.Handled?) && r.1.status in {200, 500}
    ensures signatureOk && RouteOf(ev.eventType) == ToCaptured ==>
              r.0 == CapturedAsWritten(t, ev.entity, f).0
  {
    if !signatureOk then (t, Reply(NotHandled("Invalid webhook signature"), 401))
    else match RouteOf(ev.eventType)
      case ToCaptured =>
        var (t', res) := CapturedAsWritten(t, ev.entity, f);
        (t', Reply(res, StatusOf(res)))
      case ToFailed =>
        var (t', res) := FailedSpec(t, ev.entity, f);
        (t', Reply(res, StatusOf(res)))
      case Acknowledge =>
        var name := if ev.eventType.Some? then ev.eventType.value else "None";
        (t, Reply(Handled("Event " + name + " acknowledged but not processed"), 200))
  }

  /** The endpoint with the evidently intended guard: only captured events
      differ, and they go to the guarded handler. */
  function ProcessIntended(t: Tables, ev: Event, signatureOk: bool, f: Faults): (r: (Tables, Reply))
    ensures !(signatureOk && RouteOf(ev.eventType) == ToCaptured) ==> r == ProcessSpec(t, ev, signatureOk, f)
    ensures signatureOk && RouteOf(ev.eventType) == ToCaptured ==>
              r.0 == Captured(t, ev.entity, f).0 && (r.1.status == 200 <==> r.1.result.Handled?)
  {
    if signatureOk && RouteOf(ev.eventType) == ToCaptured then
      var (t', res) := Captured(t, ev.entity, f);
      (t', Reply(res, StatusOf(res)))
    else ProcessSpec(t, ev, signatureOk, f)
  }

  /** A correctly signed captured notification for an entity, with no store error. */
  function CapturedEvent(e: Entity): Event {
    Event(Some("payment.captured"), e)
  }

  const NoFaults := Faults(false, false, false, "")

  // ------------------------------------------------------------ interleavings

  /** The balance of a user, 0 without a row. */
  function Balance(t: Tables, user: UserId): int {
    if user in t.credits then t.credits[user].remaining else 0
  }

  /** A successful confirmation of an order with no earlier row leaves exactly
      one row for the order, completed, for the confirming user, and raises
      that user's balance by the order's credits. */
  lemma SettledOrderHasOneCompletedRow(t: Tables, user: UserId, req: Settlement.Request,
                                       env: Settlement.Env)
    requires req.orderId.Some? && req.paymentId.Some?
    requires Settlement.SettleSpec(t, user, req, env).1.status == 200
    requires !HasPaymentId(t.payments, req.paymentId.value)
    requires forall i :: 0 <= i < |t.payments| ==> Some(t.payments[i].orderId) != req.orderId
    ensures var t1 := Settlement.SettleSpec(t, user, req, env).0;
            var c := Settlement.Precheck(req, env);
            && c.Accepted?
            && OrderRows(t1, req.orderId) == [|t.payments|]
            && t1.payments[|t.payments|].status == Completed
            && t1.payments[|t.payments|].user == user
            && t1.payments[|t.payments|].credits == c.credits
            && Balance(t1, user) == Balance(t, user) + c.credits
  {
    Settlement.SuccessAppendsRowAndCredits(t, user, req, env);
    var t1 := Settlement.SettleSpec(t, user, req, env).0;
    assert t1.payments[..|t1.payments| - 1] == t.payments;
    NoRowsForOrder(t.payments, req.orderId.value);
  }

  /** A confirmation that succeeds followed by one correctly signed captured
      notification for the same order and payment: the endpoint as written
      credits the buyer a second time. */
  lemma CallbackThenWebhookCreditsTwice(t: Tables, user: UserId, req: Settlement.Request,
                                        env: Settlement.Env)
    requires req.orderId.Some? && req.paymentId.Some?
    requires Settlement.SettleSpec(t, user, req, env).1.status == 200
    requires !HasPaymentId(t.payments, req.paymentId.value)
    requires forall i :: 0 <= i < |t.payments| ==> Some(t.payments[i].orderId) != req.orderId
    ensures var t1 := Settlement.SettleSpec(t, user, req, env).0;
            var n := Settlement.Precheck(req, env).credits;
            var e := Entity(req.orderId, req.paymentId);
            var t2 := ProcessSpec(t1, CapturedEvent(e), true, NoFaults).0;
            Balance(t1, user) == Balance(t, user) + n
            && Balance(t2, user) == Balance(t, user) + 2 * n
  {
    SettledOrderHasOneCompletedRow(t, user, req, env);
  }

  lemma {:induction false} NoRowsForOrder(rows: seq<PaymentRow>, orderId: string)
    requires forall i :: 0 <= i < |rows| ==> rows[i].orderId != orderId
    ensures RowsForOrder(rows, orderId) == []
  {
    if rows != [] {
      NoRowsForOrder(rows[..|rows| - 1], orderId);
    }
  }

  /** Replays `k` correctly signed captured notifications for the same entity
      through the endpoint with the guarded handler. */
  function Replay(t: Tables, e: Entity, k: nat): Tables
    decreases k
  {
    if k == 0 then t else Replay(ProcessIntended(t, CapturedEvent(e), true, NoFaults).0, e, k - 1)
  }

  /** After a successful confirmation, any number of captured notifications
      for that order leave the balance where the confirmation put it: the
      buyer is credited exactly once. */
  lemma CallbackThenWebhooksCreditOnce(t: Tables, user: UserId, req: Settlement.Request,
                                       env: Settlement.Env, k: nat)
    requires req.orderId.Some? && req.paymentId.Some?
    requires Settlement.SettleSpec(t, user, req, env).1.status == 200
    requires !HasPaymentId(t.payments, req.paymentId.value)
    requires forall i :: 0 <= i < |t.payments| ==> Some(t.payments[i].orderId) != req.orderId
    ensures var t1 := Settlement.SettleSpec(t, user, req, env).0;
            Replay(t1, Entity(req.orderId, req.paymentId), k) == t1
  {
    SettledOrderHasOneCompletedRow(t, user, req, env);
    var t1 := Settlement.SettleSpec(t, user, req, env).0;
    ReplayOnCompleted(t1, Entity(req.orderId, req.paymentId), k);
  }

  /** Replaying notifications over a single completed row is a no-op. */
  lemma {:induction false} ReplayOnCompleted(t: Tables, e: Entity, k: nat)
    requires |OrderRows(t, e.orderId)| == 1 && t.payments[OrderRows(t, e.orderId)[0]].status == Completed
    ensures Replay(t, e, k) == t
  {
    if k > 0 {
      assert ProcessIntended(t, CapturedEvent(e), true, NoFaults).0 == t;
      ReplayOnCompleted(t, e, k - 1);
    }
  }

  // ------------------------------------------------------------ on the store

  /** The handler as written, on the store object. */
  method HandlePaymentCapturedAsWritten(db: Db, e: Entity, f: Faults) returns (r: HandlerResult)
    modifies db
    ensures (db.Snapshot(), r) == CapturedAsWritten(old(db.Snapshot()), e, f)
  {
    var rows := OrderRows(db.Snapshot(), e.orderId);
    if f.selectFails || |rows| != 1 {
      return NotHandled(f.exc);
    }
    var row := db.payments[rows[0]];
    if f.updateFails {
      return NotHandled(f.exc);
    }
    db.payments := SetPaymentByOrderId(db.payments, e.orderId.value, e.paymentId, Completed);
    var added := CreditManager.AddCredits(db, row.user, row.credits, f.addFails, f.exc);
    if added.AddErr? {
      return NotHandled("Failed to add credits");
    }
    r := Handled("Added " + Text.IntToString(row.credits) + " credits to user " + row.user);
  }

  /** The guarded handler, on the store object. */
  method HandlePaymentCaptured(db: Db, e: Entity, f: Faults) returns (r: HandlerResult)
    modifies db
    ensures (db.Snapshot(), r) == Captured(old(db.Snapshot()), e, f)
  {
    var rows := OrderRows(db.Snapshot(), e.orderId);
    if !f.selectFails && |rows| == 1 && db.payments[rows[0]].status == Completed {
      return Handled("Payment already processed");
    }
    r := HandlePaymentCapturedAsWritten(db, e, f);
  }

  method HandlePaymentFailed(db: Db, e: Entity, f: Faults) returns (r: HandlerResult)
    modifies db
    ensures (db.Snapshot(), r) == FailedSpec(old(db.Snapshot()), e, f)
  {
    if f.updateFails {
      return NotHandled(f.exc);
    }
    if e.orderId.Some? {
      db.payments := SetStatusByOrderId(db.payments, e.orderId.value, Failed);
    }
    r := Handled("Payment marked as failed");
  }

  method ProcessWebhook(db: Db, ev: Event, signatureOk: bool, f: Faults) returns (reply: Reply)
    modifies db
    ensures (db.Snapshot(), reply) == ProcessSpec(old(db.Snapshot()), ev, signatureOk, f)
  {
    if !signatureOk {
      return Reply(NotHandled("Invalid webhook signature"), 401);
    }
    match RouteOf(ev.eventType)
    case ToCaptured =>
      var res := HandlePaymentCapturedAsWritten(db, ev.entity, f);
      reply := Reply(res, StatusOf(res));
    case ToFailed =>
      var res := HandlePaymentFailed(db, ev.entity, f);
      reply := Reply(res, StatusOf(res));
    case Acknowledge =>
      var name := if ev.eventType.Some? then ev.eventType.value else "None";
      reply := Reply(Handled("Event " + name + " acknowledged but not processed"), 200);
  }
}

=== FILE: wrappers.dfy ===
/** Small shared value types: an optional value, standing for Python's `None`
    and JavaScript's `null`/`undefined`. */
module Wrappers {

  datatype Option<+T> = None | Some(value: T) {

    /** The value, or `default` when absent (Python's `dict.get(key, default)`). */
    function GetOr(default: T): T {
      match this
      case Some(v) => v
      case None => default
    }
  }
}
